=== FILE: README.md ===
# BundlerMatcher in Dafny

A model of BundlerMatcher, the feature-extraction and pairwise-matching
front end of SFMToolkit, written in Dafny. For each listed image,
BundlerMatcher does one of two things:

- it reuses the cached key file (`<stem>.key` or `<stem>.key.bin`);
- or it runs the SIFT engine tile by tile, merges the tiles' keypoints, and
  writes the key files.

Then it matches the selected image pairs. It writes the match list,
`matrix.txt` (match counts) and `vector.txt` (feature counts).

The model covers the following, one module per component:

- `MatcherTypes` (`types.dfy`): the header's data model.
  - `Match`, `MatchInfo` and `FeatureInfo` as datatypes. Their C++
    constructors store their arguments unchanged, as the Dafny constructors
    do.
  - The matcher's fields, and the constructor with the header's defaults.
  - Unsigned 32-bit wrap-around.
- `PairSelection` (`pairs.dfy`): the two pair policies of `open`.
  - Exhaustive: every `i < j`.
  - Sequence: `(i, i+j)` with `1 <= j <= L`.
  - Both as reference definitions and as the nested loops, with exact counts
    and order.
  - The progress denominator and the sequence loop's outer bound, as
    written.
- `KeyPaths` (`keypaths.dfy`): the key-file stem, with the last four
  characters cut off and the `size_t` clamp. Also the cache decision (either
  file exists).
- `Quantization` (`quantization.dfy`): `floor(0.5 + 512·d)` and the reader's
  decoding.
- `KeyText` (`keytext.dfy`): the text key file.
  - The writer gives a header `n 128`, then per keypoint a `y x s o` line and
    seven descriptor lines (six of 20 values, one of 8), with a space after
    each value.
  - The reader is a token stream with a failure flag.
  - Read-after-write theorems.
- `KeyBinary` (`keybinary.dfy`): the binary key file.
  - A count, then per keypoint `x y s o` and 128 floats.
  - A reader defined for the model alone, with its round trip, and the
    agreement of the two formats.
- `Tiling` (`tiling.dfy`): the tile grid of `extractSiftFeature`.
  - The tile grid uses C++ truncating division. A tile count of zero divides
    by zero; on an image of positive size, a negative count, or one above the
    width or the height, makes the loops never end.
  - The merge of the tiles' keypoints and descriptors, and the value
    returned.
- `ListFile` (`listfile.dfy`): `parseListFile`, meaning the non-empty lines
  in order and a result that is always `true`, with a join/parse round trip.
- `ResultFiles` (`results.dfy`): the writers of the result files.
  - `saveMatches`, with its parser and round trip.
  - `saveMatrix`: the last write wins, not mirrored.
  - `saveVector`.
- `Matching` (`matching.dfy`): `matchSiftFeature`. The matching engine is a
  parameter, bounded by the buffer of `max(|A|, |B|)` pairs.
- `FeatureTable` (`features.dfy`): the extraction loop of `open`, in two
  versions.
  - As written: an image that does not load, or a key file with a bad width,
    pushes nothing; a key file with a negative count, or the RAM estimate's
    divisor wrapping to 0, stops the program.
  - Corrected: one entry per listed image.
- `CommandLine` (`cli.dfy`): `main`'s argument scan, validation and exit
  codes.
- `Orchestrator` (`orchestrator.dfy`): `open` from start to end, composing
  the corrected phases.

Several things outside the model are parameters:

- The SIFT extractor: a function from image path and tile to an optional
  sequence of features, each with a 128-value descriptor.
- The matching engine: a function from the two feature sets, the buffer size
  and the thresholds to index pairs.
- The image codec: a map from path to image size.
- The file system: maps from path to token or item sequences.
- `atoi`/`atof`: uninterpreted functions.

The model departs from the code, or from the code's documentation, in these
places:

- The constructor and `open`: the header declares a 10-parameter constructor
  and a 4-parameter `open`, which `main` calls. The definitions in
  `BundlerMatcher.cpp` take 8 and 3 parameters. The model follows the
  header's signature and stores `tilePercent` and the pairs flag as the
  header's fields; `open` takes no pairs file.
- The key-file format's documentation describes a `+256` bias. The code has
  none, and the model follows the code (see Findings).
- A missing list file is described as fatal. In the code, `parseListFile`
  always returns `true` and a missing file gives an empty list, and the model
  follows the code.
- A bad-width key file is described as giving an empty feature set. In the
  code nothing is pushed. The model has both versions: the as-written phase,
  and the corrected one, which records an empty entry.
- A cached key file with a negative count makes `readAsciiKeyFile` throw: it
  cannot allocate `128*num` descriptor values. The as-written phase stops
  there; the corrected one records an empty entry, as for a bad width (see
  Findings).
- The RAM estimate printed with the progress line divides by
  `(i+1)*2097152` in `unsigned int`, which wraps to 0 at the 2048th image.
  The as-written phase stops there; the corrected one has no estimate (see
  Findings).
- In `extractSiftFeature`, a failed tile only clears the `extracted` flag.
  The image's entry is still pushed; only an image that does not load pushes
  nothing.

## Model

| member | source | states |
|---|---|---|
| MatcherTypes.ToUInt32 | BundlerMatcher/src/BundlerMatcher.cpp:338 | the engine's `int` indices stored as `unsigned int`: congruent modulo 2^32, unchanged in range, shifted by 2^32 when negative |
| MatcherTypes.FlattenDescriptorsAt | BundlerMatcher/src/BundlerMatcher.cpp:270-285 | value k of block i of the flat descriptor vector is value k of feature i's 128-value descriptor |
| MatcherTypes.HeaderDefaults | BundlerMatcher/include/BundlerMatcher.h:75-77 | built from the two thresholds alone: first octave 1, sequence length 5, tile count 1, tile fraction 1.0, every mode flag off; together with CommandLine.RunCarriesFlags it stands for the constructor MatcherTypes.NewMatcher (BundlerMatcher.cpp:38-75) |
| PairSelection.ExhaustivePairsSpec | BundlerMatcher/src/BundlerMatcher.cpp:183-197 | exhaustive mode gives exactly the pairs 0 <= a < b < N, in row-major order without repeats, N(N-1)/2 of them; stands for the reference definition PairSelection.ExhaustivePairs |
| PairSelection.SequencePairsSpec | BundlerMatcher/src/BundlerMatcher.cpp:159-182 | sequence mode gives exactly the pairs a < b < N with b - a <= L, ordered by a then b, and as many as the window count; stands for the reference definition PairSelection.SequencePairs |
| PairSelection.WindowCountClosedForm | BundlerMatcher/src/BundlerMatcher.cpp:162 | for 0 <= L <= N the window count is (N-L)·L + L(L-1)/2 |
| PairSelection.SelectedPairsInRange | BundlerMatcher/src/BundlerMatcher.cpp:159-197 | both policies only name images 0 <= a < b < N |
| PairSelection.EnumeratePairs | BundlerMatcher/src/BundlerMatcher.cpp:159-197 | the nested loops call the matcher on exactly the selected pairs in that order, N(N-1)/2 exhaustive and (N-L)·L + L(L-1)/2 in sequence mode with L <= N, every pair with a < b < N |
| PairSelection.EnumerateSequence | BundlerMatcher/src/BundlerMatcher.cpp:159-182 | the sequence-mode loops, skipping every b >= N, visit exactly the sequence-mode pairs in their order |
| PairSelection.EnumerateExhaustive | BundlerMatcher/src/BundlerMatcher.cpp:183-197 | the exhaustive loops visit exactly the pairs a < b < N, row by row |
| PairSelection.SequenceFiveByTwo | BundlerMatcher/src/BundlerMatcher.cpp:163-181 | five images with window 2 give (0,1),(0,2),(1,2),(1,3),(2,3),(2,4),(3,4) in that order |
| PairSelection.ProgressTotalAgreesUpToN | BundlerMatcher/src/BundlerMatcher.cpp:162 | the progress denominator equals the number of pairs matched when L <= N |
| PairSelection.ProgressTotalWrongBeyondN | BundlerMatcher/src/BundlerMatcher.cpp:162 | with L > N it does not: two images and L = 5 match one pair against a denominator of -5, three images match three against 0 |
| PairSelection.ProgressTotal | BundlerMatcher/src/BundlerMatcher.cpp:162 | the intended denominator is the number of pairs matched, agrees with the written formula for L <= N, and is 0 only for N <= 1 or L = 0 |
| PairSelection.SequenceLoopAsWrittenOnEmptyList | BundlerMatcher/src/BundlerMatcher.cpp:163 | with a 64-bit `size_t`, the bound `size()-1` wraps to 2^64-1 for an empty list, which an `unsigned int` counter never reaches; for 1..2^32 images it is N-1 |
| PairSelection.SequenceInnerLoopAsWrittenAtIntMax | BundlerMatcher/src/BundlerMatcher.cpp:165 | the inner loop's `int` counter can fail `j <= L` exactly when L is below INT_MAX: at L = 2^31-1 every `int` value passes the test, so the loop never ends |
| PairSelection.SequencePairsOnEmptyList | BundlerMatcher/src/BundlerMatcher.cpp:163 | with the bound written without wrap-around an empty list has no pairs, and N >= 1 images have the rows 0..N-2 |
| KeyPaths.Stem | BundlerMatcher/src/BundlerMatcher.cpp:86 | the stem is a prefix of the name, four characters shorter, or the whole name when it is shorter than four characters |
| KeyPaths.KeyPathsShape | BundlerMatcher/src/BundlerMatcher.cpp:83-99 | the text key path is input path + name without its last four characters + `.key`, and the binary one is that path + `.bin`; stands for KeyPaths.KeyTextPath and KeyPaths.KeyBinaryPath |
| KeyPaths.CacheSharedByStem | BundlerMatcher/src/BundlerMatcher.cpp:123 | two names equal up to their last four characters share key files and get the same cache decision; stands for the cache decision KeyPaths.CacheHit |
| KeyPaths.StemExamples | BundlerMatcher/src/BundlerMatcher.cpp:409 | `img.jpg` gives `img`, `img.jpeg` gives `img.`, `a.b` is kept whole, and `a.jpg` and `a.png` share `dir/a.key` |
| Quantization.Quantize | BundlerMatcher/src/BundlerMatcher.cpp:429 | the stored integer q is the floor of 0.5 + 512·d |
| Quantization.QuantizeMonotone | BundlerMatcher/src/BundlerMatcher.cpp:429 | quantisation preserves order |
| Quantization.QuantizeRange | BundlerMatcher/src/BundlerMatcher.cpp:429 | a descriptor value in [0, 0.5) is stored as an integer in [0, 256] |
| Quantization.DequantizeAsWrittenShifts | BundlerMatcher/src/BundlerMatcher.cpp:393 | the reader's q/512 - 0.5 re-quantises to q - 256, and reads back a value 0.5 below the original, to within 1/1024; stands for the reader's decoding Quantization.DequantizeAsWritten |
| Quantization.DequantizeAsWrittenExample | BundlerMatcher/src/BundlerMatcher.cpp:393 | 0.25 is written as 128 and read back as -0.25 |
| Quantization.Dequantize | BundlerMatcher/src/BundlerMatcher.cpp:393 | the corrected decoding q/512 is non-negative and re-quantises to q |
| Quantization.DequantizeRoundTrip | BundlerMatcher/src/BundlerMatcher.cpp:429 | written and read back with the corrected decoding, a value moves by at most 1/1024 and re-encodes to the same integer |
| KeyText.Fixed | BundlerMatcher/src/BundlerMatcher.cpp:426 | a position written with a fixed number of decimals is within half a unit of the last decimal of its value |
| KeyText.DescriptorLines | BundlerMatcher/src/BundlerMatcher.cpp:427-434 | a 128-value descriptor is written as seven lines, six of 20 values and one of 8, each value followed by a space, value 20·r + c at row r, column c |
| KeyText.FeatureLinesLayout | BundlerMatcher/src/BundlerMatcher.cpp:423-435 | keypoint i occupies lines 8i..8i+7: its position line, then its descriptor lines |
| KeyText.WriteKeyTextLayout | BundlerMatcher/src/BundlerMatcher.cpp:406-438 | the file has 1 + 8n lines: `n 128`, then the group of each keypoint in order; stands for the writer KeyText.WriteKeyText and its descriptor tokens KeyText.QTokens |
| KeyText.ReadBlock | BundlerMatcher/src/BundlerMatcher.cpp:389-394 | reading a descriptor yields exactly the requested number of values |
| KeyText.ReadFeatures | BundlerMatcher/src/BundlerMatcher.cpp:382-395 | reading n keypoints yields n positions and 128·n descriptor values |
| KeyText.ReadKeyText | BundlerMatcher/src/BundlerMatcher.cpp:343-404 | a feature set is stored exactly when the image loads, the file opens, the width is 128 and the count is not negative; it carries the image's size; width other than 128 is the rejection case |
| KeyText.ReadBlockOfWritten | BundlerMatcher/src/BundlerMatcher.cpp:389-394 | reading back written descriptor integers decodes each one and leaves the rest of the stream untouched |
| KeyText.ReadPositionOfWritten | BundlerMatcher/src/BundlerMatcher.cpp:385-388 | the `y x s o` line reads back as the keypoint with its written (rounded) coordinates |
| KeyText.ReadFeatureTokens | BundlerMatcher/src/BundlerMatcher.cpp:382-395 | reading n keypoints back from what the writer emitted gives the rounded positions and the decoded descriptors, and leaves the rest of the stream |
| KeyText.ReadFeaturesOfWritten | BundlerMatcher/src/BundlerMatcher.cpp:423-435 | the same round trip from the writer's lines |
| KeyText.ReadAfterWrite | BundlerMatcher/src/BundlerMatcher.cpp:343-438 | reading the written file gives the image's size, the rounded positions and the decoded descriptors |
| KeyText.RewriteAsWrittenShifts | BundlerMatcher/src/BundlerMatcher.cpp:393 | with the reader as written every re-written descriptor integer is the original minus 256 |
| KeyText.RewriteReproducesIntegers | BundlerMatcher/src/BundlerMatcher.cpp:429 | with the corrected decoding every re-written integer equals the original and every value moves by at most 1/1024 |
| KeyText.WrongWidthRejected | BundlerMatcher/src/BundlerMatcher.cpp:369-373 | a width other than 128 stores nothing and returns -1 |
| KeyText.ReadReturnValueSpec | BundlerMatcher/src/BundlerMatcher.cpp:343-404 | readAsciiKeyFile returns -1 exactly when the width field is not 128, 0 when the image or the key file does not open, and the file's count field, never negative, when the features are loaded; stands for KeyText.ReadReturnValue |
| KeyText.ReadReturnsWrittenCount | BundlerMatcher/src/BundlerMatcher.cpp:403 | reading a file the writer produced returns its number of keypoints |
| KeyBinary.RecordsLayout | BundlerMatcher/src/BundlerMatcher.cpp:453-465 | record i is 132 items: x, y, s, o (x before y) and the keypoint's descriptor |
| KeyBinary.WriteKeyBinaryLayout | BundlerMatcher/src/BundlerMatcher.cpp:440-468 | the file is the count followed by one 132-item record per keypoint in order; stands for the writer KeyBinary.WriteKeyBinary and its descriptor items KeyBinary.Floats |
| KeyBinary.ReadKeyBinary | BundlerMatcher/src/BundlerMatcher.cpp:440-468 | a read of the binary layout gives a well-formed feature set with the given size |
| KeyBinary.ReadRecordsOfWritten | BundlerMatcher/src/BundlerMatcher.cpp:453-465 | the records read back to exactly the keypoints and descriptors written |
| KeyBinary.ReadAfterWriteBinary | BundlerMatcher/src/BundlerMatcher.cpp:440-468 | the binary file loses nothing: reading it gives the feature set written |
| KeyBinary.FormatsAgree | BundlerMatcher/src/BundlerMatcher.cpp:406-468 | the two key files of one feature set read back to the same counts and the same quantised descriptors |
| Tiling.TruncDiv | BundlerMatcher/src/BundlerMatcher.cpp:247-248 | C++ `int` division truncates toward zero |
| Tiling.OffsetsSpec | BundlerMatcher/src/BundlerMatcher.cpp:253-255 | the offsets are 0, step, 2·step, ... while below the extent, and they cover it |
| Tiling.OffsetCount | BundlerMatcher/src/BundlerMatcher.cpp:247-255 | with 0 < t <= extent there are exactly t offsets when t divides the extent and more otherwise |
| Tiling.GridOrder | BundlerMatcher/src/BundlerMatcher.cpp:253-256 | the tiles come width-outer: column i is the height offsets at width offset i |
| Tiling.GridMembers | BundlerMatcher/src/BundlerMatcher.cpp:253-256 | a tile is in the grid exactly when its offsets are among the offsets and it has the tile size |
| Tiling.TileLayout | BundlerMatcher/src/BundlerMatcher.cpp:247-255 | a tile count of 0 is a division by zero, and any tile layout of a non-empty image has positive tile sizes |
| Tiling.TileLayoutSpec | BundlerMatcher/src/BundlerMatcher.cpp:247-255 | 0 < t <= w, h gives the grid of w/t by h/t tiles; on an image of positive size a negative count, or one above the width or the height, never ends; width 0 gives no tile |
| Tiling.SingleTile | BundlerMatcher/src/BundlerMatcher.cpp:247-255 | a tile count of 1 gives the whole image as one tile |
| Tiling.TileGridSize | BundlerMatcher/src/BundlerMatcher.cpp:247-255 | exactly t·t tiles when t divides both sides, more otherwise |
| Tiling.ShiftUndo | BundlerMatcher/src/BundlerMatcher.cpp:278-282 | subtracting the tile offsets from a shifted keypoint gives back the engine's keypoint, scale and orientation included; a tile at the origin leaves every keypoint as the engine reported it |
| Tiling.Merge | BundlerMatcher/src/BundlerMatcher.cpp:264-291 | the merge keeps 128 descriptor values per keypoint, its count is -1 or positive, and extraction succeeds exactly when every tile runs |
| Tiling.MergeSpec | BundlerMatcher/src/BundlerMatcher.cpp:239-285 | the merged keypoints and descriptors are the tiles' in tile order, and the count is -1 when no tile found features and the sum otherwise |
| Tiling.ExtractSiftFeature | BundlerMatcher/src/BundlerMatcher.cpp:227-314 | a load failure exactly when the image does not load, the loops stuck exactly when its tile layout divides by zero or never ends, and otherwise a well-formed feature set of the image's size whose keypoints and descriptors are the tiles' merged in tile order, with a count of -1 or its number of keypoints |
| Tiling.ExtractReturnValueSpec | BundlerMatcher/src/BundlerMatcher.cpp:239-313 | extractSiftFeature returns -1 when the image does not load or no tile yields a feature, otherwise the number of keypoints over all tiles, which is the number of keypoints pushed; stands for Tiling.ExtractReturnValue |
| Tiling.TileZeroAsWritten | BundlerMatcher/src/BundlerMatcher.cpp:247 | a matcher built with tile count 0 has tiling off, yet extraction divides by zero |
| Tiling.EffectiveTileNumWholeImage | BundlerMatcher/src/BundlerMatcher.cpp:247-255 | with tiling off, extraction runs the engine once on the whole image; stands for the corrected tile count Tiling.EffectiveTileNum |
| ListFile.Segments | BundlerMatcher/src/BundlerMatcher.cpp:214-220 | the file splits into lines, none containing a newline |
| ListFile.NonEmptyAtPositions | BundlerMatcher/src/BundlerMatcher.cpp:214-220 | the names kept are, in order, the lines at the non-empty positions |
| ListFile.PositionsMembers | BundlerMatcher/src/BundlerMatcher.cpp:218-219 | a line's index is among the kept positions exactly when the line is non-empty |
| ListFile.PositionsShape | BundlerMatcher/src/BundlerMatcher.cpp:214-220 | the kept positions are strictly increasing indices of lines |
| ListFile.ParseListFile | BundlerMatcher/src/BundlerMatcher.cpp:209-225 | always true; a file that does not open gives no names; otherwise name k is the line at the k-th non-empty position, so every non-empty line is kept, in file order, and no blank one |
| ListFile.SegmentsOfJoin | BundlerMatcher/src/BundlerMatcher.cpp:214-220 | splitting names joined by newlines gives the names back |
| ListFile.ParseJoin | BundlerMatcher/src/BundlerMatcher.cpp:209-225 | a list file with one valid name per line parses to exactly those names, in order, with or without a final newline |
| ListFile.ParseIdempotent | BundlerMatcher/src/BundlerMatcher.cpp:209-225 | re-writing the parsed names and parsing again gives the same names |
| ListFile.ParseSkipsBlankLine | BundlerMatcher/src/BundlerMatcher.cpp:214-220 | two names separated by a blank line, the file ending in a newline, give exactly the two names |
| ResultFiles.InfoLines | BundlerMatcher/src/BundlerMatcher.cpp:481-492 | a MatchInfo is written as 2 + its number of matches lines |
| ResultFiles.SaveMatchesLength | BundlerMatcher/src/BundlerMatcher.cpp:475-495 | the match file has two lines per MatchInfo plus one per match |
| ResultFiles.ParseSaveMatches | BundlerMatcher/src/BundlerMatcher.cpp:475-495 | the match file determines the MatchInfos it was written from, in order; stands for the writer ResultFiles.SaveMatches |
| ResultFiles.Fill | BundlerMatcher/src/BundlerMatcher.cpp:504-515 | the matrix is N × N |
| ResultFiles.FillCell | BundlerMatcher/src/BundlerMatcher.cpp:509-515 | cell (a, b) holds the count of the last MatchInfo for (a, b), 0 if there is none |
| ResultFiles.SaveMatrixSpec | BundlerMatcher/src/BundlerMatcher.cpp:497-527 | every entry of `matrix.txt` is the count of the last MatchInfo for its cell; stands for the writer ResultFiles.SaveMatrix |
| ResultFiles.MatrixNotMirrored | BundlerMatcher/src/BundlerMatcher.cpp:514 | a cell (b, a) that no MatchInfo names stays 0, whatever (a, b) holds |
| ResultFiles.MatrixExample | BundlerMatcher/src/BundlerMatcher.cpp:497-527 | two images with one match give the rows [0, 1] and [0, 0] |
| ResultFiles.MatrixAllZero | BundlerMatcher/src/BundlerMatcher.cpp:504-515 | without matches every entry is 0 |
| Matching.MatchPair | BundlerMatcher/src/BundlerMatcher.cpp:316-341 | the MatchInfo names the two images, holds at most max(\|A\|, \|B\|) matches for an engine that respects the buffer, and only valid keypoint indices for an engine that reports them; stands for the conversion of the buffer, Matching.ToMatches (BundlerMatcher.cpp:336-338) |
| Matching.MatchAll | BundlerMatcher/src/BundlerMatcher.cpp:339 | one MatchInfo per pair, in pair order, with the same bounds |
| Matching.ExhaustiveMatchCount | BundlerMatcher/include/BundlerMatcher.h:123 | in exhaustive mode the match table holds N(N-1)/2 MatchInfos |
| FeatureTable.StepAsWritten | BundlerMatcher/src/BundlerMatcher.cpp:120-144 | as written, an iteration that goes on pushes at most one entry and keeps the earlier ones |
| FeatureTable.PhaseAsWritten | BundlerMatcher/src/BundlerMatcher.cpp:120-144 | as written, after k images the table holds at most k entries |
| FeatureTable.RamDivisorZero | BundlerMatcher/src/BundlerMatcher.cpp:127 | the RAM estimate's divisor `(i+1)*2097152`, computed in `unsigned int`, is 0 exactly when i+1 is a multiple of 2048 |
| FeatureTable.EstimateStopsPhaseAsWritten | BundlerMatcher/src/BundlerMatcher.cpp:124-141 | as written, whatever the images and key files, the loop never gets past the 2048th image |
| FeatureTable.MissingImageAsWritten | BundlerMatcher/src/BundlerMatcher.cpp:416 | a listed image that does not load makes the key file writer read `mFeatureInfos[0]` of an empty table |
| FeatureTable.BadWidthShiftsTable | BundlerMatcher/src/BundlerMatcher.cpp:134-143 | a cached key file whose width field is not 128, followed by one written from a feature set, leaves a one-entry table whose entry 0 holds the second image's features |
| FeatureTable.CachedBadWidthStep | BundlerMatcher/src/BundlerMatcher.cpp:357-373 | a cached key file whose width field is not 128 adds no entry and writes nothing; only the RAM estimate can then stop the program |
| FeatureTable.CachedWrittenStep | BundlerMatcher/src/BundlerMatcher.cpp:134-143 | a cached key file written from a feature set appends the image's size, the rounded keypoints and the descriptors read back, unless the RAM estimate stops the program |
| FeatureTable.NegativeCountAbortsAsWritten | BundlerMatcher/src/BundlerMatcher.cpp:374-375 | a cached key file with width 128 and a negative count stops the program |
| FeatureTable.NoFeatures | BundlerMatcher/src/BundlerMatcher.cpp:299 | the entry for an image without features is well formed and empty |
| FeatureTable.ProcessImage | BundlerMatcher/src/BundlerMatcher.cpp:120-144 | corrected step: a well-formed entry of the image's size; on a miss it is the engine's tiles merged, on a hit the key file's features as read, or an empty entry when the image does not load or the key file is unreadable, has a bad width or a negative count; `None` exactly on a miss whose tile loops divide by zero or never end; a hit leaves the disk unchanged, a miss writes the key files of exactly that entry |
| FeatureTable.NegativeCountEmptyEntry | BundlerMatcher/src/BundlerMatcher.cpp:374-375 | corrected: a cached key file with a negative count gives an empty entry of the image's size and leaves the disk alone |
| FeatureTable.CachedListCompletes | BundlerMatcher/src/BundlerMatcher.cpp:117-144 | corrected: a list whose every image has a cached key file completes, whatever its length, with one entry per image and the disk unchanged |
| FeatureTable.ExtractionPhase | BundlerMatcher/include/BundlerMatcher.h:121-122 | corrected: after k images the table holds k well-formed entries, entry i of image i's size and empty when image i does not load; otherwise the phase stopped at one of the first k images; FeatureTable.EntryOfImage gives each entry's content |
| FeatureTable.EntryOfImage | BundlerMatcher/src/BundlerMatcher.cpp:120-144 | after k images, entry i is exactly what the corrected step computed for image i on the disk as it stood before image i |
| FeatureTable.CacheHitIgnoresEngine | BundlerMatcher/src/BundlerMatcher.cpp:123 | on a cache hit the entry does not depend on the extraction engine |
| FeatureTable.MissWritesKeys | BundlerMatcher/src/BundlerMatcher.cpp:123-131 | a miss writes the text key file of the new entry, and the binary one exactly when enabled, so a later probe hits; stands for FeatureTable.SaveKeys (BundlerMatcher.cpp:128-130) |
| FeatureTable.VectorAligned | BundlerMatcher/src/BundlerMatcher.cpp:529-536 | `vector.txt` has one line per listed image, the keypoint count of that image's entry; stands for the writer ResultFiles.SaveVector |
| FeatureTable.VectorCounts | BundlerMatcher/src/BundlerMatcher.cpp:120-144 | line i of `vector.txt` is the number of features found for image i: the total over its tiles when extracted, the count `readAsciiKeyFile` returned when its key file loaded, 0 otherwise |
| CommandLine.ScanArguments | BundlerMatcher/src/main.cpp:57-99 | the loop computes the scan from `argv[1]`, and sequence mode is on only if some argument is `sequence`; stands for the loop's recursive form CommandLine.Scan |
| CommandLine.FlagsSticky | BundlerMatcher/src/main.cpp:57-99 | a flag once set is never cleared by later arguments |
| CommandLine.NoKeywordsNoChange | BundlerMatcher/src/main.cpp:57-99 | arguments that are no keyword change nothing |
| CommandLine.Entry | BundlerMatcher/src/main.cpp:113-115 | a run uses argv[1..3] as paths and argv[4..6] as thresholds and first octave |
| CommandLine.ExitCodes | BundlerMatcher/src/main.cpp:27-117 | -1 exactly below seven arguments; 1 exactly for pairs with sequence or a tile fraction outside (0, 1]; 0 otherwise |
| CommandLine.RunCarriesFlags | BundlerMatcher/src/main.cpp:113-115 | the matcher built carries the scanned flags, never both pairs and sequence, with a fraction in (0, 1] |
| CommandLine.PositionalKeyword | BundlerMatcher/src/main.cpp:57-61 | an input path named `bin` is also taken as the `bin` flag |
| CommandLine.ValueConsumed | BundlerMatcher/src/main.cpp:64-97 | the argument after a keyword is consumed as its value: replacing it by any value the keyword reads the same way leaves the whole scan unchanged, so it is never re-read as a keyword |
| CommandLine.TrailingKeywordIgnored | BundlerMatcher/src/main.cpp:64-97 | a keyword that takes a value, as the last argument, changes nothing |
| CommandLine.ScanSuffix | BundlerMatcher/src/main.cpp:57-99 | the scan from position j depends only on the arguments from j on |
| CommandLine.SequenceStaysOn | BundlerMatcher/src/main.cpp:62-71 | `sequence 3 sequence 0` keeps sequence mode on with length 0 |
| CommandLine.TileCountAlwaysStored | BundlerMatcher/src/main.cpp:72-81 | `tile n` with n <= 1 leaves tiling off but stores n as the tile count |
| Orchestrator.Finish | BundlerMatcher/src/BundlerMatcher.cpp:147-206 | the matching half writes the vector, matches exactly the selected pairs in order within the table, and writes the match file and an N × N matrix |
| Orchestrator.Open | BundlerMatcher/src/BundlerMatcher.cpp:101-207 | stops at once exactly when not initialised; otherwise it completes on the parsed names, or stops at an image whose tile loops never end |
| Orchestrator.OpenCompleted | BundlerMatcher/src/BundlerMatcher.cpp:101-207 | once the extraction phase completes, `open` goes on to the matching half |
| Orchestrator.OpenOutputs | BundlerMatcher/src/BundlerMatcher.cpp:475-527 | the match file reads back to the MatchInfos, the vector has one line per image, and matrix cells on and below the diagonal are 0 |
| Orchestrator.FinishExhaustive | BundlerMatcher/src/BundlerMatcher.cpp:183-197 | in exhaustive mode every pair of images is matched, N(N-1)/2 in all |
| Orchestrator.OpenExhaustive | BundlerMatcher/src/BundlerMatcher.cpp:183-197 | the same for `open` from start to end |
| Orchestrator.FinishNoMatches | BundlerMatcher/src/BundlerMatcher.cpp:497-536 | with no features and no matches the vector and the matrix are all zero |
| Orchestrator.NoImagesNoHang | BundlerMatcher/src/BundlerMatcher.cpp:241-304 | without loadable images the extraction phase always completes |
| Orchestrator.NothingToMatch | BundlerMatcher/src/BundlerMatcher.cpp:101-207 | with no loadable images and an engine that finds nothing, `open` completes with zero counts, N(N-1)/2 empty MatchInfos and a zero matrix |

## Left out

- I/O: the file system is a pair of maps. The model leaves out stream
  details beyond a failure flag, for example a decimal at an integer
  position.
- Real arithmetic: the model uses `real`, not single-precision floats.
  Positions are written with round-half-away-from-zero to a fixed number of
  decimals; the C library's tie rule and `setprecision` digits are not
  modelled.
- Casts and byte order are not modelled:
  - the casts of negative floats to `unsigned int` in the writer;
  - native-endian byte layout in the binary file;
  - `int` overflow of counts and of `featuresum`, except where listed below.
- Progress output (`clearScreen`, `cout`) is left out: it is cosmetic. The
  progress denominator is modelled only as the finding below. The value of
  the RAM estimate is left out too, but not its divisor: `(i+1)*2097152` is
  computed in `unsigned int` and wraps to 0 at the 2048th image, a division
  by zero that stops the program in either branch of the loop. The
  as-written phase models that stop; the corrected phase has no estimate
  (see Findings).
- PairSelection.SequenceOuterBoundAsWritten: `size_t` is taken as 64 bits.
  With a 32-bit `size_t` the wrapped bound 2^32-1 is reachable, so the
  empty-list loop would end, with no pairs, instead of running forever.
- The engines are parameters: `ilLoadImage`, `ilCopyPixels`, `RunSIFT` and
  `GetSiftMatch`, and the GPU context creation, which is a boolean.
- The tiles' pixel contents are not modelled. Each tile is passed to the
  engine by its offsets and size.
- `tilePercent` sampling and explicit-pairs mode are left out, because the
  code does not implement them: `parsePairsFile` is only declared, and
  `open` takes no pairs file. Only their flag parsing and validation are
  modelled.
- KeyBinary.ReadKeyBinary: the program has no binary reader. This one exists
  only to state the round trip.
- ResultFiles.Fill: the matrix is a sequence of rows, not the flat vector
  addressed `a·N + b`. For in-range indices that names the same cell;
  out-of-range indices are excluded by the caller's pairs.
- Orchestrator.Open: it models the corrected phases (see Findings). The
  as-written behaviour of each phase is modelled separately.
- PairSelection.SequencePairsSpec: this reference definition and
  PairSelection.EnumerateSequence take the window length below 2^31-1. At
  L = 2^31-1 (`sequence 2147483647`) the inner loop's `int` counter never
  exceeds L, so the program's loop never ends for a list of two or more
  images. PairSelection.SequenceInnerLoopAsWrittenAtIntMax states that bound
  as written; the pair models do not reproduce the hang.
- ResultFiles.SaveMatrixSpec: `nbFile*nbFile` is an `int` product, which
  overflows for 46341 or more images; the model's matrix has N·N cells for
  every N. Only the corrected `open` reaches such lists, since the
  as-written extraction phase stops at the 2048th image.
- KeyPaths.Stem: names are character sequences, so the four-character cut
  counts characters where `substr(0, size()-4)` counts bytes; the two differ
  when a multi-byte UTF-8 character lies in a name's last four bytes.
- CommandLine.Entry: `atoi`/`atof` are uninterpreted, and the tile fraction
  is compared as a `real`, not as a `float`.

## Findings

| source | as written | input that shows it | evidently intended | confidence | as-written member | corrected member |
|---|---|---|---|---|---|---|
| BundlerMatcher/src/BundlerMatcher.cpp:393 | the reader decodes q as q/512 - 0.5, but the writer stores floor(0.5 + 512·d) with no +256 bias | descriptor value 0.25 is written as 128, read back as -0.25 and re-written as -128 | decode q as q/512, so re-writing a loaded key file reproduces every integer | medium, not executed | KeyText.RewriteAsWrittenShifts | KeyText.RewriteReproducesIntegers |
| BundlerMatcher/src/BundlerMatcher.cpp:120-144 | an image that does not load pushes no entry, and neither does a cached key file of width other than 128; the loop still treats `mFeatureInfos[i]` as image i's entry | list `missing.jpg` with no such image: `saveAsciiKeyFile(0)` reads an empty table; a width-64 `a.key` before a good `b.key` puts b's features at index 0 | one entry per listed image, at its index, empty when nothing can be read | high, not executed | FeatureTable.MissingImageAsWritten | FeatureTable.ExtractionPhase |
| BundlerMatcher/src/BundlerMatcher.cpp:163 | `i < mFilenames.size()-1` with an `unsigned int` counter: with a 64-bit `size_t`, for an empty list the bound wraps to 2^64-1 and the loop never ends | an empty or missing list file with `sequence 3` | no rows for an empty list | high, not executed | PairSelection.SequenceLoopAsWrittenOnEmptyList | PairSelection.SequencePairsOnEmptyList |
| BundlerMatcher/src/BundlerMatcher.cpp:127 | the RAM estimate divides by `(i+1)*2097152` computed in `unsigned int`, here and at line 140; at i = 2047 that is 2^32, which wraps to 0 | a list of 2048 images, each with a cached key file: the 2048th iteration divides by zero | a divisor that does not wrap, or no estimate, so long lists complete | high, not executed | FeatureTable.EstimateStopsPhaseAsWritten | FeatureTable.CachedListCompletes |
| BundlerMatcher/src/BundlerMatcher.cpp:374-375 | a negative count is not rejected: `descriptors(128*num)` is asked for a huge size and throws, and nothing catches it | a cached `a.key` whose first two numbers are `-3 128` | reject the file as for a bad width, so the image gets an empty entry | medium, not executed | FeatureTable.NegativeCountAbortsAsWritten | FeatureTable.NegativeCountEmptyEntry |
| BundlerMatcher/src/BundlerMatcher.cpp:247-248 | the tile size divides by `mTileNum` even when tiling is disabled | `tile 0`: tiling stays off but the tile count is 0, a division by zero | tile count 1 unless tiling is enabled | high, not executed | Tiling.TileZeroAsWritten | Tiling.EffectiveTileNumWholeImage |
| BundlerMatcher/src/BundlerMatcher.cpp:162 | the progress denominator (N-L)·L + L(L-1)/2 counts the pairs only when L <= N | two images with `sequence 5`: one pair, denominator -5; three images: denominator 0 | the number of pairs the loop matches | medium, not executed | PairSelection.ProgressTotalWrongBeyondN | PairSelection.ProgressTotal |

=== FILE: cli.dfy ===
/** The command line (main.cpp): six positional arguments, then optional
    flags scanned from argv[1] on; `atoi` and `atof` are parameters. */
module CommandLine {

  import opened MatcherTypes

  /** The flag variables of `main` while argv is scanned. */
  datatype ScanState = ScanState(
    binaryWriting: bool,
    sequenceMatching: bool,
    sequenceLength: int,
    tileMatching: bool,
    tileNum: int,
    tilePercent: real,
    pairMatching: bool,
    pairFile: string)

  /** The values `main` starts from. */
  function Initial(): ScanState
  {
    ScanState(false, false, 0, false, 1, 1.0, false, "")
  }

  /** The keywords that take the next argument as their value. */
  predicate TakesValue(arg: string)
  {
    arg == "sequence" || arg == "tile" || arg == "tilepercent" || arg == "pairs"
  }

  /** The effect of keyword `arg` with value `value` on the state. */
  function Apply(st: ScanState, arg: string, value: string, atoi: string -> int, atof: string -> real): ScanState
  {
    if arg == "sequence" then
      var n := atoi(value);
      st.(sequenceLength := n, sequenceMatching := st.sequenceMatching || n > 0)
    else if arg == "tile" then
      var n := atoi(value);
      st.(tileNum := n, tileMatching := st.tileMatching || n > 1)
    else if arg == "tilepercent" then st.(tilePercent := atof(value))
    else if arg == "pairs" then st.(pairFile := value, pairMatching := true)
    else st
  }

  /** The loop `for (i = 1; i < argc; ++i)` from position `i` on: a keyword
      with a value consumes the next argument when there is one. */
  function Scan(argv: seq<string>, i: nat, st: ScanState, atoi: string -> int, atof: string -> real): ScanState
    decreases |argv| - i
  {
    if i >= |argv| then st
    else if argv[i] == "bin" then Scan(argv, i + 1, st.(binaryWriting := true), atoi, atof)
    else if TakesValue(argv[i]) && i + 1 < |argv| then
      Scan(argv, i + 2, Apply(st, argv[i], argv[i + 1], atoi, atof), atoi, atof)
    else Scan(argv, i + 1, st, atoi, atof)
  }

  /** The scanning loop of `main`. */
  method ScanArguments(argv: seq<string>, atoi: string -> int, atof: string -> real) returns (st: ScanState)
    ensures st == Scan(argv, 1, Initial(), atoi, atof)
    ensures st.sequenceMatching ==> exists k :: 1 <= k < |argv| && argv[k] == "sequence"
  {
    st := Initial();
    var i := 1;
    while i < |argv|
      invariant 1 <= i
      invariant Scan(argv, i, st, atoi, atof) == Scan(argv, 1, Initial(), atoi, atof)
      invariant st.sequenceMatching ==> exists k :: 1 <= k < |argv| && k < i && argv[k] == "sequence"
      decreases |argv| - i
    {
      var current := argv[i];
      if current == "bin" {
        st := st.(binaryWriting := true);
      } else if TakesValue(current) && i + 1 < |argv| {
        st := Apply(st, current, argv[i + 1], atoi, atof);
        i := i + 1;
      }
      i := i + 1;
    }
  }

  /** Flags are sticky: once set by the scan, no later argument clears them. */
  lemma {:induction false} FlagsSticky(argv: seq<string>, i: nat, st: ScanState, atoi: string -> int, atof: string -> real)
    ensures var r := Scan(argv, i, st, atoi, atof);
      && (st.binaryWriting ==> r.binaryWriting)
      && (st.sequenceMatching ==> r.sequenceMatching)
      && (st.tileMatching ==> r.tileMatching)
      && (st.pairMatching ==> r.pairMatching)
    decreases |argv| - i
  {
    if i < |argv| {
      if argv[i] == "bin" {
        FlagsSticky(argv, i + 1, st.(binaryWriting := true), atoi, atof);
      } else if TakesValue(argv[i]) && i + 1 < |argv| {
        FlagsSticky(argv, i + 2, Apply(st, argv[i], argv[i + 1], atoi, atof), atoi, atof);
      } else {
        FlagsSticky(argv, i + 1, st, atoi, atof);
      }
    }
  }

  /** Without keywords among the arguments scanned, nothing changes. */
  lemma {:induction false} NoKeywordsNoChange(argv: seq<string>, i: nat, st: ScanState, atoi: string -> int, atof: string -> real)
    requires forall k :: i <= k < |argv| ==> argv[k] != "bin" && !TakesValue(argv[k])
    ensures Scan(argv, i, st, atoi, atof) == st
    decreases |argv| - i
  {
    if i < |argv| {
      NoKeywordsNoChange(argv, i + 1, st, atoi, atof);
    }
  }

  /** How `main` ends. */
  datatype Outcome =
    | Usage                                              // fewer than six arguments: return -1
    | Rejected                                           // conflicting or invalid flags: return 1
    | Run(matcher: Matcher, inputPath: string, listFile: string, matchFile: string, pairFile: string)

  /** The value `main` returns. */
  function ExitCode(o: Outcome): int
  {
    match o
    case Usage => -1
    case Rejected => 1
    case Run(_, _, _, _, _) => 0
  }

  /** `main(argc, argv)` with argv[0] the program name; `glFullySupported` is
      what the GPU context creation answers when the matcher is built. */
  function Entry(argv: seq<string>, atoi: string -> int, atof: string -> real, glFullySupported: bool): (o: Outcome)
    ensures o.Run? ==> |argv| >= 7 && o.inputPath == argv[1] && o.listFile == argv[2] && o.matchFile == argv[3]
    ensures o.Run? ==> o.matcher.distanceThreshold == atof(argv[4]) && o.matcher.ratioThreshold == atof(argv[5])
                       && o.matcher.firstOctave == atoi(argv[6])
  {
    if |argv| < 7 then Usage
    else
      var st := Scan(argv, 1, Initial(), atoi, atof);
      if st.pairMatching && st.sequenceMatching then Rejected
      else if st.tilePercent > 1.0 || st.tilePercent <= 0.0 then Rejected
      else
        Run(NewMatcher(glFullySupported, atof(argv[4]), atof(argv[5]), atoi(argv[6]), st.binaryWriting,
                       st.sequenceMatching, st.sequenceLength, st.tileMatching, st.tileNum,
                       st.tilePercent, st.pairMatching),
            argv[1], argv[2], argv[3], st.pairFile)
  }

  /** The exit code: -1 exactly for fewer than six arguments, 1 exactly for
      pairs together with sequence mode or a tile fraction outside (0, 1],
      and otherwise 0 once `open` returns (a run that hangs or crashes in
      `open` never reaches the return). */
  lemma ExitCodes(argv: seq<string>, atoi: string -> int, atof: string -> real, gl: bool)
    ensures var st := Scan(argv, 1, Initial(), atoi, atof);
      var code := ExitCode(Entry(argv, atoi, atof, gl));
      && (code == -1 <==> |argv| < 7)
      && (code == 1 <==> |argv| >= 7 && ((st.pairMatching && st.sequenceMatching) || !(0.0 < st.tilePercent <= 1.0)))
      && (code == 0 <==> |argv| >= 7 && !(st.pairMatching && st.sequenceMatching) && 0.0 < st.tilePercent <= 1.0)
  {
  }

  /** The matcher `main` builds carries the scanned flags. */
  lemma RunCarriesFlags(argv: seq<string>, atoi: string -> int, atof: string -> real, gl: bool)
    requires Entry(argv, atoi, atof, gl).Run?
    ensures var st := Scan(argv, 1, Initial(), atoi, atof);
      var m := Entry(argv, atoi, atof, gl).matcher;
      && m.binaryWritingEnabled == st.binaryWriting && m.sequenceMatchingEnabled == st.sequenceMatching
      && m.sequenceMatchingLength == st.sequenceLength && m.tiledMatchingEnabled == st.tileMatching
      && m.tileNum == st.tileNum && m.initialized == gl
      && !(m.pairedMatchingEnabled && m.sequenceMatchingEnabled) && 0.0 < m.tilePercent <= 1.0
  {
  }

  /** A positional argument spelled like a keyword is also taken as one:
      an input directory named `bin` turns on binary key files. */
  lemma PositionalKeyword(atoi: string -> int, atof: string -> real, gl: bool)
    ensures var o := Entry(["matcher", "bin", "list.txt", "out.txt", "0.6", "0.8", "1"], atoi, atof, gl);
      o.Run? && o.inputPath == "bin" && o.matcher.binaryWritingEnabled
  {
    var argv := ["matcher", "bin", "list.txt", "out.txt", "0.6", "0.8", "1"];
    NoKeywordsNoChange(argv, 2, Initial().(binaryWriting := true), atoi, atof);
  }

  /** The scan from position `j` on depends only on the arguments from `j` on. */
  lemma {:induction false} ScanSuffix(argv: seq<string>, other: seq<string>, j: nat, st: ScanState,
                                      atoi: string -> int, atof: string -> real)
    requires |argv| == |other|
    requires forall k :: j <= k < |argv| ==> argv[k] == other[k]
    ensures Scan(argv, j, st, atoi, atof) == Scan(other, j, st, atoi, atof)
    decreases |argv| - j
  {
    if j < |argv| {
      if argv[j] == "bin" {
        ScanSuffix(argv, other, j + 1, st.(binaryWriting := true), atoi, atof);
      } else if TakesValue(argv[j]) && j + 1 < |argv| {
        ScanSuffix(argv, other, j + 2, Apply(st, argv[j], argv[j + 1], atoi, atof), atoi, atof);
      } else {
        ScanSuffix(argv, other, j + 1, st, atoi, atof);
      }
    }
  }

  /** A consumed value is not read again as a keyword: the argument after a
      keyword matters only through the keyword's effect, so replacing it by
      any other value with the same effect (`bin`, say, by a plain word)
      leaves the whole scan unchanged. */
  lemma ValueConsumed(argv: seq<string>, i: nat, st: ScanState, v: string,
                      atoi: string -> int, atof: string -> real)
    requires i + 1 < |argv| && TakesValue(argv[i])
    requires Apply(st, argv[i], argv[i + 1], atoi, atof) == Apply(st, argv[i], v, atoi, atof)
    ensures Scan(argv, i, st, atoi, atof) == Scan(argv[i + 1 := v], i, st, atoi, atof)
  {
    var other := argv[i + 1 := v];
    assert other[i] == argv[i];
    ScanSuffix(argv, other, i + 2, Apply(st, argv[i], argv[i + 1], atoi, atof), atoi, atof);
  }

  /** A keyword in last position has no value and does nothing. */
  lemma TrailingKeywordIgnored(argv: seq<string>, st: ScanState, atoi: string -> int, atof: string -> real)
    requires |argv| > 0 && TakesValue(argv[|argv| - 1])
    ensures Scan(argv, |argv| - 1, st, atoi, atof) == st
  {
  }

  /** `sequence 3 sequence 0` keeps sequence mode on with length 0. */
  lemma SequenceStaysOn(atoi: string -> int, atof: string -> real)
    requires atoi("3") == 3 && atoi("0") == 0
    ensures var st := Scan(["m", "sequence", "3", "sequence", "0"], 1, Initial(), atoi, atof);
      st.sequenceMatching && st.sequenceLength == 0
  {
  }

  /** `tile 0` and `tile 1` leave tiling off but set the tile count. */
  lemma TileCountAlwaysStored(atoi: string -> int, atof: string -> real, value: string)
    requires atoi(value) <= 1
    ensures var st := Scan(["m", "tile", value], 1, Initial(), atoi, atof);
      !st.tileMatching && st.tileNum == atoi(value)
  {
  }
}

=== FILE: features.dfy ===
/** The extraction phase of BundlerMatcher::open: for every listed image, in
    list order, either read its cached key file or extract its features
    (and write its key files), building the feature table that matching
    indexes by image number. */
module FeatureTable {

  import opened MatcherTypes
  import opened Quantization
  import opened KeyPaths
  import opened KeyText
  import opened KeyBinary
  import opened Tiling
  import ResultFiles

  /** The key files on disk: text files by their tokens, binary files by their items. */
  datatype Disk = Disk(text: map<string, seq<Token>>, binary: map<string, seq<Item>>)

  /** What the phase depends on besides the matcher: the input directory,
      the images the codec loads (by path, with their size), and the
      extraction engine (by image path and tile). */
  datatype Env = Env(inputPath: string, images: map<string, Dims>,
                     sift: (string, Tile) -> Option<seq<SiftFeature>>)

  function Lookup<K, V>(m: map<K, V>, k: K): (r: Option<V>)
    ensures r.Some? <==> k in m
    ensures r.Some? ==> r.value == m[k]
  {
    if k in m then Some(m[k]) else None
  }

  /** The files the existence probes see. */
  function Existing(disk: Disk): set<string>
  {
    disk.text.Keys + disk.binary.Keys
  }

  /** The image of list entry `name`, as `ilLoadImage(mInputPath + name)` sees it. */
  function ImageOf(env: Env, name: string): Option<Dims>
  {
    Lookup(env.images, env.inputPath + name)
  }

  /** The engine applied to the tiles of list entry `name`. */
  function EngineFor(env: Env, name: string): Tile -> Option<seq<SiftFeature>>
  {
    t => env.sift(env.inputPath + name, t)
  }

  /** saveAsciiKeyFile, then saveBinaryKeyFile when binary writing is enabled. */
  function SaveKeys(m: Matcher, env: Env, name: string, info: FeatureInfo, disk: Disk): (d: Disk)
    requires info.WellFormed()
    ensures d.text == disk.text[KeyTextPath(env.inputPath, name) := Tokens(WriteKeyText(info))]
    ensures m.binaryWritingEnabled ==> d.binary == disk.binary[KeyBinaryPath(env.inputPath, name) := WriteKeyBinary(info)]
    ensures !m.binaryWritingEnabled ==> d.binary == disk.binary
  {
    var text := disk.text[KeyTextPath(env.inputPath, name) := Tokens(WriteKeyText(info))];
    var binary := if m.binaryWritingEnabled
                  then disk.binary[KeyBinaryPath(env.inputPath, name) := WriteKeyBinary(info)]
                  else disk.binary;
    Disk(text, binary)
  }

  predicate AllWellFormed(table: seq<FeatureInfo>)
  {
    forall k :: 0 <= k < |table| ==> table[k].WellFormed()
  }

  /** The state of the phase loop, or how the program stopped. */
  datatype PhaseState =
    | Running(disk: Disk, table: seq<FeatureInfo>)
    | IndexOutOfRange(index: nat)   // saveAsciiKeyFile(i) reads mFeatureInfos[i] past the end
    | TileLoopsStuck(index: nat)    // the tile loops of image i divide by zero or never end
    | Aborted(index: nat)           // a negative count in the key file of image i
    | EstimateDivByZero(index: nat) // the RAM estimate of image i divides by zero

  /** The divisor `(i+1)*2097152` of the RAM estimate, computed in `unsigned int`. */
  function RamDivisorAsWritten(i: nat): (d: nat)
    ensures d < UIntRange
  {
    ((i + 1) * 2097152) % UIntRange
  }

  /** The divisor wraps to 0 exactly at every 2048th image. */
  lemma RamDivisorZero(i: nat)
    ensures RamDivisorAsWritten(i) == 0 <==> (i + 1) % 2048 == 0
  {
    var q, r := (i + 1) / 2048, (i + 1) % 2048;
    assert (i + 1) * 2097152 == UIntRange * q + 2097152 * r;
    assert 0 <= 2097152 * r < UIntRange;
  }

  /** The rest of an iteration once the RAM estimate is computed: the
      program stops when its divisor is 0. */
  function AfterEstimate(i: nat, next: PhaseState): (r: PhaseState)
    ensures RamDivisorAsWritten(i) == 0 ==> r == EstimateDivByZero(i)
    ensures RamDivisorAsWritten(i) != 0 ==> r == next
    ensures r.Running? ==> r == next
  {
    if RamDivisorAsWritten(i) == 0 then EstimateDivByZero(i) else next
  }

  // ---------------------------------------------------------------------------
  // As written

  /** One iteration of the loop as written: extraction pushes nothing when
      the image does not load, and the reader pushes nothing when the image
      does not load, the key file does not open or its width is not 128;
      then the RAM estimate divides by `(i+1)*2097152` in `unsigned int`;
      the key file is written from `mFeatureInfos[i]` whatever was pushed. */
  function StepAsWritten(m: Matcher, env: Env, name: string, i: nat, disk: Disk, table: seq<FeatureInfo>): (r: PhaseState)
    requires AllWellFormed(table)
    ensures r.Running? ==> AllWellFormed(r.table) && table <= r.table && |r.table| <= |table| + 1
  {
    if !CacheHit(Existing(disk), env.inputPath, name) then
      match ExtractSiftFeature(ImageOf(env, name), TileCountAsWritten(m), EngineFor(env, name))
      case Stuck(_) => TileLoopsStuck(i)
      case LoadFailed =>
        AfterEstimate(i, if i < |table| then Running(SaveKeys(m, env, name, table[i], disk), table) else IndexOutOfRange(i))
      case Extracted(_, info, _) =>
        var table' := table + [info];
        AfterEstimate(i, if i < |table'| then Running(SaveKeys(m, env, name, table'[i], disk), table') else IndexOutOfRange(i))
    else
      match ReadKeyText(ImageOf(env, name), Lookup(disk.text, KeyTextPath(env.inputPath, name)), DequantizeAsWritten)
      case NegativeCount => Aborted(i)
      case Loaded(info) => AfterEstimate(i, Running(disk, table + [info]))
      case _ => AfterEstimate(i, Running(disk, table))
  }

  /** The first `k` iterations of the loop as written. */
  function PhaseAsWritten(m: Matcher, env: Env, names: seq<string>, k: nat, disk: Disk): (r: PhaseState)
    requires k <= |names|
    ensures r.Running? ==> AllWellFormed(r.table) && |r.table| <= k
  {
    if k == 0 then Running(disk, [])
    else
      match PhaseAsWritten(m, env, names, k - 1, disk)
      case Running(d, t) => StepAsWritten(m, env, names[k - 1], k - 1, d, t)
      case other => other
  }

  /** A listed image that does not load stops the program on its first key
      file write: nothing was pushed, so `mFeatureInfos[0]` does not exist. */
  lemma MissingImageAsWritten(m: Matcher, sift: (string, Tile) -> Option<seq<SiftFeature>>)
    ensures PhaseAsWritten(m, Env("", map[], sift), ["missing.jpg"], 1, Disk(map[], map[])) == IndexOutOfRange(0)
  {
    var env := Env("", map[], sift);
    assert !CacheHit(Existing(Disk(map[], map[])), "", "missing.jpg");
    assert ImageOf(env, "missing.jpg") == None;
  }

  /** A cached key file with a bad width leaves no entry: the table ends up
      one short, and the next image's features sit at index 0. */
  lemma BadWidthShiftsTable(m: Matcher, env: Env, a: string, b: string, disk: Disk,
                            dims: Dims, n: int, width: int, good: FeatureInfo)
    requires width != DescriptorWidth && good.WellFormed()
    requires ImageOf(env, a) == Some(dims) && ImageOf(env, b) == Some(dims)
    requires Lookup(disk.text, KeyTextPath(env.inputPath, a)) == Some([Int(n), Int(width)])
    requires Lookup(disk.text, KeyTextPath(env.inputPath, b)) == Some(Tokens(WriteKeyText(good)))
    ensures var r := PhaseAsWritten(m, env, [a, b], 2, disk);
      && r.Running? && |r.table| == 1
      && r.table[0].width == dims.width && |r.table[0].points| == |good.points|
  {
    var names := [a, b];
    assert RamDivisorAsWritten(0) != 0 && RamDivisorAsWritten(1) != 0;
    CachedBadWidthStep(m, env, a, 0, disk, [], dims, n, width);
    assert PhaseAsWritten(m, env, names, 1, disk) == Running(disk, []) by {
      assert PhaseAsWritten(m, env, names, 0, disk) == Running(disk, []);
    }
    CachedWrittenStep(m, env, b, 1, disk, [], dims, good);
  }

  /** A cached key file whose width field is not 128 adds nothing to the
      table and leaves the disk alone. */
  lemma CachedBadWidthStep(m: Matcher, env: Env, name: string, i: nat, disk: Disk, table: seq<FeatureInfo>,
                           dims: Dims, n: int, width: int)
    requires AllWellFormed(table) && width != DescriptorWidth
    requires ImageOf(env, name) == Some(dims)
    requires Lookup(disk.text, KeyTextPath(env.inputPath, name)) == Some([Int(n), Int(width)])
    ensures StepAsWritten(m, env, name, i, disk, table) == AfterEstimate(i, Running(disk, table))
  {
    assert CacheHit(Existing(disk), env.inputPath, name);
    assert [Int(n), Int(width)] + [] == [Int(n), Int(width)];
    WrongWidthRejected(dims, n, width, [], DequantizeAsWritten);
  }

  /** A cached key file written from `good` appends what the reader makes
      of it: the image size, the rounded keypoints and the descriptors read back. */
  lemma CachedWrittenStep(m: Matcher, env: Env, name: string, i: nat, disk: Disk, table: seq<FeatureInfo>,
                          dims: Dims, good: FeatureInfo)
    requires AllWellFormed(table) && good.WellFormed()
    requires ImageOf(env, name) == Some(dims)
    requires Lookup(disk.text, KeyTextPath(env.inputPath, name)) == Some(Tokens(WriteKeyText(good)))
    ensures StepAsWritten(m, env, name, i, disk, table)
         == AfterEstimate(i, Running(disk, table + [FeatureInfo(dims.width, dims.height, RoundedAll(good.points),
                                                                ReadBackDescriptors(good.descriptors, DequantizeAsWritten))]))
  {
    assert CacheHit(Existing(disk), env.inputPath, name);
    ReadAfterWrite(good, dims, DequantizeAsWritten);
  }

  /** A cached key file with a negative count stops the program: the
      descriptor vector of `128*num` values cannot be allocated. */
  lemma NegativeCountAbortsAsWritten(m: Matcher, env: Env, name: string, i: nat, disk: Disk, table: seq<FeatureInfo>,
                                     dims: Dims, n: int, rest: seq<Token>)
    requires AllWellFormed(table) && n < 0
    requires ImageOf(env, name) == Some(dims)
    requires Lookup(disk.text, KeyTextPath(env.inputPath, name)) == Some([Int(n), Int(DescriptorWidth)] + rest)
    ensures StepAsWritten(m, env, name, i, disk, table) == Aborted(i)
  {
    assert CacheHit(Existing(disk), env.inputPath, name);
    assert ([Int(n), Int(DescriptorWidth)] + rest)[1..] == [Int(DescriptorWidth)] + rest;
  }

  /** Whatever the images and key files, the loop as written never gets
      past the 2048th image: there the RAM estimate divides by zero, unless
      the program stopped earlier. */
  lemma {:induction false} EstimateStopsPhaseAsWritten(m: Matcher, env: Env, names: seq<string>, k: nat, disk: Disk)
    requires 2048 <= k <= |names|
    ensures !PhaseAsWritten(m, env, names, k, disk).Running?
    decreases k
  {
    if k == 2048 {
      var prev := PhaseAsWritten(m, env, names, 2047, disk);
      if prev.Running? {
        RamDivisorZero(2047);
        assert !StepAsWritten(m, env, names[2047], 2047, prev.disk, prev.table).Running?;
      }
    } else {
      EstimateStopsPhaseAsWritten(m, env, names, k - 1, disk);
    }
  }

  // ---------------------------------------------------------------------------
  // Corrected: one entry per listed image

  /** The entry of an image that yields no features: empty, with the image
      size when the image loads. */
  function NoFeatures(image: Option<Dims>): (info: FeatureInfo)
    ensures info.WellFormed() && |info.points| == 0
  {
    match image
    case Some(dims) => EmptyFeatures(dims.width, dims.height)
    case None => EmptyFeatures(0, 0)
  }

  /** The feature set of list entry `name` and the disk after it: a cache hit
      reads the text key file (or records no features when that fails), a
      miss extracts with the effective tile count and writes the key files
      of exactly that feature set. `None` when the tile loops divide by zero
      or never end. */
  function ProcessImage(m: Matcher, env: Env, name: string, disk: Disk): (r: Option<(FeatureInfo, Disk)>)
    ensures r.Some? ==> r.value.0.WellFormed()
    ensures r.Some? && ImageOf(env, name).Some? ==>
      r.value.0.width == ImageOf(env, name).value.width && r.value.0.height == ImageOf(env, name).value.height
    ensures r.Some? && ImageOf(env, name).None? ==> r.value.0 == EmptyFeatures(0, 0)
    ensures r.Some? && CacheHit(Existing(disk), env.inputPath, name) ==> r.value.1 == disk
    ensures r.Some? && !CacheHit(Existing(disk), env.inputPath, name) ==>
      r.value.1 == SaveKeys(m, env, name, r.value.0, disk)
    ensures r.None? <==>
      && !CacheHit(Existing(disk), env.inputPath, name) && ImageOf(env, name).Some?
      && !TileLayout(ImageOf(env, name).value, EffectiveTileNum(m)).Tiles?
    ensures r.Some? && !CacheHit(Existing(disk), env.inputPath, name) && ImageOf(env, name).Some? ==>
      var layout := TileLayout(ImageOf(env, name).value, EffectiveTileNum(m));
      && layout.Tiles?
      && r.value.0.points == AllKeys(layout.tiles, EngineFor(env, name))
      && r.value.0.descriptors == AllDescriptors(layout.tiles, EngineFor(env, name))
    ensures r.Some? && CacheHit(Existing(disk), env.inputPath, name) ==>
      var read := ReadKeyText(ImageOf(env, name), Lookup(disk.text, KeyTextPath(env.inputPath, name)), Dequantize);
      r.value.0 == if read.Loaded? then read.info else NoFeatures(ImageOf(env, name))
  {
    var image := ImageOf(env, name);
    if !CacheHit(Existing(disk), env.inputPath, name) then
      match ExtractSiftFeature(image, EffectiveTileNum(m), EngineFor(env, name))
      case Stuck(_) => None
      case LoadFailed =>
        var info := NoFeatures(image);
        Some((info, SaveKeys(m, env, name, info, disk)))
      case Extracted(_, info, _) => Some((info, SaveKeys(m, env, name, info, disk)))
    else
      match ReadKeyText(image, Lookup(disk.text, KeyTextPath(env.inputPath, name)), Dequantize)
      case Loaded(info) => Some((info, disk))
      case _ => Some((NoFeatures(image), disk))
  }

  /** Entry `info` belongs to list entry `name`: it has that image's size, or
      is the empty entry of an image that does not load. */
  predicate BelongsTo(env: Env, name: string, info: FeatureInfo)
  {
    match ImageOf(env, name)
    case Some(dims) => info.width == dims.width && info.height == dims.height
    case None => info == EmptyFeatures(0, 0)
  }

  /** The first `k` iterations with one entry pushed per image. */
  function ExtractionPhase(m: Matcher, env: Env, names: seq<string>, k: nat, disk: Disk): (r: PhaseState)
    requires k <= |names|
    ensures r.Running? || r.TileLoopsStuck?
    ensures r.Running? ==> AllWellFormed(r.table) && |r.table| == k
    ensures r.Running? ==> forall i :: 0 <= i < k ==> BelongsTo(env, names[i], r.table[i])
    ensures r.TileLoopsStuck? ==> r.index < k
  {
    if k == 0 then Running(disk, [])
    else
      match ExtractionPhase(m, env, names, k - 1, disk)
      case Running(d, t) =>
        (match ProcessImage(m, env, names[k - 1], d)
         case None => TileLoopsStuck(k - 1)
         case Some((info, d')) => Running(d', t + [info]))
      case other => other
  }

  /** Entry i of the table is image i's own: the feature set ProcessImage
      makes of list entry i from the disk as the first i images left it. */
  lemma {:induction false} EntryOfImage(m: Matcher, env: Env, names: seq<string>, k: nat, disk: Disk, i: nat)
    requires i < k <= |names|
    requires ExtractionPhase(m, env, names, k, disk).Running?
    ensures var before := ExtractionPhase(m, env, names, i, disk);
      && before.Running?
      && ProcessImage(m, env, names[i], before.disk).Some?
      && ProcessImage(m, env, names[i], before.disk).value.0 == ExtractionPhase(m, env, names, k, disk).table[i]
    decreases k
  {
    var prev := ExtractionPhase(m, env, names, k - 1, disk);
    assert prev.Running?;
    if i < k - 1 {
      EntryOfImage(m, env, names, k - 1, disk, i);
      assert ExtractionPhase(m, env, names, k, disk).table[i] == prev.table[i];
    }
  }

  /** A cache hit does not call the engine: the entry is the same whatever it would answer. */
  lemma CacheHitIgnoresEngine(m: Matcher, env: Env, name: string, disk: Disk,
                              other: (string, Tile) -> Option<seq<SiftFeature>>)
    requires CacheHit(Existing(disk), env.inputPath, name)
    ensures ProcessImage(m, env, name, disk) == ProcessImage(m, env.(sift := other), name, disk)
  {
  }

  /** A miss writes the text key file of the new entry, and the binary one
      exactly when binary writing is enabled; a later probe for the same
      stem is then a hit. */
  lemma MissWritesKeys(m: Matcher, env: Env, name: string, disk: Disk)
    requires !CacheHit(Existing(disk), env.inputPath, name)
    requires ProcessImage(m, env, name, disk).Some?
    ensures var r := ProcessImage(m, env, name, disk).value;
      var info, d := r.0, r.1;
      && d.text[KeyTextPath(env.inputPath, name)] == Tokens(WriteKeyText(info))
      && (KeyBinaryPath(env.inputPath, name) in d.binary <==> m.binaryWritingEnabled)
      && CacheHit(Existing(d), env.inputPath, name)
  {
  }

  /** The vector file of a completed phase has one line per listed image,
      the keypoint count of that image's entry. */
  lemma VectorAligned(m: Matcher, env: Env, names: seq<string>, disk: Disk)
    requires ExtractionPhase(m, env, names, |names|, disk).Running?
    ensures var t := ExtractionPhase(m, env, names, |names|, disk).table;
      && |ResultFiles.SaveVector(t)| == |names|
      && forall i :: 0 <= i < |names| ==> ResultFiles.SaveVector(t)[i] == |t[i].points| && BelongsTo(env, names[i], t[i])
  {
  }

  /** Line i of the vector file is the number of features the program found
      for image i: the total over its tiles when it was extracted, the count
      readAsciiKeyFile returned when its key file loaded, and 0 otherwise. */
  lemma VectorCounts(m: Matcher, env: Env, names: seq<string>, disk: Disk, i: nat)
    requires i < |names|
    requires ExtractionPhase(m, env, names, |names|, disk).Running?
    ensures var t := ExtractionPhase(m, env, names, |names|, disk).table;
      var before := ExtractionPhase(m, env, names, i, disk);
      var name, line := names[i], ResultFiles.SaveVector(t)[i];
      && before.Running?
      && (ImageOf(env, name).None? ==> line == 0)
      && (!CacheHit(Existing(before.disk), env.inputPath, name) && ImageOf(env, name).Some? ==>
            TileLayout(ImageOf(env, name).value, EffectiveTileNum(m)).Tiles?
            && line == Total(TileLayout(ImageOf(env, name).value, EffectiveTileNum(m)).tiles, EngineFor(env, name)))
      && (CacheHit(Existing(before.disk), env.inputPath, name) ==>
            var read := ReadKeyText(ImageOf(env, name), Lookup(before.disk.text, KeyTextPath(env.inputPath, name)), Dequantize);
            line == if read.Loaded? then ReadReturnValue(read) else 0)
  {
    EntryOfImage(m, env, names, |names|, disk, i);
    var before := ExtractionPhase(m, env, names, i, disk);
    var name := names[i];
    if !CacheHit(Existing(before.disk), env.inputPath, name) && ImageOf(env, name).Some? {
      TotalKeys(TileLayout(ImageOf(env, name).value, EffectiveTileNum(m)).tiles, EngineFor(env, name));
    }
  }

  /** The corrected loop has no RAM estimate: a list whose every image has a
      cached key file completes, however long it is. */
  lemma {:induction false} CachedListCompletes(m: Matcher, env: Env, names: seq<string>, k: nat, disk: Disk)
    requires k <= |names|
    requires forall i :: 0 <= i < |names| ==> CacheHit(Existing(disk), env.inputPath, names[i])
    ensures var r := ExtractionPhase(m, env, names, k, disk);
      r.Running? && r.disk == disk && |r.table| == k
  {
    if k > 0 {
      CachedListCompletes(m, env, names, k - 1, disk);
      assert CacheHit(Existing(disk), env.inputPath, names[k - 1]);
    }
  }

  /** A cached key file with a negative count, like one with a bad width,
      gives the image an empty entry of its size and leaves the disk alone. */
  lemma NegativeCountEmptyEntry(m: Matcher, env: Env, name: string, disk: Disk, dims: Dims, n: int, rest: seq<Token>)
    requires n < 0
    requires ImageOf(env, name) == Some(dims)
    requires Lookup(disk.text, KeyTextPath(env.inputPath, name)) == Some([Int(n), Int(DescriptorWidth)] + rest)
    ensures ProcessImage(m, env, name, disk) == Some((EmptyFeatures(dims.width, dims.height), disk))
  {
    assert CacheHit(Existing(disk), env.inputPath, name);
    assert ([Int(n), Int(DescriptorWidth)] + rest)[1..] == [Int(DescriptorWidth)] + rest;
  }
}

=== FILE: keybinary.dfy ===
/** The binary key-file format (`<stem>.key.bin`) of
    BundlerMatcher::saveBinaryKeyFile: the keypoint count as a native `int`,
    then per keypoint x, y, scale, orientation and the 128 descriptor values
    as native `float`s. Items are modelled by value, not as bytes. */
module KeyBinary {

  import opened MatcherTypes
  import opened Quantization
  import opened KeyText

  /** One item written by `output.write`. */
  datatype Item = I32(i: int) | F32(r: real)

  /** Items per keypoint: four position fields and the descriptor. */
  const RecordSize: nat := 132

  /** Descriptor values written as raw floats. */
  function Floats(vals: seq<real>): (items: seq<Item>)
    ensures |items| == |vals|
    ensures forall k :: 0 <= k < |vals| ==> items[k] == F32(vals[k])
  {
    seq(|vals|, k requires 0 <= k < |vals| => F32(vals[k]))
  }

  /** The record of one keypoint: x before y, unlike the text format. */
  function Record(k: Keypoint, block: seq<real>): seq<Item>
  {
    [F32(k.x), F32(k.y), F32(k.s), F32(k.o)] + Floats(block)
  }

  function Records(points: seq<Keypoint>, descriptors: seq<real>): (items: seq<Item>)
    requires |descriptors| == DescriptorWidth * |points|
    decreases |points|
  {
    if |points| == 0 then []
    else Record(points[0], descriptors[..DescriptorWidth]) + Records(points[1..], descriptors[DescriptorWidth..])
  }

  /** saveBinaryKeyFile: the count, then one record per keypoint. */
  function WriteKeyBinary(info: FeatureInfo): seq<Item>
    requires info.WellFormed()
  {
    [I32(|info.points|)] + Records(info.points, info.descriptors)
  }

  /** The record of keypoint `i` in a file, starting at item `start + 132 i`. */
  function RecordAt(items: seq<Item>, start: nat, i: nat): seq<Item>
    requires start + RecordSize * i + RecordSize <= |items|
  {
    items[start + RecordSize * i .. start + RecordSize * i + RecordSize]
  }

  lemma {:induction false} RecordsLayout(points: seq<Keypoint>, descriptors: seq<real>)
    requires |descriptors| == DescriptorWidth * |points|
    ensures |Records(points, descriptors)| == RecordSize * |points|
    ensures forall i :: 0 <= i < |points| ==>
      RecordAt(Records(points, descriptors), 0, i) == Record(points[i], BlockOf(descriptors, i))
    decreases |points|
  {
    if |points| > 0 {
      var tailP, tailD := points[1..], descriptors[DescriptorWidth..];
      RecordsLayout(tailP, tailD);
      var items := Records(points, descriptors);
      var head := Record(points[0], descriptors[..DescriptorWidth]);
      assert |head| == RecordSize;
      assert items == head + Records(tailP, tailD);
      forall i | 0 <= i < |points|
        ensures RecordAt(items, 0, i) == Record(points[i], BlockOf(descriptors, i))
      {
        if i > 0 {
          assert BlockOf(descriptors, i) == BlockOf(tailD, i - 1);
          assert RecordAt(items, 0, i) == RecordAt(Records(tailP, tailD), 0, i - 1);
        } else {
          assert BlockOf(descriptors, 0) == descriptors[..DescriptorWidth];
        }
      }
    }
  }

  /** The binary layout: item 0 is the count, and keypoint i occupies the 132
      items from 1 + 132 i on: x, y, scale, orientation, then its 128
      descriptor values unchanged. */
  lemma WriteKeyBinaryLayout(info: FeatureInfo)
    requires info.WellFormed()
    ensures |WriteKeyBinary(info)| == 1 + RecordSize * |info.points|
    ensures WriteKeyBinary(info)[0] == I32(|info.points|)
    ensures forall i :: 0 <= i < |info.points| ==>
      RecordAt(WriteKeyBinary(info), 1, i) == Record(info.points[i], BlockOf(info.descriptors, i))
  {
    var items := WriteKeyBinary(info);
    RecordsLayout(info.points, info.descriptors);
    forall i | 0 <= i < |info.points|
      ensures RecordAt(items, 1, i) == Record(info.points[i], BlockOf(info.descriptors, i))
    {
      assert RecordAt(items, 1, i) == RecordAt(Records(info.points, info.descriptors), 0, i);
    }
  }

  // ---------------------------------------------------------------------------
  // A reader for the format. The program has no binary key-file reader; this
  // one exists to state what the written file determines.

  /** The keypoints and descriptors of `count` records, when the items are
      exactly that many well-typed records. */
  function ReadRecords(items: seq<Item>, count: nat): (r: Option<(seq<Keypoint>, seq<real>)>)
    ensures r.Some? ==> |r.value.0| == count && |r.value.1| == DescriptorWidth * count
    decreases count
  {
    if count == 0 then (if |items| == 0 then Some(([], [])) else None)
    else if |items| < RecordSize then None
    else if !(forall k :: 0 <= k < RecordSize ==> items[k].F32?) then None
    else
      match ReadRecords(items[RecordSize..], count - 1)
      case None => None
      case Some((points, descriptors)) =>
        var k := Keypoint(items[0].r, items[1].r, items[2].r, items[3].r);
        var block := seq(DescriptorWidth, j requires 0 <= j < DescriptorWidth => items[4 + j].r);
        Some(([k] + points, block + descriptors))
  }

  /** A binary key file read back, with the image size supplied by the caller. */
  function ReadKeyBinary(items: seq<Item>, width: int, height: int): (r: Option<FeatureInfo>)
    ensures r.Some? ==> r.value.WellFormed() && r.value.width == width && r.value.height == height
  {
    if |items| == 0 || !items[0].I32? || items[0].i < 0 then None
    else
      match ReadRecords(items[1..], items[0].i)
      case None => None
      case Some((points, descriptors)) => Some(FeatureInfo(width, height, points, descriptors))
  }

  lemma {:induction false} ReadRecordsOfWritten(points: seq<Keypoint>, descriptors: seq<real>)
    requires |descriptors| == DescriptorWidth * |points|
    ensures ReadRecords(Records(points, descriptors), |points|) == Some((points, descriptors))
    decreases |points|
  {
    if |points| > 0 {
      var tailP, tailD := points[1..], descriptors[DescriptorWidth..];
      var block := descriptors[..DescriptorWidth];
      ReadRecordsOfWritten(tailP, tailD);
      var items := Records(points, descriptors);
      var head := Record(points[0], block);
      assert items == head + Records(tailP, tailD);
      assert items[RecordSize..] == Records(tailP, tailD);
      assert forall k :: 0 <= k < RecordSize ==> items[k] == head[k];
      assert seq(DescriptorWidth, j requires 0 <= j < DescriptorWidth => items[4 + j].r) == block;
      assert points == [points[0]] + tailP;
      assert descriptors == block + tailD;
    }
  }

  /** The binary file loses nothing: reading it back gives the keypoints and
      descriptors exactly, positions included. */
  lemma ReadAfterWriteBinary(info: FeatureInfo)
    requires info.WellFormed()
    ensures ReadKeyBinary(WriteKeyBinary(info), info.width, info.height) == Some(info)
  {
    ReadRecordsOfWritten(info.points, info.descriptors);
    assert WriteKeyBinary(info)[1..] == Records(info.points, info.descriptors);
  }

  /** The two files of one image describe the same keypoints: reloading the
      text file (with the intended reader) and the binary file gives the same
      count and, for every descriptor value, the same written integer; the
      text file alone loses the precision below 1/512. */
  lemma FormatsAgree(info: FeatureInfo, dims: Dims)
    requires info.WellFormed()
    requires forall k :: 0 <= k < |info.descriptors| ==> 0 <= Quantize(info.descriptors[k]) < UIntRange
    ensures var t := ReadKeyText(Some(dims), Some(Tokens(WriteKeyText(info))), Dequantize);
      var b := ReadKeyBinary(WriteKeyBinary(info), dims.width, dims.height);
      && t.Loaded? && b.Some?
      && |t.info.points| == |b.value.points| == |info.points|
      && |t.info.descriptors| == |b.value.descriptors|
      && (forall k :: 0 <= k < |t.info.descriptors| ==>
            Quantize(t.info.descriptors[k]) == Quantize(b.value.descriptors[k]))
  {
    RewriteReproducesIntegers(info, dims);
    ReadAfterWriteBinary(FeatureInfo(dims.width, dims.height, info.points, info.descriptors));
  }
}

=== FILE: keypaths.dfy ===
/** Key-file naming and the cache decision of BundlerMatcher::open: the key
    file of an image sits in the input directory, under the image name with
    its last four characters (the extension) cut off. */
module KeyPaths {

  /** Range of a 64-bit `size_t`. */
  const SizeRange: int := 0x1_0000_0000_0000_0000

  const TextExtension: string := ".key"
  const BinaryExtension: string := ".key.bin"

  /** `imagefile.substr(0, imagefile.size() - 4)`: the length is computed in
      `size_t`, so it wraps to a huge value for names shorter than 4
      characters, and `substr` clamps the length to what is available. */
  function Stem(name: string): (stem: string)
    ensures stem <= name
    ensures |name| >= 4 ==> |stem| == |name| - 4
    ensures |name| < 4 ==> stem == name
  {
    var count := if |name| >= 4 then |name| - 4 else |name| - 4 + SizeRange;
    name[..if count <= |name| then count else |name|]
  }

  /** Path of the text key file, used by the probe, the reader and the writer. */
  function KeyTextPath(inputPath: string, name: string): string
  {
    inputPath + Stem(name) + TextExtension
  }

  /** Path of the binary key file, used by the probe and the binary writer. */
  function KeyBinaryPath(inputPath: string, name: string): string
  {
    inputPath + Stem(name) + BinaryExtension
  }

  /** The two key paths share the stem rule: the binary one extends the text one. */
  lemma KeyPathsShape(inputPath: string, name: string)
    ensures |name| >= 4 ==> KeyTextPath(inputPath, name) == inputPath + name[..|name| - 4] + ".key"
    ensures |name| < 4 ==> KeyTextPath(inputPath, name) == inputPath + name + ".key"
    ensures KeyBinaryPath(inputPath, name) == KeyTextPath(inputPath, name) + ".bin"
    ensures |name| >= 4 ==> name == Stem(name) + name[|name| - 4..]
  {
  }

  /** `keyAsciiExists(f) || keyBinaryExists(f)`: an existing `.key` or
      `.key.bin` file makes `open` read the key file instead of extracting. */
  predicate CacheHit(existing: set<string>, inputPath: string, name: string)
  {
    KeyTextPath(inputPath, name) in existing || KeyBinaryPath(inputPath, name) in existing
  }

  /** The cache decision depends on the name only through its stem: two images
      that differ only in their last four characters share their key files. */
  lemma CacheSharedByStem(existing: set<string>, inputPath: string, a: string, b: string)
    requires |a| >= 4 && |b| >= 4 && a[..|a| - 4] == b[..|b| - 4]
    ensures KeyTextPath(inputPath, a) == KeyTextPath(inputPath, b)
    ensures CacheHit(existing, inputPath, a) <==> CacheHit(existing, inputPath, b)
  {
  }

  /** Examples of the fixed four-character cut: a three-letter extension is
      dropped with its dot, a four-letter one leaves the dot behind, and a
      short name is kept whole. */
  lemma StemExamples()
    ensures Stem("img.jpg") == "img"
    ensures Stem("img.jpeg") == "img."
    ensures Stem("a.b") == "a.b"
    ensures KeyTextPath("dir/", "a.jpg") == KeyTextPath("dir/", "a.png") == "dir/a.key"
  {
  }
}

=== FILE: keytext.dfy ===
/** The text key-file format (`<stem>.key`): BundlerMatcher::saveAsciiKeyFile
    and BundlerMatcher::readAsciiKeyFile. A file is modelled as lines of
    numeric tokens; the reader, like `operator>>`, sees only the tokens. */
module KeyText {

  import opened MatcherTypes
  import opened Quantization

  /** A number in the file: an integer, or a decimal printed in fixed notation. */
  datatype Token = Int(i: int) | Dec(r: real)

  /** One line of the file. Fields are separated by single spaces; when
      `spaceAfterEach` holds, every field (the last one included) is followed
      by a space, as in the descriptor rows. */
  datatype Line = Line(fields: seq<Token>, spaceAfterEach: bool)

  const ValuesPerLine: nat := 20

  /** `v` printed in fixed notation with `scale` = 10^digits: rounded to the
      nearest multiple of 1/scale, halves away from zero. */
  function Fixed(v: real, scale: real): (r: real)
    requires scale >= 1.0
    ensures -1.0 / (2.0 * scale) <= r - v <= 1.0 / (2.0 * scale)
  {
    if v >= 0.0 then
      var q := (v * scale + 0.5).Floor as real;
      assert v * scale - 0.5 <= q <= v * scale + 0.5;
      q / scale
    else
      var q := (-v * scale + 0.5).Floor as real;
      assert -v * scale - 0.5 <= q <= -v * scale + 0.5;
      -(q / scale)
  }

  /** The position as it comes back from the file: y and x with 2 decimals,
      scale and orientation with 3. */
  function Rounded(k: Keypoint): Keypoint
  {
    Keypoint(Fixed(k.x, 100.0), Fixed(k.y, 100.0), Fixed(k.s, 1000.0), Fixed(k.o, 1000.0))
  }

  /** The line `y x s o`: y before x. */
  function PositionLine(k: Keypoint): Line
  {
    Line([Dec(Fixed(k.y, 100.0)), Dec(Fixed(k.x, 100.0)), Dec(Fixed(k.s, 1000.0)), Dec(Fixed(k.o, 1000.0))], false)
  }

  /** The quantised integers of a run of descriptor values. */
  function QTokens(vals: seq<real>): (ts: seq<Token>)
    ensures |ts| == |vals|
    ensures forall k :: 0 <= k < |vals| ==> ts[k] == Int(Quantize(vals[k]))
  {
    seq(|vals|, k requires 0 <= k < |vals| => Int(Quantize(vals[k])))
  }

  /** Descriptor values, `ValuesPerLine` to a line, each followed by a space. */
  function Rows(vals: seq<real>): seq<Line>
    decreases |vals|
  {
    if |vals| <= ValuesPerLine then [Line(QTokens(vals), true)]
    else [Line(QTokens(vals[..ValuesPerLine]), true)] + Rows(vals[ValuesPerLine..])
  }

  lemma {:induction false} RowsAt(vals: seq<real>, r: nat)
    requires ValuesPerLine * r < |vals|
    ensures r < |Rows(vals)|
    ensures Rows(vals)[r] == Line(QTokens(vals[ValuesPerLine * r .. Min(ValuesPerLine * r + ValuesPerLine, |vals|)]), true)
    decreases r
  {
    if r > 0 {
      RowsAt(vals[ValuesPerLine..], r - 1);
      assert vals[ValuesPerLine..][ValuesPerLine * (r - 1) .. Min(ValuesPerLine * (r - 1) + ValuesPerLine, |vals| - ValuesPerLine)]
          == vals[ValuesPerLine * r .. Min(ValuesPerLine * r + ValuesPerLine, |vals|)];
    }
  }

  lemma {:induction false} RowsCount(vals: seq<real>)
    ensures |Rows(vals)| == if |vals| <= ValuesPerLine then 1 else (|vals| + ValuesPerLine - 1) / ValuesPerLine
    decreases |vals|
  {
    if |vals| > ValuesPerLine {
      RowsCount(vals[ValuesPerLine..]);
    }
  }

  function Min(a: int, b: int): int
  {
    if a <= b then a else b
  }

  lemma DescriptorRows(block: seq<real>)
    requires |block| == DescriptorWidth
    ensures |Rows(block)| == 7
    ensures forall r :: 0 <= r < 7 ==> Rows(block)[r].spaceAfterEach
    ensures forall r :: 0 <= r < 6 ==> |Rows(block)[r].fields| == ValuesPerLine
    ensures |Rows(block)[6].fields| == 8
    ensures forall r, c :: 0 <= r < 7 && 0 <= c < |Rows(block)[r].fields| ==>
      Rows(block)[r].fields[c] == Int(Quantize(block[ValuesPerLine * r + c]))
  {
    RowsCount(block);
    forall r | 0 <= r < 7
      ensures Rows(block)[r] == Line(QTokens(block[ValuesPerLine * r .. Min(ValuesPerLine * r + ValuesPerLine, 128)]), true)
    {
      RowsAt(block, r);
    }
  }

  /** The seven descriptor lines of one keypoint: six of 20 values and one of 8. */
  function DescriptorLines(block: seq<real>): (lines: seq<Line>)
    requires |block| == DescriptorWidth
    ensures |lines| == 7
    ensures forall r :: 0 <= r < 7 ==> lines[r].spaceAfterEach
    ensures forall r :: 0 <= r < 6 ==> |lines[r].fields| == ValuesPerLine
    ensures |lines[6].fields| == 8
    ensures forall r, c :: 0 <= r < 7 && 0 <= c < |lines[r].fields| ==>
      lines[r].fields[c] == Int(Quantize(block[ValuesPerLine * r + c]))
  {
    DescriptorRows(block);
    Rows(block)
  }

  /** The lines of all keypoints: per keypoint its position line, then its descriptor lines. */
  function FeatureLines(points: seq<Keypoint>, descriptors: seq<real>): seq<Line>
    requires |descriptors| == DescriptorWidth * |points|
    decreases |points|
  {
    if |points| == 0 then []
    else [PositionLine(points[0])] + DescriptorLines(descriptors[..DescriptorWidth])
         + FeatureLines(points[1..], descriptors[DescriptorWidth..])
  }

  /** saveAsciiKeyFile: the header `n 128`, then the keypoints. */
  function WriteKeyText(info: FeatureInfo): seq<Line>
    requires info.WellFormed()
  {
    [Line([Int(|info.points|), Int(DescriptorWidth)], false)] + FeatureLines(info.points, info.descriptors)
  }

  /** The eight lines a keypoint occupies, starting at line `start + 8 i`. */
  function GroupOf(lines: seq<Line>, start: nat, i: nat): seq<Line>
    requires start + 8 * i + 8 <= |lines|
  {
    lines[start + 8 * i .. start + 8 * i + 8]
  }

  /** Behind an eight-line head, group i is group i - 1 of what follows. */
  lemma GroupOfTail(head: seq<Line>, tail: seq<Line>, i: nat)
    requires |head| == 8 && 0 < i && 8 * i + 8 <= |head| + |tail|
    ensures GroupOf(head + tail, 0, i) == GroupOf(tail, 0, i - 1)
  {
    assert 8 * (i - 1) + 8 == 8 * i;
  }

  lemma {:induction false} FeatureLinesLayout(points: seq<Keypoint>, descriptors: seq<real>)
    requires |descriptors| == DescriptorWidth * |points|
    ensures |FeatureLines(points, descriptors)| == 8 * |points|
    ensures forall i :: 0 <= i < |points| ==>
      GroupOf(FeatureLines(points, descriptors), 0, i)
        == [PositionLine(points[i])] + DescriptorLines(BlockOf(descriptors, i))
    decreases |points|
  {
    if |points| > 0 {
      var tailP, tailD := points[1..], descriptors[DescriptorWidth..];
      FeatureLinesLayout(tailP, tailD);
      var lines := FeatureLines(points, descriptors);
      var head := [PositionLine(points[0])] + DescriptorLines(descriptors[..DescriptorWidth]);
      assert lines == head + FeatureLines(tailP, tailD);
      forall i | 0 <= i < |points|
        ensures GroupOf(lines, 0, i) == [PositionLine(points[i])] + DescriptorLines(BlockOf(descriptors, i))
      {
        if i > 0 {
          BlockOfTail(descriptors, i);
          GroupOfTail(head, FeatureLines(tailP, tailD), i);
        } else {
          assert BlockOf(descriptors, 0) == descriptors[..DescriptorWidth];
        }
      }
    }
  }

  /** The text writer's layout: the line `n 128`, then for keypoint i the
      eight lines from 1 + 8 i on: its `y x s o` line and its seven
      descriptor lines (six of 20 values and one of 8, value c of row r being
      floor(0.5 + 512 d) for descriptor component 20 r + c of the keypoint). */
  lemma WriteKeyTextLayout(info: FeatureInfo)
    requires info.WellFormed()
    ensures |WriteKeyText(info)| == 1 + 8 * |info.points|
    ensures WriteKeyText(info)[0] == Line([Int(|info.points|), Int(128)], false)
    ensures forall i :: 0 <= i < |info.points| ==>
      GroupOf(WriteKeyText(info), 1, i) == [PositionLine(info.points[i])] + DescriptorLines(BlockOf(info.descriptors, i))
  {
    var lines := WriteKeyText(info);
    FeatureLinesLayout(info.points, info.descriptors);
    forall i | 0 <= i < |info.points|
      ensures GroupOf(lines, 1, i) == [PositionLine(info.points[i])] + DescriptorLines(BlockOf(info.descriptors, i))
    {
      assert GroupOf(lines, 1, i) == GroupOf(FeatureLines(info.points, info.descriptors), 0, i);
    }
  }

  // ---------------------------------------------------------------------------
  // Reading

  /** What `>>` sees of a file: its tokens in order. */
  function Tokens(lines: seq<Line>): seq<Token>
  {
    if |lines| == 0 then [] else lines[0].fields + Tokens(lines[1..])
  }

  lemma {:induction false} TokensAppend(a: seq<Line>, b: seq<Line>)
    ensures Tokens(a + b) == Tokens(a) + Tokens(b)
    decreases |a|
  {
    if |a| == 0 {
      assert a + b == b;
    } else {
      TokensAppend(a[1..], b);
      assert (a + b)[0] == a[0];
      assert (a + b)[1..] == a[1..] + b;
      assert Tokens(a + b) == a[0].fields + Tokens(a[1..] + b);
    }
  }

  lemma QTokensAppend(a: seq<real>, b: seq<real>)
    ensures QTokens(a + b) == QTokens(a) + QTokens(b)
  {
  }

  lemma {:induction false} TokensOfRows(vals: seq<real>)
    ensures Tokens(Rows(vals)) == QTokens(vals)
    decreases |vals|
  {
    if |vals| > ValuesPerLine {
      TokensOfRows(vals[ValuesPerLine..]);
      QTokensAppend(vals[..ValuesPerLine], vals[ValuesPerLine..]);
      assert vals == vals[..ValuesPerLine] + vals[ValuesPerLine..];
    }
  }

  /** An input stream: the tokens not yet consumed, and whether it is still good. */
  datatype Stream = Stream(rest: seq<Token>, good: bool)

  /** A failed extraction yields 0 and leaves the stream failed for good. */
  function Fail(st: Stream): Stream
  {
    Stream(st.rest, false)
  }

  function ReadInt(st: Stream): (int, Stream)
  {
    if !st.good || |st.rest| == 0 || st.rest[0].Dec? then (0, Fail(st))
    else (st.rest[0].i, Stream(st.rest[1..], true))
  }

  /** Extraction into an `unsigned int`: a negative integer wraps modulo 2^32. */
  function ReadUInt(st: Stream): (UInt32, Stream)
  {
    if !st.good || |st.rest| == 0 || st.rest[0].Dec? then (0, Fail(st))
    else (ToUInt32(st.rest[0].i), Stream(st.rest[1..], true))
  }

  function ReadFloat(st: Stream): (real, Stream)
  {
    if !st.good || |st.rest| == 0 then (0.0, Fail(st))
    else match st.rest[0]
      case Int(i) => (i as real, Stream(st.rest[1..], true))
      case Dec(r) => (r, Stream(st.rest[1..], true))
  }

  /** `m` descriptor integers, each turned into a value by `dequantize`. */
  function ReadBlock(st: Stream, m: nat, dequantize: UInt32 -> real): (r: (seq<real>, Stream))
    ensures |r.0| == m
    decreases m
  {
    if m == 0 then ([], st)
    else
      var (q, st1) := ReadUInt(st);
      var (vals, st2) := ReadBlock(st1, m - 1, dequantize);
      ([dequantize(q)] + vals, st2)
  }

  /** The four position fields of a keypoint, in the order y, x, s, o. */
  function ReadPosition(st: Stream): (Keypoint, Stream)
  {
    var (y, st1) := ReadFloat(st);
    var (x, st2) := ReadFloat(st1);
    var (s, st3) := ReadFloat(st2);
    var (o, st4) := ReadFloat(st3);
    (Keypoint(x, y, s, o), st4)
  }

  /** `count` keypoints, each read as y, x, scale, orientation and 128 integers. */
  function ReadFeatures(st: Stream, count: nat, dequantize: UInt32 -> real): (r: (seq<Keypoint>, seq<real>, Stream))
    ensures |r.0| == count && |r.1| == DescriptorWidth * count
    decreases count
  {
    if count == 0 then ([], [], st)
    else
      var (k, st4) := ReadPosition(st);
      var (block, st5) := ReadBlock(st4, DescriptorWidth, dequantize);
      var (points, descriptors, st6) := ReadFeatures(st5, count - 1, dequantize);
      ([k] + points, block + descriptors, st6)
  }

  /** Outcome of readAsciiKeyFile. */
  datatype KeyRead =
    | ImageNotLoaded        // the image codec could not load the image
    | KeyFileMissing        // the `.key` file does not open
    | BadWidth              // the descriptor-width field is not 128
    | NegativeCount         // a negative count: the descriptor vector's constructor throws
    | Loaded(info: FeatureInfo)

  /** The header fields `n` and `width` of a key file. */
  function Header(tokens: seq<Token>): (int, int, Stream)
  {
    var (num, st1) := ReadInt(Stream(tokens, true));
    var (width, st2) := ReadInt(st1);
    (num, width, st2)
  }

  /** readAsciiKeyFile, given what the image codec reports for the image and
      the tokens of its `.key` file when that file opens. The feature table
      gains an entry exactly when the outcome is `Loaded`. */
  function ReadKeyText(image: Option<Dims>, file: Option<seq<Token>>, dequantize: UInt32 -> real): (r: KeyRead)
    ensures r.Loaded? ==> r.info.WellFormed()
    ensures r.Loaded? ==> image.Some? && r.info.width == image.value.width && r.info.height == image.value.height
    ensures r.Loaded? <==> image.Some? && file.Some? && Header(file.value).1 == 128 && Header(file.value).0 >= 0
    ensures r == BadWidth <==> image.Some? && file.Some? && Header(file.value).1 != 128
  {
    match image
    case None => ImageNotLoaded
    case Some(dims) =>
      match file
      case None => KeyFileMissing
      case Some(tokens) =>
        var (num, width, st) := Header(tokens);
        if width != 128 then BadWidth
        else if num < 0 then NegativeCount
        else
          var (points, descriptors, _) := ReadFeatures(st, num, dequantize);
          Loaded(FeatureInfo(dims.width, dims.height, points, descriptors))
  }

  /** The value readAsciiKeyFile returns. */
  function ReadReturnValue(r: KeyRead): int
    requires !r.NegativeCount?
  {
    match r
    case ImageNotLoaded => 0
    case KeyFileMissing => 0
    case BadWidth => -1
    case Loaded(info) => |info.points|
  }

  /** The value readAsciiKeyFile returns is -1 exactly when the width field
      is not 128, 0 when the image or the key file does not open, and the
      count field of the file when the features are loaded. */
  lemma ReadReturnValueSpec(image: Option<Dims>, file: Option<seq<Token>>, dequantize: UInt32 -> real)
    requires !ReadKeyText(image, file, dequantize).NegativeCount?
    ensures var v := ReadReturnValue(ReadKeyText(image, file, dequantize));
      && (v == -1 <==> image.Some? && file.Some? && Header(file.value).1 != 128)
      && (image.None? || file.None? ==> v == 0)
      && (ReadKeyText(image, file, dequantize).Loaded? ==> v == Header(file.value).0 >= 0)
  {
    var r := ReadKeyText(image, file, dequantize);
    if r.Loaded? {
      var (num, width, st) := Header(file.value);
      assert |ReadFeatures(st, num, dequantize).0| == num;
    }
  }

  /** Reading a file the writer produced returns its number of keypoints. */
  lemma ReadReturnsWrittenCount(info: FeatureInfo, dims: Dims, dequantize: UInt32 -> real)
    requires info.WellFormed()
    ensures ReadReturnValue(ReadKeyText(Some(dims), Some(Tokens(WriteKeyText(info))), dequantize)) == |info.points|
  {
    ReadAfterWrite(info, dims, dequantize);
  }

  /** Every descriptor value through writer and reader. */
  function ReadBackDescriptors(descriptors: seq<real>, dequantize: UInt32 -> real): (r: seq<real>)
    ensures |r| == |descriptors|
  {
    seq(|descriptors|, k requires 0 <= k < |descriptors| => dequantize(ToUInt32(Quantize(descriptors[k]))))
  }

  lemma {:induction false} ReadBlockOfWritten(vals: seq<real>, rest: seq<Token>, dequantize: UInt32 -> real)
    ensures ReadBlock(Stream(QTokens(vals) + rest, true), |vals|, dequantize)
         == (ReadBackDescriptors(vals, dequantize), Stream(rest, true))
    decreases |vals|
  {
    var st := Stream(QTokens(vals) + rest, true);
    if |vals| == 0 {
      assert ReadBackDescriptors(vals, dequantize) == [];
      assert QTokens(vals) + rest == rest;
    } else {
      ReadBlockOfWritten(vals[1..], rest, dequantize);
      assert st.rest[0] == Int(Quantize(vals[0]));
      assert st.rest[1..] == QTokens(vals[1..]) + rest;
      var q := ToUInt32(Quantize(vals[0]));
      assert ReadUInt(st) == (q, Stream(QTokens(vals[1..]) + rest, true));
      assert ReadBackDescriptors(vals, dequantize)
          == [dequantize(q)] + ReadBackDescriptors(vals[1..], dequantize);
    }
  }

  /** The positions of the keypoints as the reader gets them back. */
  function RoundedAll(points: seq<Keypoint>): (r: seq<Keypoint>)
    ensures |r| == |points|
    ensures forall i :: 0 <= i < |points| ==> r[i] == Rounded(points[i])
  {
    seq(|points|, i requires 0 <= i < |points| => Rounded(points[i]))
  }

  /** A written position line reads back as the rounded keypoint. */
  lemma ReadPositionOfWritten(k: Keypoint, rest: seq<Token>)
    ensures ReadPosition(Stream(PositionLine(k).fields + rest, true)) == (Rounded(k), Stream(rest, true))
  {
    var f := PositionLine(k).fields;
    assert (f + rest)[1..] == f[1..] + rest;
    assert (f[1..] + rest)[1..] == f[2..] + rest;
    assert (f[2..] + rest)[1..] == f[3..] + rest;
    assert (f[3..] + rest)[1..] == rest;
  }

  /** The tokens of the first keypoint's lines: its position, then its 128 integers. */
  lemma FeatureTokensStep(points: seq<Keypoint>, descriptors: seq<real>, rest: seq<Token>)
    requires |points| > 0 && |descriptors| == DescriptorWidth * |points|
    ensures Tokens(FeatureLines(points, descriptors)) + rest
         == PositionLine(points[0]).fields
            + (QTokens(descriptors[..DescriptorWidth]) + (Tokens(FeatureLines(points[1..], descriptors[DescriptorWidth..])) + rest))
  {
    var block, tailD := descriptors[..DescriptorWidth], descriptors[DescriptorWidth..];
    var tailP := points[1..];
    var pos := [PositionLine(points[0])];
    var lines := FeatureLines(points, descriptors);
    assert lines == pos + (DescriptorLines(block) + FeatureLines(tailP, tailD));
    TokensAppend(pos, DescriptorLines(block) + FeatureLines(tailP, tailD));
    TokensAppend(DescriptorLines(block), FeatureLines(tailP, tailD));
    TokensOfRows(block);
    assert Tokens(pos) == PositionLine(points[0]).fields;
    var p, q, t := PositionLine(points[0]).fields, QTokens(block), Tokens(FeatureLines(tailP, tailD));
    assert Tokens(lines) == p + (q + t);
    ConcatAssoc(p, q, t, rest);
  }

  lemma ConcatAssoc<T>(a: seq<T>, b: seq<T>, c: seq<T>, d: seq<T>)
    ensures (a + (b + c)) + d == a + (b + (c + d))
  {
  }

  /** One step of the reader on a written keypoint. */
  lemma ReadFeaturesStep(st: Stream, count: nat, dequantize: UInt32 -> real, k: Keypoint, st4: Stream,
                         block: seq<real>, st5: Stream)
    requires count > 0
    requires ReadPosition(st) == (k, st4)
    requires ReadBlock(st4, DescriptorWidth, dequantize) == (block, st5)
    ensures ReadFeatures(st, count, dequantize)
         == ([k] + ReadFeatures(st5, count - 1, dequantize).0,
             block + ReadFeatures(st5, count - 1, dequantize).1,
             ReadFeatures(st5, count - 1, dequantize).2)
  {
  }

  /** The tokens the writer emits for the keypoints, keypoint by keypoint. */
  function FeatureTokens(points: seq<Keypoint>, descriptors: seq<real>): (ts: seq<Token>)
    requires |descriptors| == DescriptorWidth * |points|
    decreases |points|
  {
    if |points| == 0 then []
    else PositionLine(points[0]).fields
         + (QTokens(descriptors[..DescriptorWidth]) + FeatureTokens(points[1..], descriptors[DescriptorWidth..]))
  }

  lemma {:induction false} FeatureLinesTokens(points: seq<Keypoint>, descriptors: seq<real>)
    requires |descriptors| == DescriptorWidth * |points|
    ensures Tokens(FeatureLines(points, descriptors)) == FeatureTokens(points, descriptors)
    decreases |points|
  {
    if |points| == 0 {
      assert FeatureLines(points, descriptors) == [];
    } else {
      FeatureLinesTokens(points[1..], descriptors[DescriptorWidth..]);
      FeatureTokensStep(points, descriptors, []);
      assert Tokens(FeatureLines(points, descriptors)) + [] == Tokens(FeatureLines(points, descriptors));
      assert FeatureTokens(points, descriptors) + [] == FeatureTokens(points, descriptors);
    }
  }

  /** One keypoint of written tokens, given what the rest reads back as. */
  lemma ReadFeatureTokensCons(points: seq<Keypoint>, descriptors: seq<real>, rest: seq<Token>,
                              dequantize: UInt32 -> real)
    requires |points| > 0 && |descriptors| == DescriptorWidth * |points|
    requires ReadFeatures(Stream(FeatureTokens(points[1..], descriptors[DescriptorWidth..]) + rest, true),
                          |points| - 1, dequantize)
          == (RoundedAll(points[1..]), ReadBackDescriptors(descriptors[DescriptorWidth..], dequantize), Stream(rest, true))
    ensures ReadFeatures(Stream(FeatureTokens(points, descriptors) + rest, true), |points|, dequantize)
         == (RoundedAll(points), ReadBackDescriptors(descriptors, dequantize), Stream(rest, true))
  {
    var block, tailD := descriptors[..DescriptorWidth], descriptors[DescriptorWidth..];
    var tailP := points[1..];
    var tailTokens := FeatureTokens(tailP, tailD) + rest;
    var afterPos := QTokens(block) + tailTokens;
    var st := Stream(FeatureTokens(points, descriptors) + rest, true);
    var r := ReadFeatures(st, |points|, dequantize);
    assert r == ([Rounded(points[0])] + RoundedAll(tailP),
                 ReadBackDescriptors(block, dequantize) + ReadBackDescriptors(tailD, dequantize),
                 Stream(rest, true)) by {
      ConcatAssoc(PositionLine(points[0]).fields, QTokens(block), FeatureTokens(tailP, tailD), rest);
      assert st.rest == PositionLine(points[0]).fields + afterPos;
      ReadPositionOfWritten(points[0], afterPos);
      ReadBlockOfWritten(block, tailTokens, dequantize);
      ReadFeaturesStep(st, |points|, dequantize, Rounded(points[0]), Stream(afterPos, true),
                       ReadBackDescriptors(block, dequantize), Stream(tailTokens, true));
    }
    assert r.0 == RoundedAll(points) by {
      assert RoundedAll(points) == [Rounded(points[0])] + RoundedAll(tailP);
    }
    assert r.1 == ReadBackDescriptors(descriptors, dequantize) by {
      ReadBackSplit(descriptors, dequantize);
    }
  }

  /** No keypoints: nothing is read and the stream is left as it was. */
  lemma ReadFeatureTokensNil(points: seq<Keypoint>, descriptors: seq<real>, rest: seq<Token>,
                             dequantize: UInt32 -> real)
    requires |points| == 0 && |descriptors| == 0
    ensures ReadFeatures(Stream(FeatureTokens(points, descriptors) + rest, true), |points|, dequantize)
         == (RoundedAll(points), ReadBackDescriptors(descriptors, dequantize), Stream(rest, true))
  {
    assert FeatureTokens(points, descriptors) + rest == rest;
    assert RoundedAll(points) == [];
    assert ReadBackDescriptors(descriptors, dequantize) == [];
  }

  lemma {:induction false} ReadFeatureTokens(points: seq<Keypoint>, descriptors: seq<real>, rest: seq<Token>,
                                             dequantize: UInt32 -> real)
    requires |descriptors| == DescriptorWidth * |points|
    ensures ReadFeatures(Stream(FeatureTokens(points, descriptors) + rest, true), |points|, dequantize)
         == (RoundedAll(points), ReadBackDescriptors(descriptors, dequantize), Stream(rest, true))
    decreases |points|
  {
    if |points| == 0 {
      ReadFeatureTokensNil(points, descriptors, rest, dequantize);
    } else {
      ReadFeatureTokens(points[1..], descriptors[DescriptorWidth..], rest, dequantize);
      ReadFeatureTokensCons(points, descriptors, rest, dequantize);
    }
  }

  lemma ReadFeaturesOfWritten(points: seq<Keypoint>, descriptors: seq<real>, rest: seq<Token>,
                              dequantize: UInt32 -> real)
    requires |descriptors| == DescriptorWidth * |points|
    ensures ReadFeatures(Stream(Tokens(FeatureLines(points, descriptors)) + rest, true), |points|, dequantize)
         == (RoundedAll(points), ReadBackDescriptors(descriptors, dequantize), Stream(rest, true))
  {
    FeatureLinesTokens(points, descriptors);
    ReadFeatureTokens(points, descriptors, rest, dequantize);
  }

  lemma ReadBackSplit(descriptors: seq<real>, dequantize: UInt32 -> real)
    requires |descriptors| >= DescriptorWidth
    ensures ReadBackDescriptors(descriptors, dequantize)
         == ReadBackDescriptors(descriptors[..DescriptorWidth], dequantize)
            + ReadBackDescriptors(descriptors[DescriptorWidth..], dequantize)
  {
    var r := ReadBackDescriptors(descriptors, dequantize);
    var a := ReadBackDescriptors(descriptors[..DescriptorWidth], dequantize);
    var b := ReadBackDescriptors(descriptors[DescriptorWidth..], dequantize);
    forall k | 0 <= k < |r| ensures r[k] == (a + b)[k] {
      if k < DescriptorWidth {
        assert (a + b)[k] == a[k];
      } else {
        assert (a + b)[k] == b[k - DescriptorWidth];
      }
    }
  }

  /** Reading a file the writer produced gives back the keypoint count, the
      positions at the written precision, and each descriptor as `dequantize`
      of its written integer; width and height come from the image. */
  lemma ReadAfterWrite(info: FeatureInfo, dims: Dims, dequantize: UInt32 -> real)
    requires info.WellFormed()
    ensures ReadKeyText(Some(dims), Some(Tokens(WriteKeyText(info))), dequantize)
         == Loaded(FeatureInfo(dims.width, dims.height, RoundedAll(info.points),
                               ReadBackDescriptors(info.descriptors, dequantize)))
  {
    var n := |info.points|;
    var header := [Line([Int(n), Int(DescriptorWidth)], false)];
    TokensAppend(header, FeatureLines(info.points, info.descriptors));
    assert Tokens(header) == [Int(n), Int(DescriptorWidth)];
    var body := Tokens(FeatureLines(info.points, info.descriptors));
    var all := Tokens(WriteKeyText(info));
    assert all == [Int(n), Int(DescriptorWidth)] + body;
    assert all[2..] == body;
    assert Header(all) == (n, 128, Stream(body, true));
    ReadFeaturesOfWritten(info.points, info.descriptors, [], dequantize);
    assert body + [] == body;
  }

  /** With the reader as written, every descriptor integer of a reloaded file
      comes out 256 lower when it is written again. */
  lemma RewriteAsWrittenShifts(info: FeatureInfo, dims: Dims)
    requires info.WellFormed()
    requires forall k :: 0 <= k < |info.descriptors| ==> 0 <= Quantize(info.descriptors[k]) < UIntRange
    ensures var r := ReadKeyText(Some(dims), Some(Tokens(WriteKeyText(info))), DequantizeAsWritten);
      && r.Loaded? && |r.info.descriptors| == |info.descriptors|
      && forall k :: 0 <= k < |info.descriptors| ==>
           Quantize(r.info.descriptors[k]) == Quantize(info.descriptors[k]) - 256
  {
    ReadAfterWrite(info, dims, DequantizeAsWritten);
    forall k | 0 <= k < |info.descriptors|
      ensures Quantize(DequantizeAsWritten(ToUInt32(Quantize(info.descriptors[k])))) == Quantize(info.descriptors[k]) - 256
    {
      DequantizeAsWrittenShifts(ToUInt32(Quantize(info.descriptors[k])), info.descriptors[k]);
    }
  }

  /** With the intended reader, writing a reloaded file reproduces every
      descriptor integer, and each reloaded value is within 1/1024 of the
      original. */
  lemma RewriteReproducesIntegers(info: FeatureInfo, dims: Dims)
    requires info.WellFormed()
    requires forall k :: 0 <= k < |info.descriptors| ==> 0 <= Quantize(info.descriptors[k]) < UIntRange
    ensures var r := ReadKeyText(Some(dims), Some(Tokens(WriteKeyText(info))), Dequantize);
      && r.Loaded? && |r.info.points| == |info.points| && |r.info.descriptors| == |info.descriptors|
      && (forall k :: 0 <= k < |info.descriptors| ==> Quantize(r.info.descriptors[k]) == Quantize(info.descriptors[k]))
      && (forall k :: 0 <= k < |info.descriptors| ==>
            info.descriptors[k] - 1.0 / 1024.0 < r.info.descriptors[k] <= info.descriptors[k] + 1.0 / 1024.0)
  {
    ReadAfterWrite(info, dims, Dequantize);
    forall k | 0 <= k < |info.descriptors|
      ensures info.descriptors[k] - 1.0 / 1024.0 < Dequantize(ToUInt32(Quantize(info.descriptors[k])))
                                                <= info.descriptors[k] + 1.0 / 1024.0
    {
      DequantizeRoundTrip(info.descriptors[k]);
    }
  }

  /** A file whose width field is not 128 is rejected, whatever follows. */
  lemma WrongWidthRejected(dims: Dims, n: int, width: int, rest: seq<Token>, dequantize: UInt32 -> real)
    requires width != 128
    ensures ReadKeyText(Some(dims), Some([Int(n), Int(width)] + rest), dequantize) == BadWidth
    ensures ReadReturnValue(BadWidth) == -1
  {
    assert ([Int(n), Int(width)] + rest)[1..] == [Int(width)] + rest;
  }
}

=== FILE: listfile.dfy ===
/** The image list (BundlerMatcher::parseListFile): one file name per line;
    `getline` splits the file at every '\n' and empty lines are skipped. */
module ListFile {

  import opened MatcherTypes

  /** The position of the first `ch` in `s`. */
  function IndexOf(s: string, ch: char): (i: nat)
    requires ch in s
    ensures i < |s| && s[i] == ch && ch !in s[..i]
  {
    if s[0] == ch then 0 else 1 + IndexOf(s[1..], ch)
  }

  /** What successive `getline` calls return until end of file: the pieces
      between newlines, the last one possibly empty. */
  function Segments(content: string): (r: seq<string>)
    ensures |r| > 0
    ensures forall k :: 0 <= k < |r| ==> '\n' !in r[k]
    decreases |content|
  {
    if '\n' !in content then [content]
    else
      var i := IndexOf(content, '\n');
      [content[..i]] + Segments(content[i + 1..])
  }

  /** The non-empty strings of `lines`, in order. */
  function NonEmpty(lines: seq<string>): (r: seq<string>)
    ensures |r| <= |lines|
    ensures forall k :: 0 <= k < |r| ==> r[k] != "" && r[k] in lines
  {
    if |lines| == 0 then []
    else if lines[0] == "" then NonEmpty(lines[1..])
    else [lines[0]] + NonEmpty(lines[1..])
  }

  /** parseListFile on a file that opens with `content`, or that does not
      open (`None`): the names it appends, and the value it returns, which is
      `true` in both cases. Name k is the line at the k-th non-empty
      position: every non-empty line is kept, in file order, and only those. */
  function ParseListFile(content: Option<string>): (r: (bool, seq<string>))
    ensures r.0
    ensures forall k :: 0 <= k < |r.1| ==> r.1[k] != "" && '\n' !in r.1[k]
    ensures content.None? ==> r.1 == []
    ensures content.Some? ==>
      var lines := Segments(content.value);
      var p := Positions(lines, 0);
      && |r.1| == |p| && Increasing(p)
      && (forall k :: 0 <= k < |p| ==> p[k] < |lines| && r.1[k] == lines[p[k]])
      && (forall i :: 0 <= i < |lines| ==> (i in p <==> lines[i] != ""))
  {
    match content
    case None => (true, [])
    case Some(c) =>
      var lines := Segments(c);
      assert lines[0..] == lines;
      NonEmptyAtPositions(lines, 0);
      PositionsShape(lines, 0);
      PositionsMembers(lines, 0);
      (true, NonEmpty(lines))
  }

  /** Reference: the positions from `from` on of the non-empty lines, in increasing order. */
  function Positions(lines: seq<string>, from: nat): seq<nat>
    requires from <= |lines|
    decreases |lines| - from
  {
    if from == |lines| then []
    else (if lines[from] != "" then [from] else []) + Positions(lines, from + 1)
  }

  predicate Increasing(p: seq<nat>)
  {
    forall j, k :: 0 <= j < k < |p| ==> p[j] < p[k]
  }

  /** The positions lie between `from` and the end, in increasing order. */
  lemma {:induction false} PositionsShape(lines: seq<string>, from: nat)
    requires from <= |lines|
    ensures var p := Positions(lines, from);
      Increasing(p) && forall k :: 0 <= k < |p| ==> from <= p[k] < |lines|
    decreases |lines| - from
  {
    if from < |lines| {
      PositionsShape(lines, from + 1);
      var pt := Positions(lines, from + 1);
      if lines[from] != "" {
        var p := [from] + pt;
        forall j, k | 0 <= j < k < |p| ensures p[j] < p[k] {
          assert p[k] == pt[k - 1];
          if j > 0 {
            assert p[j] == pt[j - 1];
          }
        }
      }
    }
  }

  /** A line from `from` on is listed exactly when it is non-empty. */
  lemma {:induction false} PositionsMembers(lines: seq<string>, from: nat)
    requires from <= |lines|
    ensures forall i :: from <= i < |lines| ==> (i in Positions(lines, from) <==> lines[i] != "")
    decreases |lines| - from
  {
    if from < |lines| {
      PositionsMembers(lines, from + 1);
      PositionsShape(lines, from + 1);
      var pt := Positions(lines, from + 1);
      assert from !in pt;
      forall i | from <= i < |lines| ensures i in Positions(lines, from) <==> lines[i] != "" {
        assert i in Positions(lines, from) <==> (i == from && lines[from] != "") || i in pt;
      }
    }
  }

  /** NonEmpty's k-th name is the line at the k-th non-empty position. */
  lemma {:induction false} NonEmptyAtPositions(lines: seq<string>, from: nat)
    requires from <= |lines|
    ensures var r, p := NonEmpty(lines[from..]), Positions(lines, from);
      |r| == |p| && forall k :: 0 <= k < |p| ==> 0 <= p[k] < |lines| && r[k] == lines[p[k]]
    decreases |lines| - from
  {
    assert forall k :: 0 <= k < |Positions(lines, from)| ==> 0 <= Positions(lines, from)[k] < |lines| by {
      PositionsShape(lines, from);
    }
    if from < |lines| {
      NonEmptyAtPositions(lines, from + 1);
      assert lines[from..][1..] == lines[from + 1..];
      assert lines[from..][0] == lines[from];
      if lines[from] != "" {
        NonEmptyAtPositionsCons(lines, from);
      }
    }
  }

  /** The step of NonEmptyAtPositions for a non-empty line at `from`. */
  lemma NonEmptyAtPositionsCons(lines: seq<string>, from: nat)
    requires from < |lines| && lines[from] != ""
    requires var rt, pt := NonEmpty(lines[from + 1..]), Positions(lines, from + 1);
      |rt| == |pt| && forall k :: 0 <= k < |pt| ==> 0 <= pt[k] < |lines| && rt[k] == lines[pt[k]]
    requires NonEmpty(lines[from..]) == [lines[from]] + NonEmpty(lines[from + 1..])
    ensures var r, p := NonEmpty(lines[from..]), Positions(lines, from);
      |r| == |p| && forall k :: 0 <= k < |p| ==> 0 <= p[k] < |lines| && r[k] == lines[p[k]]
  {
    var rt, pt := NonEmpty(lines[from + 1..]), Positions(lines, from + 1);
    var r, p := NonEmpty(lines[from..]), Positions(lines, from);
    assert p == [from] + pt;
    forall k | 0 <= k < |p| ensures 0 <= p[k] < |lines| && r[k] == lines[p[k]] {
      if k > 0 {
        assert p[k] == pt[k - 1] && r[k] == rt[k - 1];
      }
    }
  }

  /** A list file with each name followed by a newline. */
  function Join(names: seq<string>): string
  {
    if |names| == 0 then "" else names[0] + "\n" + Join(names[1..])
  }

  predicate ValidName(name: string)
  {
    name != "" && '\n' !in name
  }

  lemma {:induction false} IndexOfFirst(s: string, ch: char, i: nat)
    requires i < |s| && s[i] == ch && ch !in s[..i]
    ensures IndexOf(s, ch) == i
    decreases i
  {
    if i > 0 {
      assert s[0] in s[..i];
      assert s[1..][..i - 1] == s[1..i];
      assert forall x :: x in s[1..i] ==> x in s[..i];
      IndexOfFirst(s[1..], ch, i - 1);
    }
  }

  /** `getline` on a line followed by more text returns the line and leaves the rest. */
  lemma SegmentsCons(name: string, rest: string)
    requires '\n' !in name
    ensures Segments(name + "\n" + rest) == [name] + Segments(rest)
  {
    var c := name + "\n" + rest;
    assert c[|name|] == '\n' && c[..|name|] == name;
    IndexOfFirst(c, '\n', |name|);
    assert c[|name| + 1..] == rest;
  }

  lemma {:induction false} SegmentsOfJoin(names: seq<string>, last: string)
    requires forall k :: 0 <= k < |names| ==> '\n' !in names[k]
    requires '\n' !in last
    ensures Segments(Join(names) + last) == names + [last]
    decreases |names|
  {
    if |names| == 0 {
      assert Join(names) + last == last;
    } else {
      var tail := Join(names[1..]) + last;
      SegmentsOfJoin(names[1..], last);
      assert Join(names) + last == names[0] + "\n" + tail;
      SegmentsCons(names[0], tail);
      assert names == [names[0]] + names[1..];
    }
  }

  lemma {:induction false} NonEmptyAppend(a: seq<string>, b: seq<string>)
    ensures NonEmpty(a + b) == NonEmpty(a) + NonEmpty(b)
    decreases |a|
  {
    if |a| == 0 {
      assert a + b == b;
    } else {
      assert (a + b)[1..] == a[1..] + b;
      NonEmptyAppend(a[1..], b);
    }
  }

  lemma {:induction false} NonEmptyOfValid(names: seq<string>)
    requires forall k :: 0 <= k < |names| ==> ValidName(names[k])
    ensures NonEmpty(names) == names
    decreases |names|
  {
    if |names| > 0 {
      NonEmptyOfValid(names[1..]);
    }
  }

  /** Writing names one per line and parsing the file gives them back, in
      order, whether or not the last line ends with a newline. */
  lemma ParseJoin(names: seq<string>, last: string)
    requires forall k :: 0 <= k < |names| ==> ValidName(names[k])
    requires last == "" || ValidName(last)
    ensures ParseListFile(Some(Join(names) + last)).1 == if last == "" then names else names + [last]
  {
    SegmentsOfJoin(names, last);
    NonEmptyAppend(names, [last]);
    NonEmptyOfValid(names);
    if last == "" {
      assert NonEmpty([last]) == [];
    } else {
      assert NonEmpty([last]) == [last] + NonEmpty([]);
    }
  }

  /** Parsing keeps every non-empty line: re-parsing the names written back
      one per line gives the same list. */
  lemma ParseIdempotent(content: string)
    ensures var names := ParseListFile(Some(content)).1;
      ParseListFile(Some(Join(names))).1 == names
  {
    var names := ParseListFile(Some(content)).1;
    ParseJoin(names, "");
    assert Join(names) + "" == Join(names);
  }

  /** Blank lines and the final newline are dropped: two names separated by
      an empty line, the file ending in a newline, give just the two names. */
  lemma ParseSkipsBlankLine(a: string, b: string)
    requires ValidName(a) && ValidName(b)
    ensures ParseListFile(Some(a + "\n\n" + b + "\n")).1 == [a, b]
  {
    var lines := [a, "", b];
    assert Join(lines) + "" == a + "\n\n" + b + "\n" by {
      assert Join(lines[2..]) == b + "\n" + Join([]);
      assert Join(lines[1..]) == "" + "\n" + Join(lines[2..]);
    }
    SegmentsOfJoin(lines, "");
    assert lines + [""] == [a] + [""] + [b] + [""];
    NonEmptyAppend([a] + [""] + [b], [""]);
    NonEmptyAppend([a] + [""], [b]);
    NonEmptyAppend([a], [""]);
    assert NonEmpty([a]) == [a] + NonEmpty([]);
    assert NonEmpty([b]) == [b] + NonEmpty([]);
    assert NonEmpty([""]) == NonEmpty([]);
  }
}

=== FILE: matching.dfy ===
/** Pairwise matching (BundlerMatcher::matchSiftFeature): the descriptors of
    two images go to the matching engine, whose answer becomes one MatchInfo.
    The engine is a parameter: given the two feature sets, the buffer size
    and the two thresholds it returns the index pairs it wrote. */
module Matching {

  import opened MatcherTypes
  import opened PairSelection

  type Engine = (FeatureInfo, FeatureInfo, nat, real, real) -> seq<(int, int)>

  function Max(a: int, b: int): int
  {
    if a >= b then a else b
  }

  /** The engine never writes more pairs than the buffer of `max_size` entries holds. */
  ghost predicate FitsBuffer(engine: Engine)
  {
    forall a: FeatureInfo, b: FeatureInfo, size: nat, d: real, r: real ::
      |engine(a, b, size, d, r)| <= size
  }

  /** The engine only reports keypoint indices that exist in both images. */
  ghost predicate ReportsValidIndices(engine: Engine)
  {
    forall a: FeatureInfo, b: FeatureInfo, size: nat, d: real, r: real, k: int ::
      0 <= k < |engine(a, b, size, d, r)| ==>
        0 <= engine(a, b, size, d, r)[k].0 < |a.points| && 0 <= engine(a, b, size, d, r)[k].1 < |b.points|
  }

  /** The `int` pairs of the match buffer, stored as `unsigned int` pairs. */
  function ToMatches(found: seq<(int, int)>): (ms: seq<Match>)
    ensures |ms| == |found|
    ensures forall k :: 0 <= k < |found| ==> ms[k] == Match(ToUInt32(found[k].0), ToUInt32(found[k].1))
  {
    seq(|found|, k requires 0 <= k < |found| => Match(ToUInt32(found[k].0), ToUInt32(found[k].1)))
  }

  /** matchSiftFeature(a, b): the buffer holds max(|A|, |B|) pairs. */
  function MatchPair(a: nat, b: nat, table: seq<FeatureInfo>, m: Matcher, engine: Engine): (mi: MatchInfo)
    requires a < |table| && b < |table|
    ensures mi.indexA == a && mi.indexB == b
    ensures FitsBuffer(engine) ==> |mi.matches| <= Max(|table[a].points|, |table[b].points|)
    ensures ReportsValidIndices(engine) ==> MatchesInRange(mi, table[a], table[b])
  {
    var size := Max(|table[a].points|, |table[b].points|);
    var found := engine(table[a], table[b], size, m.distanceThreshold, m.ratioThreshold);
    MatchInfo(a, b, ToMatches(found))
  }

  /** Every pair index names a feature set of the table. */
  predicate PairsInTable(pairs: seq<ImagePair>, table: seq<FeatureInfo>)
  {
    forall k :: 0 <= k < |pairs| ==> 0 <= pairs[k].indexA < |table| && 0 <= pairs[k].indexB < |table|
  }

  /** The matching phase: one MatchInfo per selected pair, in pair order. */
  function MatchAll(pairs: seq<ImagePair>, table: seq<FeatureInfo>, m: Matcher, engine: Engine): (infos: seq<MatchInfo>)
    requires PairsInTable(pairs, table)
    ensures |infos| == |pairs|
    ensures forall k :: 0 <= k < |pairs| ==>
      infos[k].indexA == pairs[k].indexA && infos[k].indexB == pairs[k].indexB
    ensures ReportsValidIndices(engine) ==> forall k :: 0 <= k < |pairs| ==>
      MatchesInRange(infos[k], table[pairs[k].indexA], table[pairs[k].indexB])
    ensures FitsBuffer(engine) ==> forall k :: 0 <= k < |pairs| ==>
      |infos[k].matches| <= Max(|table[pairs[k].indexA].points|, |table[pairs[k].indexB].points|)
  {
    seq(|pairs|, k requires 0 <= k < |pairs| && PairsInTable(pairs, table) =>
      MatchPair(pairs[k].indexA, pairs[k].indexB, table, m, engine))
  }

  /** In exhaustive mode the match table holds N(N-1)/2 MatchInfos, one per
      pair a < b, every index within the feature table. */
  lemma ExhaustiveMatchCount(table: seq<FeatureInfo>, m: Matcher, engine: Engine)
    ensures PairsInTable(SelectPairs(false, |table|, m.sequenceMatchingLength), table)
    ensures 2 * |MatchAll(SelectPairs(false, |table|, m.sequenceMatchingLength), table, m, engine)|
         == |table| * (|table| - 1)
  {
    var pairs := SelectPairs(false, |table|, m.sequenceMatchingLength);
    SelectedPairsInRange(false, |table|, m.sequenceMatchingLength);
    forall k | 0 <= k < |pairs| ensures 0 <= pairs[k].indexA < |table| && 0 <= pairs[k].indexB < |table| {
      assert pairs[k] in pairs;
    }
    RowsBeforeCount(|table|, |table|);
  }
}

=== FILE: orchestrator.dfy ===
/** BundlerMatcher::open: read the image list, build the feature table
    (writing key files and `vector.txt`), match the selected pairs and write
    the match file and `matrix.txt`. This composes the corrected phases:
    one table entry per listed image and a sequence loop that does not
    wrap around on an empty list. */
module Orchestrator {

  import opened MatcherTypes
  import opened PairSelection
  import opened ListFile
  import opened FeatureTable
  import opened Matching
  import opened ResultFiles

  /** How `open` ends, with everything it wrote. */
  datatype Report =
    | NotInitialized                    // the GPU context could not be created
    | ListUnreadable                    // parseListFile answered false
    | Stopped(at: nat)                  // the tile loops of image `at` do not end
    | Done(names: seq<string>, disk: Disk, vector: seq<int>, infos: seq<MatchInfo>,
           matchFile: seq<seq<int>>, matrix: seq<seq<int>>)

  /** The matching half of `open` on a complete feature table: the vector
      file, the selected pairs matched in order, the match file and the
      matrix. */
  function Finish(m: Matcher, names: seq<string>, d: Disk, table: seq<FeatureInfo>, engine: Engine): (r: Report)
    requires |table| == |names|
    ensures r.Done? && r.names == names && r.disk == d
    ensures r.vector == SaveVector(table) && Square(r.matrix, |names|)
    ensures var pairs := SelectPairs(m.sequenceMatchingEnabled, |names|, m.sequenceMatchingLength);
      && |r.infos| == |pairs|
      && (forall k :: 0 <= k < |pairs| ==> 0 <= pairs[k].indexA < pairs[k].indexB < |names|)
      && (forall k :: 0 <= k < |pairs| ==> r.infos[k].indexA == pairs[k].indexA && r.infos[k].indexB == pairs[k].indexB)
      && (forall k :: 0 <= k < |pairs| ==> r.infos[k] == MatchPair(pairs[k].indexA, pairs[k].indexB, table, m, engine))
    ensures forall k :: 0 <= k < |r.infos| ==> 0 <= r.infos[k].indexA < r.infos[k].indexB < |names|
    ensures CellsInRange(|names|, r.infos)
    ensures r.matchFile == SaveMatches(r.infos) && r.matrix == SaveMatrix(|names|, r.infos)
  {
    var pairs := SelectPairs(m.sequenceMatchingEnabled, |names|, m.sequenceMatchingLength);
    SelectedPairsIndexed(m.sequenceMatchingEnabled, |names|, m.sequenceMatchingLength);
    var infos := MatchAll(pairs, table, m, engine);
    Done(names, d, SaveVector(table), infos, SaveMatches(infos), SaveMatrix(|names|, infos))
  }

  /** open(inputPath, list, outMatches): `listContent` is the list file's
      text (None when it does not open), `disk` the key files already there. */
  function Open(m: Matcher, env: Env, listContent: Option<string>, disk: Disk, engine: Engine): (r: Report)
    ensures !m.initialized <==> r.NotInitialized?
    ensures !r.ListUnreadable?
    ensures m.initialized ==> r.Done? || r.Stopped?
    ensures r.Done? ==> r.names == ParseListFile(listContent).1
    ensures r.Stopped? ==> r.at < |ParseListFile(listContent).1|
    ensures r.Done? ==> var phase := ExtractionPhase(m, env, r.names, |r.names|, disk);
      phase.Running? && r == Finish(m, r.names, phase.disk, phase.table, engine)
  {
    if !m.initialized then NotInitialized
    else
      var (ok, names) := ParseListFile(listContent);
      if !ok then ListUnreadable
      else
        var phase := ExtractionPhase(m, env, names, |names|, disk);
        if phase.Running? then Finish(m, names, phase.disk, phase.table, engine)
        else Stopped(phase.index)
  }

  /** The match file `open` writes reads back to the MatchInfos it matched,
      the vector file has one line per listed image, and each entry of
      `matrix.txt` is the count of the MatchInfo for its cell, with the
      cells on and below the diagonal 0. */
  lemma OpenOutputs(m: Matcher, env: Env, listContent: Option<string>, disk: Disk, engine: Engine)
    requires Open(m, env, listContent, disk, engine).Done?
    ensures var r := Open(m, env, listContent, disk, engine);
      && ParseMatches(r.matchFile) == Some(r.infos)
      && |r.vector| == |r.names|
      && (forall a, b :: 0 <= a < |r.names| && 0 <= b < |r.names| ==> r.matrix[a][b] == LastCount(r.infos, a, b))
      && (forall a, b :: 0 <= b <= a < |r.names| ==> r.matrix[a][b] == 0)
  {
    var r := Open(m, env, listContent, disk, engine);
    var n := |r.names|;
    ParseSaveMatches(r.infos);
    SaveMatrixSpec(n, r.infos);
    forall a, b | 0 <= b <= a < n ensures r.matrix[a][b] == 0 {
      LastCountAbsent(r.infos, a, b);
    }
  }

  /** Some MatchInfo is for the pair (a, b). */
  predicate Matched(infos: seq<MatchInfo>, a: int, b: int)
  {
    exists k :: 0 <= k < |infos| && infos[k].indexA == a && infos[k].indexB == b
  }

  /** The match table of a run over `n` images covers every pair a < b < n
      and has exactly n(n-1)/2 entries. */
  predicate CoversAllPairs(infos: seq<MatchInfo>, n: nat)
  {
    && 2 * |infos| == n * (n - 1)
    && forall a, b :: 0 <= a < b < n ==> Matched(infos, a, b)
  }

  /** In exhaustive mode every pair of images is matched, N(N-1)/2 in all. */
  lemma FinishExhaustive(m: Matcher, names: seq<string>, d: Disk, table: seq<FeatureInfo>, engine: Engine)
    requires |table| == |names| && !m.sequenceMatchingEnabled
    ensures CoversAllPairs(Finish(m, names, d, table, engine).infos, |names|)
  {
    var r := Finish(m, names, d, table, engine);
    var n := |names|;
    var pairs := ExhaustivePairs(n);
    assert |r.infos| == |pairs|;
    assert 2 * |pairs| == n * (n - 1) by {
      RowsBeforeCount(n, n);
    }
    assert forall a, b :: 0 <= a < b < n ==> ImagePair(a, b) in pairs by {
      ExhaustivePairsSpec(n);
    }
    forall a, b | 0 <= a < b < n ensures Matched(r.infos, a, b) {
      assert ImagePair(a, b) in pairs;
      var k :| 0 <= k < |pairs| && pairs[k] == ImagePair(a, b);
      assert r.infos[k].indexA == a && r.infos[k].indexB == b;
    }
  }

  /** In exhaustive mode `open` matches every pair of listed images. */
  lemma OpenExhaustive(m: Matcher, env: Env, listContent: Option<string>, disk: Disk, engine: Engine)
    requires !m.sequenceMatchingEnabled
    requires Open(m, env, listContent, disk, engine).Done?
    ensures CoversAllPairs(Open(m, env, listContent, disk, engine).infos, |Open(m, env, listContent, disk, engine).names|)
  {
    var r := Open(m, env, listContent, disk, engine);
    var phase := ExtractionPhase(m, env, r.names, |r.names|, disk);
    assert phase.Running? && |phase.table| == |r.names|;
    assert r == Finish(m, r.names, phase.disk, phase.table, engine);
    FinishExhaustive(m, r.names, phase.disk, phase.table, engine);
  }

  /** A list of images none of which loads or is cached, and an engine that
      finds nothing: `open` completes with one zero line per image in the
      vector file, N(N-1)/2 MatchInfos without matches in exhaustive mode,
      and a matrix of zeros. */
  lemma NothingToMatch(m: Matcher, env: Env, listContent: Option<string>, engine: Engine)
    requires m.initialized && !m.sequenceMatchingEnabled && env.images == map[]
    requires forall a, b, size, d, r :: engine(a, b, size, d, r) == []
    ensures var r := Open(m, env, listContent, Disk(map[], map[]), engine);
      var n := |ParseListFile(listContent).1|;
      && r.Done? && |r.vector| == n && (forall i :: 0 <= i < n ==> r.vector[i] == 0)
      && 2 * |r.infos| == n * (n - 1) && (forall k :: 0 <= k < |r.infos| ==> r.infos[k].matches == [])
      && (forall a, b :: 0 <= a < n && 0 <= b < n ==> r.matrix[a][b] == 0)
  {
    var names := ParseListFile(listContent).1;
    var disk := Disk(map[], map[]);
    NoImagesNoHang(m, env, names, |names|, disk);
    var phase := ExtractionPhase(m, env, names, |names|, disk);
    OpenCompleted(m, env, listContent, disk, engine);
    forall i | 0 <= i < |names| ensures |phase.table[i].points| == 0 {
      assert BelongsTo(env, names[i], phase.table[i]);
    }
    FinishNoMatches(m, names, phase.disk, phase.table, engine);
    FinishExhaustive(m, names, phase.disk, phase.table, engine);
  }

  /** Once the phase completes, `open` goes on to match. */
  lemma OpenCompleted(m: Matcher, env: Env, listContent: Option<string>, disk: Disk, engine: Engine)
    requires m.initialized
    requires var names := ParseListFile(listContent).1;
      ExtractionPhase(m, env, names, |names|, disk).Running?
    ensures var names := ParseListFile(listContent).1;
      var phase := ExtractionPhase(m, env, names, |names|, disk);
      Open(m, env, listContent, disk, engine) == Finish(m, names, phase.disk, phase.table, engine)
  {
  }

  /** Images without features and an engine that finds nothing give a zero
      vector, MatchInfos without matches and a zero matrix. */
  lemma FinishNoMatches(m: Matcher, names: seq<string>, d: Disk, table: seq<FeatureInfo>, engine: Engine)
    requires |table| == |names|
    requires forall i :: 0 <= i < |table| ==> |table[i].points| == 0
    requires forall a, b, size, dt, rt :: engine(a, b, size, dt, rt) == []
    ensures var r := Finish(m, names, d, table, engine);
      && (forall i :: 0 <= i < |names| ==> r.vector[i] == 0)
      && (forall k :: 0 <= k < |r.infos| ==> r.infos[k].matches == [])
      && (forall a, b :: 0 <= a < |names| && 0 <= b < |names| ==> r.matrix[a][b] == 0)
  {
    var r := Finish(m, names, d, table, engine);
    MatrixAllZero(|names|, r.infos);
  }
  /** Without loadable images the tile loops never run, so the phase completes. */
  lemma {:induction false} NoImagesNoHang(m: Matcher, env: Env, names: seq<string>, k: nat, disk: Disk)
    requires env.images == map[] && k <= |names|
    ensures ExtractionPhase(m, env, names, k, disk).Running?
  {
    if k > 0 {
      NoImagesNoHang(m, env, names, k - 1, disk);
      var d := ExtractionPhase(m, env, names, k - 1, disk).disk;
      assert ImageOf(env, names[k - 1]).None?;
      assert ProcessImage(m, env, names[k - 1], d).Some?;
    }
  }
}

=== FILE: pairs.dfy ===
/** The pair selector of BundlerMatcher::open: which image pairs are handed to
    the matching engine, in which order, and how many. */
module PairSelection {

  /** Range of a 64-bit `size_t`. */
  const SizeRange: int := 0x1_0000_0000_0000_0000

  /** Range of a 32-bit `unsigned int`. */
  const UIntRange: int := 0x1_0000_0000

  datatype ImagePair = ImagePair(indexA: int, indexB: int)

  /** Row-major (lexicographic) order on pairs. */
  predicate Before(p: ImagePair, q: ImagePair)
  {
    p.indexA < q.indexA || (p.indexA == q.indexA && p.indexB < q.indexB)
  }

  /** Strictly increasing in row-major order; in particular free of duplicates. */
  predicate StrictlyIncreasing(ps: seq<ImagePair>)
  {
    forall i, j :: 0 <= i < j < |ps| ==> Before(ps[i], ps[j])
  }

  lemma StrictlyIncreasingNoDuplicates(ps: seq<ImagePair>)
    requires StrictlyIncreasing(ps)
    ensures forall i, j :: 0 <= i < j < |ps| ==> ps[i] != ps[j]
  {
  }

  lemma ConcatIncreasing(s: seq<ImagePair>, t: seq<ImagePair>, a: int)
    requires StrictlyIncreasing(s) && StrictlyIncreasing(t)
    requires forall k :: 0 <= k < |s| ==> s[k].indexA < a
    requires forall k :: 0 <= k < |t| ==> t[k].indexA == a
    ensures StrictlyIncreasing(s + t)
  {
  }

  // ---------------------------------------------------------------------------
  // Exhaustive policy: `for i < N { for j = i+1 .. N-1 { match(i, j) } }`

  /** The pairs (i, j) with i < j < k, in the order the inner loop emits them. */
  function RowPrefix(i: int, k: int): (r: seq<ImagePair>)
    decreases k - i
  {
    if k <= i + 1 then [] else RowPrefix(i, k - 1) + [ImagePair(i, k - 1)]
  }

  /** The rows 0 .. k-1 of the exhaustive enumeration over n images. */
  function RowsBefore(k: nat, n: int): seq<ImagePair>
  {
    if k == 0 then [] else RowsBefore(k - 1, n) + RowPrefix(k - 1, n)
  }

  function ExhaustivePairs(n: nat): seq<ImagePair>
  {
    RowsBefore(n, n)
  }

  lemma {:induction false} RowPrefixShape(i: int, k: int)
    ensures |RowPrefix(i, k)| == if k <= i + 1 then 0 else k - i - 1
    ensures forall m :: 0 <= m < |RowPrefix(i, k)| ==> RowPrefix(i, k)[m] == ImagePair(i, i + 1 + m)
    decreases k - i
  {
    if k > i + 1 {
      RowPrefixShape(i, k - 1);
    }
  }

  lemma RowPrefixFacts(i: int, k: int)
    ensures |RowPrefix(i, k)| == if k <= i + 1 then 0 else k - i - 1
    ensures forall p :: p in RowPrefix(i, k) <==> p.indexA == i && i < p.indexB < k
  {
    RowPrefixShape(i, k);
    var r := RowPrefix(i, k);
    forall p: ImagePair | p.indexA == i && i < p.indexB < k ensures p in r {
      assert r[p.indexB - i - 1] == p;
    }
  }

  lemma {:induction false} RowsBeforeMembers(k: nat, n: int)
    ensures forall p :: p in RowsBefore(k, n) <==> 0 <= p.indexA < k && p.indexA < p.indexB < n
  {
    if k > 0 {
      RowsBeforeMembers(k - 1, n);
      RowPrefixFacts(k - 1, n);
      var s := RowsBefore(k - 1, n);
      var t := RowPrefix(k - 1, n);
      assert RowsBefore(k, n) == s + t;
      forall p: ImagePair ensures p in s + t <==> 0 <= p.indexA < k && p.indexA < p.indexB < n {
        assert p in s <==> 0 <= p.indexA < k - 1 && p.indexA < p.indexB < n;
        assert p in t <==> p.indexA == k - 1 && k - 1 < p.indexB < n;
        assert p in s + t <==> p in s || p in t;
      }
    }
  }

  lemma {:induction false} RowsBeforeIncreasing(k: nat, n: int)
    ensures StrictlyIncreasing(RowsBefore(k, n))
  {
    if k > 0 {
      RowsBeforeIncreasing(k - 1, n);
      RowsBeforeMembers(k - 1, n);
      RowPrefixShape(k - 1, n);
      var s := RowsBefore(k - 1, n);
      forall m | 0 <= m < |s| ensures s[m].indexA < k - 1 {
        assert s[m] in s;
      }
      ConcatIncreasing(s, RowPrefix(k - 1, n), k - 1);
    }
  }

  lemma {:induction false} RowsBeforeCount(k: nat, n: int)
    requires k <= n
    ensures 2 * |RowsBefore(k, n)| == k * (2 * n - k - 1)
  {
    if k > 0 {
      RowsBeforeCount(k - 1, n);
      RowPrefixShape(k - 1, n);
      CountStep(k - 1, n, |RowsBefore(k - 1, n)|);
      assert RowsBefore(k, n) == RowsBefore(k - 1, n) + RowPrefix(k - 1, n);
    }
  }

  /** Adding row j (n - j - 1 pairs) to the rows before it. */
  lemma CountStep(j: int, n: int, before: int)
    requires 2 * before == j * (2 * n - j - 1)
    ensures 2 * (before + (n - j - 1)) == (j + 1) * (2 * n - (j + 1) - 1)
  {
    var x := j * (2 * n - j - 2);
    assert j * (2 * n - j - 1) == x + j;
    assert (j + 1) * (2 * n - j - 2) == x + (2 * n - j - 2);
  }

  /** Exhaustive mode compares exactly the pairs 0 <= i < j < N, each once, in
      row-major order, N(N-1)/2 of them. */
  lemma ExhaustivePairsSpec(n: nat)
    ensures forall p :: p in ExhaustivePairs(n) <==> 0 <= p.indexA < p.indexB < n
    ensures StrictlyIncreasing(ExhaustivePairs(n))
    ensures |ExhaustivePairs(n)| == n * (n - 1) / 2
  {
    RowsBeforeMembers(n, n);
    RowsBeforeIncreasing(n, n);
    RowsBeforeCount(n, n);
  }

  // ---------------------------------------------------------------------------
  // Sequence policy: `for i < N-1 { for j = 1 .. L { if i+j < N { match(i, i+j) } } }`

  /** The pairs (i, i+t) with 1 <= t < j and i+t < n, in inner-loop order. */
  function WindowPrefix(i: int, j: int, n: int): seq<ImagePair>
    decreases j
  {
    if j <= 1 then []
    else WindowPrefix(i, j - 1, n) + (if i + (j - 1) < n then [ImagePair(i, i + (j - 1))] else [])
  }

  /** The rows 0 .. k-1 of the sequence enumeration with window `len`. */
  function WindowRowsBefore(k: nat, n: int, len: int): seq<ImagePair>
  {
    if k == 0 then [] else WindowRowsBefore(k - 1, n, len) + WindowPrefix(k - 1, len + 1, n)
  }

  /** Sequence mode: the outer loop stops at N-1 (no rows at all when N = 0). */
  function SequencePairs(n: nat, len: int): seq<ImagePair>
  {
    WindowRowsBefore(if n == 0 then 0 else n - 1, n, len)
  }

  function Min(a: int, b: int): int
  {
    if a <= b then a else b
  }

  lemma {:induction false} WindowPrefixShape(i: int, j: int, n: int)
    ensures |WindowPrefix(i, j, n)| == if j <= 1 || n - 1 - i <= 0 then 0 else Min(j - 1, n - 1 - i)
    ensures forall m :: 0 <= m < |WindowPrefix(i, j, n)| ==> WindowPrefix(i, j, n)[m] == ImagePair(i, i + 1 + m)
    decreases j
  {
    if j > 1 {
      WindowPrefixShape(i, j - 1, n);
    }
  }

  lemma WindowPrefixFacts(i: int, j: int, n: int)
    ensures |WindowPrefix(i, j, n)| == if j <= 1 || n - 1 - i <= 0 then 0 else Min(j - 1, n - 1 - i)
    ensures forall p :: p in WindowPrefix(i, j, n) <==>
      p.indexA == i && i < p.indexB < n && p.indexB - i < j
  {
    WindowPrefixShape(i, j, n);
    var r := WindowPrefix(i, j, n);
    forall p: ImagePair | p.indexA == i && i < p.indexB < n && p.indexB - i < j ensures p in r {
      assert r[p.indexB - i - 1] == p;
    }
  }

  lemma {:induction false} WindowRowsMembers(k: nat, n: int, len: int)
    ensures forall p :: p in WindowRowsBefore(k, n, len) <==>
      0 <= p.indexA < k && p.indexA < p.indexB < n && p.indexB - p.indexA <= len
  {
    if k > 0 {
      WindowRowsMembers(k - 1, n, len);
      WindowPrefixFacts(k - 1, len + 1, n);
      var s := WindowRowsBefore(k - 1, n, len);
      var t := WindowPrefix(k - 1, len + 1, n);
      assert WindowRowsBefore(k, n, len) == s + t;
      forall p: ImagePair ensures p in s + t <==> 0 <= p.indexA < k && p.indexA < p.indexB < n && p.indexB - p.indexA <= len {
        assert p in s <==> 0 <= p.indexA < k - 1 && p.indexA < p.indexB < n && p.indexB - p.indexA <= len;
        assert p in t <==> p.indexA == k - 1 && k - 1 < p.indexB < n && p.indexB - (k - 1) < len + 1;
        assert p in s + t <==> p in s || p in t;
      }
    }
  }

  lemma {:induction false} WindowRowsIncreasing(k: nat, n: int, len: int)
    ensures StrictlyIncreasing(WindowRowsBefore(k, n, len))
  {
    if k > 0 {
      WindowRowsIncreasing(k - 1, n, len);
      WindowRowsMembers(k - 1, n, len);
      WindowPrefixShape(k - 1, len + 1, n);
      var s := WindowRowsBefore(k - 1, n, len);
      forall m | 0 <= m < |s| ensures s[m].indexA < k - 1 {
        assert s[m] in s;
      }
      var t := WindowPrefix(k - 1, len + 1, n);
      ConcatIncreasing(s, t, k - 1);
    }
  }

  /** Reference count of the sequence policy: sum over the offsets d = 1 .. m-1
      of min(len, d), i.e. the pairs whose later image is d steps away. */
  function WindowCount(m: nat, len: int): int
  {
    if m <= 1 then 0 else WindowCount(m - 1, len) + Min(len, m - 1)
  }

  lemma {:induction false} WindowRowsCount(k: nat, n: nat, len: int)
    requires 0 <= len && k <= n
    ensures |WindowRowsBefore(k, n, len)| == WindowCount(n, len) - WindowCount(n - k, len)
  {
    if k > 0 {
      WindowRowsCount(k - 1, n, len);
      WindowPrefixFacts(k - 1, len + 1, n);
    }
  }

  /** Sequence mode compares exactly the pairs (i, i+j) with 1 <= j <= L and
      i+j < N, each once, ordered by i then j; there are sum_i min(L, N-1-i). */
  lemma SequencePairsSpec(n: nat, len: int)
    ensures forall p :: p in SequencePairs(n, len) <==>
      0 <= p.indexA && p.indexA < p.indexB < n && p.indexB <= p.indexA + len
    ensures StrictlyIncreasing(SequencePairs(n, len))
    ensures 0 <= len ==> |SequencePairs(n, len)| == WindowCount(n, len)
  {
    var k := if n == 0 then 0 else n - 1;
    WindowRowsMembers(k, n, len);
    WindowRowsIncreasing(k, n, len);
    if 0 <= len {
      WindowRowsCount(k, n, len);
    }
  }

  lemma {:induction false} WindowCountSmall(m: nat, len: int)
    requires m <= len + 1
    ensures 2 * WindowCount(m, len) == m * (m - 1)
  {
    if m > 1 {
      WindowCountSmall(m - 1, len);
      assert (m - 1) * (m - 2) + 2 * (m - 1) == m * (m - 1);
    }
  }

  /** When the window is no longer than the list, the count is (N-L)L + L(L-1)/2. */
  lemma WindowCountClosedForm(m: nat, len: int)
    requires 0 <= len <= m
    ensures WindowCount(m, len) == (m - len) * len + len * (len - 1) / 2
  {
    WindowCountDoubled(m, len);
    var w, a, t := WindowCount(m, len), (m - len) * len, len * (len - 1);
    assert 2 * w == 2 * a + t;
    assert t == 2 * (w - a);
    assert t / 2 == w - a;
  }

  lemma {:induction false} WindowCountDoubled(m: nat, len: int)
    requires 0 <= len <= m
    ensures 2 * WindowCount(m, len) == 2 * (m - len) * len + len * (len - 1)
    decreases m - len
  {
    if m == len {
      WindowCountSmall(m, len);
    } else {
      WindowCountDoubled(m - 1, len);
      assert WindowCount(m, len) == WindowCount(m - 1, len) + len;
      var a := m - len;
      assert 2 * (a - 1) * len + 2 * len == 2 * a * len;
    }
  }

  // ---------------------------------------------------------------------------
  // Policy selection and the loops of `open`

  /** The pairs `open` matches: sequence mode when enabled, exhaustive otherwise. */
  function SelectPairs(sequenceEnabled: bool, n: nat, len: int): seq<ImagePair>
  {
    if sequenceEnabled then SequencePairs(n, len) else ExhaustivePairs(n)
  }

  /** Both policies only produce pairs 0 <= a < b < N. */
  lemma SelectedPairsInRange(sequenceEnabled: bool, n: nat, len: int)
    ensures forall p :: p in SelectPairs(sequenceEnabled, n, len) ==> 0 <= p.indexA < p.indexB < n
  {
    ExhaustivePairsSpec(n);
    SequencePairsSpec(n, len);
  }

  /** The same, pair by pair. */
  lemma SelectedPairsIndexed(sequenceEnabled: bool, n: nat, len: int)
    ensures var pairs := SelectPairs(sequenceEnabled, n, len);
      forall k :: 0 <= k < |pairs| ==> 0 <= pairs[k].indexA < pairs[k].indexB < n
  {
    var pairs := SelectPairs(sequenceEnabled, n, len);
    SelectedPairsInRange(sequenceEnabled, n, len);
    forall k | 0 <= k < |pairs| ensures 0 <= pairs[k].indexA < pairs[k].indexB < n {
      assert pairs[k] in pairs;
    }
  }

  /** The two nested loops of `open` (BundlerMatcher.cpp), recording the pairs
      in the order `matchSiftFeature` is called on them. The sequence loop's
      outer bound is written `i + 1 < n`, which is `i < N-1` without the
      unsigned wrap-around of the C++ loop when N = 0. */
  method EnumeratePairs(n: nat, sequenceEnabled: bool, len: int) returns (pairs: seq<ImagePair>)
    ensures pairs == SelectPairs(sequenceEnabled, n, len)
    ensures !sequenceEnabled ==> |pairs| == n * (n - 1) / 2
    ensures sequenceEnabled && 0 <= len <= n ==> |pairs| == (n - len) * len + len * (len - 1) / 2
    ensures forall k :: 0 <= k < |pairs| ==> 0 <= pairs[k].indexA < pairs[k].indexB < n
  {
    if sequenceEnabled {
      pairs := EnumerateSequence(n, len);
      SequencePairsSpec(n, len);
      if 0 <= len <= n {
        WindowCountClosedForm(n, len);
      }
    } else {
      pairs := EnumerateExhaustive(n);
      ExhaustivePairsSpec(n);
    }
    SelectedPairsInRange(sequenceEnabled, n, len);
    forall k | 0 <= k < |pairs| ensures 0 <= pairs[k].indexA < pairs[k].indexB < n {
      assert pairs[k] in pairs;
    }
  }

  /** The sequence branch: rows i < N-1, offsets 1 .. L, skipping i+j >= N. */
  method EnumerateSequence(n: nat, len: int) returns (pairs: seq<ImagePair>)
    ensures pairs == SequencePairs(n, len)
  {
    pairs := [];
    var i := 0;
    while i + 1 < n
      invariant 0 <= i && (n > 0 ==> i <= n - 1) && (n == 0 ==> i == 0)
      invariant pairs == WindowRowsBefore(i, n, len)
    {
      var j := 1;
      while j <= len
        invariant 1 <= j <= (if len >= 1 then len + 1 else 1)
        invariant pairs == WindowRowsBefore(i, n, len) + WindowPrefix(i, j, n)
      {
        if i + j < n {
          pairs := pairs + [ImagePair(i, i + j)];
        }
        j := j + 1;
      }
      i := i + 1;
    }
  }

  /** The exhaustive branch: rows i < N, columns i+1 .. N-1. */
  method EnumerateExhaustive(n: nat) returns (pairs: seq<ImagePair>)
    ensures pairs == ExhaustivePairs(n)
  {
    pairs := [];
    var i := 0;
    while i < n
      invariant 0 <= i <= n
      invariant pairs == RowsBefore(i, n)
    {
      var j := i + 1;
      while j < n
        invariant i + 1 <= j <= n
        invariant pairs == RowsBefore(i, n) + RowPrefix(i, j)
      {
        pairs := pairs + [ImagePair(i, j)];
        j := j + 1;
      }
      i := i + 1;
    }
  }

  /** The five-image, window-two example: seven pairs in this order. */
  lemma SequenceFiveByTwo()
    ensures SequencePairs(5, 2) == [ImagePair(0, 1), ImagePair(0, 2), ImagePair(1, 2), ImagePair(1, 3),
                                    ImagePair(2, 3), ImagePair(2, 4), ImagePair(3, 4)]
  {
  }

  // ---------------------------------------------------------------------------
  // Progress denominator of the sequence loop

  /** `maxIterations` of the sequence branch, as written: (N-L)L + L(L-1)/2. */
  function ProgressTotalAsWritten(n: nat, len: int): int
  {
    (n - len) * len + len * (len - 1) / 2
  }

  /** The denominator agrees with the number of matched pairs while L <= N ... */
  lemma ProgressTotalAgreesUpToN(n: nat, len: int)
    requires 0 <= len <= n
    ensures ProgressTotalAsWritten(n, len) == |SequencePairs(n, len)|
  {
    SequencePairsSpec(n, len);
    WindowCountClosedForm(n, len);
  }

  /** ... but not beyond: two images with window 5 match one pair, while the
      denominator is -5 (and with three images it is 0). */
  lemma ProgressTotalWrongBeyondN()
    ensures |SequencePairs(2, 5)| == 1 && ProgressTotalAsWritten(2, 5) == -5
    ensures |SequencePairs(3, 5)| == 3 && ProgressTotalAsWritten(3, 5) == 0
  {
    SequencePairsSpec(2, 5);
    SequencePairsSpec(3, 5);
  }

  /** The intended denominator: the number of pairs the sequence loop matches. */
  function ProgressTotal(n: nat, len: int): (total: int)
    requires 0 <= len
    ensures total == |SequencePairs(n, len)|
    ensures len <= n ==> total == ProgressTotalAsWritten(n, len)
    ensures total == 0 <==> n <= 1 || len == 0
  {
    ProgressTotalFacts(n, len);
    WindowCount(n, len)
  }

  lemma ProgressTotalFacts(n: nat, len: int)
    requires 0 <= len
    ensures WindowCount(n, len) == |SequencePairs(n, len)|
    ensures len <= n ==> WindowCount(n, len) == ProgressTotalAsWritten(n, len)
    ensures WindowCount(n, len) == 0 <==> n <= 1 || len == 0
  {
    SequencePairsSpec(n, len);
    if len <= n {
      WindowCountClosedForm(n, len);
    }
    WindowCountPositive(n, len);
  }

  lemma {:induction false} WindowCountPositive(m: nat, len: int)
    requires 0 <= len
    ensures WindowCount(m, len) >= 0
    ensures WindowCount(m, len) == 0 <==> m <= 1 || len == 0
  {
    if m > 1 {
      WindowCountPositive(m - 1, len);
    }
  }

  // ---------------------------------------------------------------------------
  // The outer bound of the sequence loop as written

  /** `mFilenames.size() - 1`, computed in 64-bit `size_t`. */
  function SequenceOuterBoundAsWritten(n: nat): int
  {
    (n - 1) % SizeRange
  }

  /** The loop counter is an `unsigned int`, so the loop only leaves once the
      counter can reach the bound, i.e. the bound is below 2^32. */
  predicate SequenceOuterLoopExitsAsWritten(n: nat)
  {
    SequenceOuterBoundAsWritten(n) < UIntRange
  }

  /** With a 64-bit `size_t`, an empty image list (which a missing list file
      also gives) makes the bound 2^64 - 1, so the outer loop of the sequence
      branch never exits; for any list of 1 .. 2^32 images it exits after N-1
      rows. (With a 32-bit `size_t` the bound would be 2^32 - 1, which the
      counter reaches, and the loop would end without pairs.) */
  lemma SequenceLoopAsWrittenOnEmptyList(n: nat)
    ensures !SequenceOuterLoopExitsAsWritten(0)
    ensures 1 <= n <= UIntRange ==> SequenceOuterLoopExitsAsWritten(n) && SequenceOuterBoundAsWritten(n) == n - 1
  {
  }

  // ---------------------------------------------------------------------------
  // The inner bound of the sequence loop as written

  /** Range of a 32-bit `int`, the type of `mSequenceMatchingLength` and of the
      inner counter `j`. */
  const IntMin: int := -0x8000_0000
  const IntMax: int := 0x7FFF_FFFF

  predicate IsInt(j: int)
  {
    IntMin <= j <= IntMax
  }

  /** The inner loop's test `j <= mSequenceMatchingLength`. */
  predicate InnerTestAsWritten(j: int, len: int)
  {
    j <= len
  }

  /** The inner loop ends exactly when some `int` value of its counter fails
      the test: for every length below INT_MAX the counter L+1 does, but at
      L = INT_MAX every `int` passes, so the loop never ends. */
  lemma SequenceInnerLoopAsWrittenAtIntMax(len: int)
    requires IsInt(len)
    ensures (forall j :: IsInt(j) ==> InnerTestAsWritten(j, len)) <==> len == IntMax
  {
    if len < IntMax {
      assert IsInt(len + 1) && !InnerTestAsWritten(len + 1, len);
    }
  }

  /** With the bound written without wrap-around, an empty list has no pairs. */
  lemma SequencePairsOnEmptyList(len: int)
    ensures SequencePairs(0, len) == []
    ensures forall n: nat :: 1 <= n ==> SequencePairs(n, len) == WindowRowsBefore(n - 1, n, len)
  {
  }
}

=== FILE: quantization.dfy ===
/** Fixed-point quantisation of descriptor values in the text key-file format:
    the writer stores floor(0.5 + 512 d), the reader turns q back into
    q / 512 - 0.5. Floating point is modelled by exact reals. */
module Quantization {

  import opened MatcherTypes

  const Scale: real := 512.0

  /** `floor(0.5 + 512.0f * d)`, the integer the text writer emits. */
  function Quantize(d: real): (q: int)
    ensures (q as real) <= 0.5 + Scale * d < (q as real) + 1.0
  {
    (0.5 + Scale * d).Floor
  }

  /** Rounding to the nearest multiple of 1/512 is monotone. */
  lemma QuantizeMonotone(d: real, e: real)
    requires d <= e
    ensures Quantize(d) <= Quantize(e)
  {
  }

  /** Descriptor values in [0, 0.5) are written as integers in [0, 256]. */
  lemma QuantizeRange(d: real)
    requires 0.0 <= d < 0.5
    ensures 0 <= Quantize(d) <= 256
  {
    QuantizeMonotone(0.0, d);
    QuantizeMonotone(d, 0.5);
    assert Quantize(0.0) == 0;
    assert Quantize(0.5) == 256;
  }

  /** `((float)feature / 512.0f) - 0.5`, the value the text reader stores. */
  function DequantizeAsWritten(q: UInt32): real
  {
    (q as real) / Scale - 0.5
  }

  /** The reader does not invert the writer: writing a value read back gives
      q - 256, and reading a written value gives it back 0.5 too low. */
  lemma DequantizeAsWrittenShifts(q: UInt32, d: real)
    requires 0 <= Quantize(d) < UIntRange
    ensures Quantize(DequantizeAsWritten(q)) == q - 256
    ensures DequantizeAsWritten(Quantize(d)) <= d - 0.5 + 1.0 / 1024.0
    ensures d - 0.5 - 1.0 / 1024.0 < DequantizeAsWritten(Quantize(d))
  {
    assert Scale * DequantizeAsWritten(q) == (q as real) - 256.0;
    assert 0.5 + Scale * DequantizeAsWritten(q) == ((q - 256) as real) + 0.5;
  }

  /** A concrete case: 0.25 is written as 128 and read back as -0.25. */
  lemma DequantizeAsWrittenExample()
    ensures Quantize(0.25) == 128 && DequantizeAsWritten(128) == -0.25
  {
  }

  /** The inverse of the writer's rounding: q / 512. */
  function Dequantize(q: UInt32): (d: real)
    ensures Quantize(d) == q
    ensures 0.0 <= d
  {
    assert 0.5 + Scale * ((q as real) / Scale) == (q as real) + 0.5;
    (q as real) / Scale
  }

  /** Reading a written value is exact up to half a quantisation step. */
  lemma DequantizeRoundTrip(d: real)
    requires 0 <= Quantize(d) < UIntRange
    ensures d - 1.0 / 1024.0 < Dequantize(Quantize(d)) <= d + 1.0 / 1024.0
    ensures Quantize(Dequantize(Quantize(d))) == Quantize(d)
  {
  }
}

=== FILE: results.dfy ===
/** The result files written after matching: the match list
    (BundlerMatcher::saveMatches), the match-count matrix (`matrix.txt`,
    BundlerMatcher::saveMatrix) and the feature-count vector (`vector.txt`,
    BundlerMatcher::saveVector). A text file is modelled as its lines, each
    line as the integers on it. */
module ResultFiles {

  import opened MatcherTypes

  // ---------------------------------------------------------------------------
  // The match list

  /** The lines of one MatchInfo: `a b`, the match count, then `i j` per match. */
  function InfoLines(mi: MatchInfo): (lines: seq<seq<int>>)
    ensures |lines| == 2 + |mi.matches|
  {
    [[mi.indexA, mi.indexB], [|mi.matches|]]
      + seq(|mi.matches|, j requires 0 <= j < |mi.matches| => [mi.matches[j].first as int, mi.matches[j].second as int])
  }

  /** saveMatches: the blocks of all MatchInfos, in table order. */
  function SaveMatches(infos: seq<MatchInfo>): seq<seq<int>>
  {
    if |infos| == 0 then [] else InfoLines(infos[0]) + SaveMatches(infos[1..])
  }

  /** Reference: the number of matches over all MatchInfos. */
  function TotalMatches(infos: seq<MatchInfo>): nat
  {
    if |infos| == 0 then 0 else |infos[0].matches| + TotalMatches(infos[1..])
  }

  /** The match file has two lines per MatchInfo plus one per match. */
  lemma {:induction false} SaveMatchesLength(infos: seq<MatchInfo>)
    ensures |SaveMatches(infos)| == 2 * |infos| + TotalMatches(infos)
  {
    if |infos| > 0 {
      SaveMatchesLength(infos[1..]);
    }
  }

  /** Reads `count` match lines back. */
  function ParseMatchLines(lines: seq<seq<int>>, count: nat): Option<seq<Match>>
    decreases count
  {
    if count == 0 then Some([])
    else if |lines| == 0 || |lines[0]| != 2 || !(0 <= lines[0][0] < UIntRange) || !(0 <= lines[0][1] < UIntRange) then None
    else
      match ParseMatchLines(lines[1..], count - 1)
      case None => None
      case Some(ms) => Some([Match(lines[0][0], lines[0][1])] + ms)
  }

  /** Reads a match file back; the inverse of SaveMatches. */
  function ParseMatches(lines: seq<seq<int>>): Option<seq<MatchInfo>>
    decreases |lines|
  {
    if |lines| == 0 then Some([])
    else if |lines| < 2 || |lines[0]| != 2 || |lines[1]| != 1 || lines[1][0] < 0 || |lines| < 2 + lines[1][0] then None
    else
      var count := lines[1][0];
      match ParseMatchLines(lines[2..], count)
      case None => None
      case Some(ms) =>
        match ParseMatches(lines[2 + count..])
        case None => None
        case Some(rest) => Some([MatchInfo(lines[0][0], lines[0][1], ms)] + rest)
  }

  lemma {:induction false} ParseMatchLinesOfWritten(ms: seq<Match>, rest: seq<seq<int>>)
    ensures ParseMatchLines(seq(|ms|, j requires 0 <= j < |ms| => [ms[j].first as int, ms[j].second as int]) + rest, |ms|)
         == Some(ms)
    decreases |ms|
  {
    if |ms| > 0 {
      var lines := seq(|ms|, j requires 0 <= j < |ms| => [ms[j].first as int, ms[j].second as int]);
      var tail := ms[1..];
      var tailLines := seq(|tail|, j requires 0 <= j < |tail| => [tail[j].first as int, tail[j].second as int]);
      ParseMatchLinesOfWritten(tail, rest);
      assert (lines + rest)[1..] == tailLines + rest;
      assert ms == [ms[0]] + tail;
    }
  }

  /** The match file determines the MatchInfos it was written from. */
  lemma {:induction false} ParseSaveMatches(infos: seq<MatchInfo>)
    ensures ParseMatches(SaveMatches(infos)) == Some(infos)
  {
    if |infos| > 0 {
      var mi := infos[0];
      var n := |mi.matches|;
      var matchLines := seq(n, j requires 0 <= j < n => [mi.matches[j].first as int, mi.matches[j].second as int]);
      var rest := SaveMatches(infos[1..]);
      var lines := SaveMatches(infos);
      assert lines == [[mi.indexA, mi.indexB], [n]] + (matchLines + rest);
      assert lines[2..] == matchLines + rest;
      ParseMatchLinesOfWritten(mi.matches, rest);
      assert lines[2 + n..] == rest;
      ParseSaveMatches(infos[1..]);
      assert infos == [mi] + infos[1..];
    }
  }

  // ---------------------------------------------------------------------------
  // The match-count matrix

  /** Every MatchInfo names a cell of the n × n matrix (the program writes
      `matrix[indexA * n + indexB]` without a bound check). */
  predicate CellsInRange(n: nat, infos: seq<MatchInfo>)
  {
    forall k :: 0 <= k < |infos| ==> 0 <= infos[k].indexA < n && 0 <= infos[k].indexB < n
  }

  /** An n × n grid of counts. */
  predicate Square(rows: seq<seq<int>>, n: nat)
  {
    |rows| == n && forall i :: 0 <= i < n ==> |rows[i]| == n
  }

  /** The matrix after the loop over the MatchInfos: zeros, then each
      MatchInfo's count written to cell (indexA, indexB) in table order.
      The program keeps the matrix flat and addresses (a, b) as a·n + b,
      which for in-range indices names the same cell. */
  function Fill(n: nat, infos: seq<MatchInfo>): (rows: seq<seq<int>>)
    requires CellsInRange(n, infos)
    ensures Square(rows, n)
  {
    if |infos| == 0 then seq(n, _ => seq(n, _ => 0))
    else
      var last := infos[|infos| - 1];
      var rows := Fill(n, infos[..|infos| - 1]);
      rows[last.indexA := rows[last.indexA][last.indexB := |last.matches|]]
  }

  /** Reference: the count of the last MatchInfo for (a, b), or 0 if none. */
  function LastCount(infos: seq<MatchInfo>, a: int, b: int): nat
  {
    if |infos| == 0 then 0
    else if infos[|infos| - 1].indexA == a && infos[|infos| - 1].indexB == b then |infos[|infos| - 1].matches|
    else LastCount(infos[..|infos| - 1], a, b)
  }

  /** The last write wins: cell (a, b) holds the count of the last MatchInfo
      for (a, b), and 0 when there is none. */
  lemma {:induction false} FillCell(n: nat, infos: seq<MatchInfo>, a: nat, b: nat)
    requires CellsInRange(n, infos) && a < n && b < n
    ensures Fill(n, infos)[a][b] == LastCount(infos, a, b)
  {
    if |infos| > 0 {
      FillCell(n, infos[..|infos| - 1], a, b);
    }
  }

  /** saveMatrix: n lines of n counts, each count followed by `;`. */
  function SaveMatrix(n: nat, infos: seq<MatchInfo>): (rows: seq<seq<int>>)
    requires CellsInRange(n, infos)
    ensures Square(rows, n)
  {
    Fill(n, infos)
  }

  /** Entry (a, b) of matrix.txt is the count of the last MatchInfo for (a, b). */
  lemma SaveMatrixSpec(n: nat, infos: seq<MatchInfo>)
    requires CellsInRange(n, infos)
    ensures forall a, b :: 0 <= a < n && 0 <= b < n ==> SaveMatrix(n, infos)[a][b] == LastCount(infos, a, b)
  {
    forall a, b | 0 <= a < n && 0 <= b < n ensures SaveMatrix(n, infos)[a][b] == LastCount(infos, a, b) {
      FillCell(n, infos, a, b);
    }
  }

  lemma {:induction false} LastCountAbsent(infos: seq<MatchInfo>, a: int, b: int)
    requires forall k :: 0 <= k < |infos| ==> !(infos[k].indexA == a && infos[k].indexB == b)
    ensures LastCount(infos, a, b) == 0
  {
    if |infos| > 0 {
      LastCountAbsent(infos[..|infos| - 1], a, b);
    }
  }

  /** The matrix is not mirrored: a cell no MatchInfo names stays 0, even
      when the transposed cell holds a count. */
  lemma MatrixNotMirrored(n: nat, infos: seq<MatchInfo>, a: nat, b: nat)
    requires CellsInRange(n, infos) && a < n && b < n
    requires forall k :: 0 <= k < |infos| ==> !(infos[k].indexA == b && infos[k].indexB == a)
    ensures SaveMatrix(n, infos)[b][a] == 0
  {
    SaveMatrixSpec(n, infos);
    LastCountAbsent(infos, b, a);
  }

  /** Two images with one match between them give an asymmetric matrix. */
  lemma MatrixExample()
    ensures SaveMatrix(2, [MatchInfo(0, 1, [Match(3, 4)])]) == [[0, 1], [0, 0]]
  {
    var infos := [MatchInfo(0, 1, [Match(3, 4)])];
    var rows := SaveMatrix(2, infos);
    SaveMatrixSpec(2, infos);
    assert infos[..0] == [];
    assert rows[0][0] == 0 && rows[0][1] == 1 && rows[1][0] == 0 && rows[1][1] == 0;
    assert rows[0] == [0, 1] && rows[1] == [0, 0];
  }

  /** When no pair found a match, every entry is 0. */
  lemma MatrixAllZero(n: nat, infos: seq<MatchInfo>)
    requires CellsInRange(n, infos)
    requires forall k :: 0 <= k < |infos| ==> |infos[k].matches| == 0
    ensures forall a, b :: 0 <= a < n && 0 <= b < n ==> SaveMatrix(n, infos)[a][b] == 0
  {
    SaveMatrixSpec(n, infos);
    forall a, b | 0 <= a < n && 0 <= b < n ensures LastCount(infos, a, b) == 0 {
      LastCountZero(infos, a, b);
    }
  }

  lemma {:induction false} LastCountZero(infos: seq<MatchInfo>, a: int, b: int)
    requires forall k :: 0 <= k < |infos| ==> |infos[k].matches| == 0
    ensures LastCount(infos, a, b) == 0
  {
    if |infos| > 0 {
      LastCountZero(infos[..|infos| - 1], a, b);
    }
  }

  // ---------------------------------------------------------------------------
  // The feature-count vector

  /** saveVector: one line per feature set, its number of keypoints. */
  function SaveVector(table: seq<FeatureInfo>): (lines: seq<int>)
    ensures |lines| == |table|
    ensures forall i :: 0 <= i < |table| ==> lines[i] == |table[i].points|
  {
    seq(|table|, i requires 0 <= i < |table| => |table[i].points|)
  }
}

=== FILE: tiling.dfy ===
/** Tiled extraction (BundlerMatcher::extractSiftFeature): the image is cut
    into tiles of `w / tileNum` by `h / tileNum` pixels, offsets stepping by
    the tile size while below the image size, width outer and height inner;
    each tile goes to the extraction engine and the results are merged. */
module Tiling {

  import opened MatcherTypes

  /** C++ `/` on `int`: the quotient truncated toward zero. */
  function TruncDiv(a: int, b: int): (q: int)
    requires b != 0
    ensures a >= 0 && b > 0 ==> q == a / b
    ensures a >= 0 && b < 0 ==> q == -(a / -b) && q <= 0
  {
    var q0 := (if a >= 0 then a else -a) / (if b > 0 then b else -b);
    if (a >= 0) == (b > 0) then q0 else -q0
  }

  /** The values `off` takes in `for (off = 0; off < extent; off += step)`. */
  function Offsets(extent: int, step: int): (r: seq<int>)
    requires step > 0
  {
    OffsetsFrom(0, extent, step)
  }

  function OffsetsFrom(start: int, extent: int, step: int): (r: seq<int>)
    requires step > 0
    decreases extent - start
  {
    if start >= extent then [] else [start] + OffsetsFrom(start + step, extent, step)
  }

  lemma {:induction false} OffsetsFromShape(start: int, extent: int, step: int)
    requires step > 0 && 0 <= start
    ensures var r := OffsetsFrom(start, extent, step);
      && (forall k :: 0 <= k < |r| ==> r[k] == start + k * step && r[k] < extent)
      && extent <= start + |r| * step
    decreases extent - start
  {
    if start < extent {
      var r := OffsetsFrom(start, extent, step);
      var tail := OffsetsFrom(start + step, extent, step);
      OffsetsFromShape(start + step, extent, step);
      assert r == [start] + tail;
      forall k | 0 <= k < |r| ensures r[k] == start + k * step && r[k] < extent {
        if k > 0 {
          assert r[k] == tail[k - 1];
          assert start + step + (k - 1) * step == start + k * step;
        }
      }
      assert start + step + |tail| * step == start + |r| * step;
    }
  }

  /** The offsets are the multiples of `step` below `extent`, in increasing
      order, and there are just enough of them to reach `extent`. */
  lemma OffsetsSpec(extent: int, step: int)
    requires step > 0
    ensures var r := Offsets(extent, step);
      && (forall k :: 0 <= k < |r| ==> r[k] == k * step && r[k] < extent)
      && extent <= |r| * step
      && (|r| > 0 ==> extent > (|r| - 1) * step)
  {
    OffsetsFromShape(0, extent, step);
    var r := Offsets(extent, step);
    if |r| > 0 {
      assert r[|r| - 1] == (|r| - 1) * step;
    }
  }

  /** A tile count `t` with `0 < t <= extent` gives exactly `t` offsets when
      it divides the extent, and more (the extra edge tiles) otherwise. */
  lemma OffsetCount(extent: int, t: int)
    requires 0 < t <= extent
    ensures extent / t > 0
    ensures extent % t == 0 ==> |Offsets(extent, extent / t)| == t
    ensures extent % t != 0 ==> |Offsets(extent, extent / t)| > t
  {
    var step := extent / t;
    assert extent == t * step + extent % t;
    assert step > 0;
    OffsetsSpec(extent, step);
    var n := |Offsets(extent, step)|;
    assert t * step <= extent;
    // n·step >= extent >= t·step, so n >= t
    MulCancel(t, n, step);
    if extent % t == 0 {
      assert extent == t * step;
      assert n > 0;
      // (n-1)·step < extent = t·step, so n - 1 < t
      MulCancelStrict(n - 1, t, step);
    } else {
      assert extent > t * step;
    }
  }

  lemma MulCancel(a: int, b: int, c: int)
    requires c > 0 && a * c <= b * c
    ensures a <= b
  {
    if a > b {
      MulMono(b + 1, a, c);
    }
  }

  lemma MulCancelStrict(a: int, b: int, c: int)
    requires c > 0 && a * c < b * c
    ensures a < b
  {
    if a >= b {
      MulMono(b, a, c);
    }
  }

  lemma MulMono(a: int, b: int, c: int)
    requires a <= b && c >= 0
    ensures a * c <= b * c
  {
  }

  /** One tile: its offset and size, the arguments of ilCopyPixels and RunSIFT. */
  datatype Tile = Tile(woff: int, hoff: int, wtile: int, htile: int)

  /** The tiles with horizontal offset `woff`, top to bottom. */
  function Column(woff: int, hs: seq<int>, wtile: int, htile: int): (c: seq<Tile>)
    ensures |c| == |hs|
    ensures forall j :: 0 <= j < |hs| ==> c[j] == Tile(woff, hs[j], wtile, htile)
  {
    seq(|hs|, j requires 0 <= j < |hs| => Tile(woff, hs[j], wtile, htile))
  }

  /** The nested loops over the offsets: the width loop outside. */
  function Grid(ws: seq<int>, hs: seq<int>, wtile: int, htile: int): (g: seq<Tile>)
    ensures |g| == |ws| * |hs|
  {
    if |ws| == 0 then []
    else Grid(ws[..|ws| - 1], hs, wtile, htile) + Column(ws[|ws| - 1], hs, wtile, htile)
  }

  /** The `m` tiles of column `i` in a grid with `m` tiles per column. */
  function ColumnAt(g: seq<Tile>, m: nat, i: nat): seq<Tile>
    requires m * i + m <= |g|
  {
    g[m * i .. m * i + m]
  }

  lemma ColumnAtPrefix(g: seq<Tile>, more: seq<Tile>, m: nat, i: nat)
    requires m * i + m <= |g|
    ensures ColumnAt(g + more, m, i) == ColumnAt(g, m, i)
  {
  }

  lemma ColumnAtLast(g: seq<Tile>, last: seq<Tile>, m: nat, i: nat)
    requires |g| == m * i && |last| == m
    ensures ColumnAt(g + last, m, i) == last
  {
  }

  /** Width outer, height inner: column i of the grid lists the tiles at
      horizontal offset ws[i], in the order of hs. */
  lemma {:induction false} GridOrder(ws: seq<int>, hs: seq<int>, wtile: int, htile: int)
    ensures forall i :: 0 <= i < |ws| ==>
      |hs| * i + |hs| <= |Grid(ws, hs, wtile, htile)| &&
      ColumnAt(Grid(ws, hs, wtile, htile), |hs|, i) == Column(ws[i], hs, wtile, htile)
  {
    if |ws| > 0 {
      var n := |ws| - 1;
      var front := ws[..n];
      GridOrder(front, hs, wtile, htile);
      var g := Grid(ws, hs, wtile, htile);
      var gf := Grid(front, hs, wtile, htile);
      assert g == gf + Column(ws[n], hs, wtile, htile);
      forall i | 0 <= i < |ws|
        ensures |hs| * i + |hs| <= |g| && ColumnAt(g, |hs|, i) == Column(ws[i], hs, wtile, htile)
      {
        assert |hs| * i + |hs| <= |hs| * n + |hs| by { MulMono(i, n, |hs|); }
        assert |hs| * n + |hs| == |g|;
        if i < n {
          ColumnAtPrefix(gf, Column(ws[n], hs, wtile, htile), |hs|, i);
          assert front[i] == ws[i];
        } else {
          ColumnAtLast(gf, Column(ws[n], hs, wtile, htile), |hs|, n);
        }
      }
    }
  }

  /** Membership in the grid: exactly the offset combinations. */
  lemma {:induction false} GridMembers(ws: seq<int>, hs: seq<int>, wtile: int, htile: int, tile: Tile)
    ensures tile in Grid(ws, hs, wtile, htile) <==>
      tile.woff in ws && tile.hoff in hs && tile.wtile == wtile && tile.htile == htile
  {
    if |ws| > 0 {
      var n := |ws| - 1;
      GridMembers(ws[..n], hs, wtile, htile, tile);
      var c := Column(ws[n], hs, wtile, htile);
      assert Grid(ws, hs, wtile, htile) == Grid(ws[..n], hs, wtile, htile) + c;
      assert tile in c <==> tile.woff == ws[n] && tile.hoff in hs && tile.wtile == wtile && tile.htile == htile by {
        if tile.woff == ws[n] && tile.hoff in hs && tile.wtile == wtile && tile.htile == htile {
          var j :| 0 <= j < |hs| && hs[j] == tile.hoff;
          assert c[j] == tile;
        }
      }
      assert ws == ws[..n] + [ws[n]];
    }
  }

  /** How the tile loops of extractSiftFeature end for a loaded image. */
  datatype Layout =
    | DivisionByZero     // `w / mTileNum` with mTileNum == 0
    | NonTerminating     // a tile size <= 0 for a non-empty extent: `off += size` never reaches it
    | Tiles(tiles: seq<Tile>)

  /** The tile loops as written, for an image of `dims` and tile count `t`. */
  function TileLayout(dims: Dims, t: int): (r: Layout)
    ensures r.Tiles? && dims.width > 0 && dims.height > 0 ==> t != 0 && TruncDiv(dims.width, t) > 0 && TruncDiv(dims.height, t) > 0
    ensures r == DivisionByZero <==> t == 0
  {
    if t == 0 then DivisionByZero
    else
      var wtile := TruncDiv(dims.width, t);
      var htile := TruncDiv(dims.height, t);
      if dims.width > 0 && wtile <= 0 then NonTerminating
      else if dims.width > 0 && dims.height > 0 && htile <= 0 then NonTerminating
      else if dims.width == 0 then Tiles([])
      else Tiles(Grid(Offsets(dims.width, wtile), if dims.height == 0 then [] else Offsets(dims.height, htile), wtile, htile))
  }

  /** For `0 < t <= min(w, h)` the loops end with tiles of w/t by h/t pixels
      at the offsets k·(w/t) < w and m·(h/t) < h; on an image of positive
      size, a count above either dimension, or a negative count, makes them
      loop forever. */
  lemma TileLayoutSpec(dims: Dims, t: int)
    ensures 0 < t <= dims.width && t <= dims.height ==>
      TileLayout(dims, t) == Tiles(Grid(Offsets(dims.width, dims.width / t), Offsets(dims.height, dims.height / t),
                                        dims.width / t, dims.height / t))
    ensures dims.width > 0 && (t < 0 || t > dims.width) ==> TileLayout(dims, t) == NonTerminating
    ensures dims.width > 0 && dims.height > 0 && t > dims.height ==> TileLayout(dims, t) == NonTerminating
    ensures dims.width == 0 && t != 0 ==> TileLayout(dims, t) == Tiles([])
  {
    if 0 < t <= dims.width && t <= dims.height {
      QuotientPositive(dims.width, t);
      QuotientPositive(dims.height, t);
    } else {
      if dims.width > 0 && t > dims.width {
        assert TruncDiv(dims.width, t) == 0 by {
          QuotientZero(dims.width, t);
        }
      }
      if dims.height > 0 && t > dims.height {
        assert TruncDiv(dims.height, t) == 0 by {
          QuotientZero(dims.height, t);
        }
      }
    }
  }

  lemma QuotientPositive(a: int, t: int)
    requires 0 < t <= a
    ensures a / t > 0
  {
    assert a == t * (a / t) + a % t;
  }

  lemma QuotientZero(a: int, t: int)
    requires 0 <= a < t
    ensures a / t == 0
  {
  }

  /** With one tile per image the single tile is the whole image. */
  lemma SingleTile(dims: Dims)
    requires dims.width > 0 && dims.height > 0
    ensures TileLayout(dims, 1) == Tiles([Tile(0, 0, dims.width, dims.height)])
  {
    assert OffsetsFrom(dims.width, dims.width, dims.width) == [];
    assert Offsets(dims.width, dims.width) == [0];
    assert OffsetsFrom(dims.height, dims.height, dims.height) == [];
    assert Offsets(dims.height, dims.height) == [0];
    assert Grid([0], [0], dims.width, dims.height) == Grid([], [0], dims.width, dims.height) + [Tile(0, 0, dims.width, dims.height)];
  }

  /** An exact division gives t × t tiles; an inexact one gives more. */
  lemma TileGridSize(dims: Dims, t: int)
    requires 0 < t <= dims.width && t <= dims.height
    ensures TileLayout(dims, t).Tiles?
    ensures dims.width % t == 0 && dims.height % t == 0 ==> |TileLayout(dims, t).tiles| == t * t
    ensures dims.width % t != 0 || dims.height % t != 0 ==> |TileLayout(dims, t).tiles| > t * t
  {
    TileLayoutSpec(dims, t);
    OffsetCount(dims.width, t);
    OffsetCount(dims.height, t);
    var a := |Offsets(dims.width, dims.width / t)|;
    var b := |Offsets(dims.height, dims.height / t)|;
    assert |TileLayout(dims, t).tiles| == a * b;
    ProductBound(a, b, t);
  }

  lemma ProductBound(a: int, b: int, t: int)
    requires 0 < t <= a && t <= b
    ensures a * b >= t * t
    ensures a == t && b == t ==> a * b == t * t
    ensures a > t || b > t ==> a * b > t * t
  {
    MulMono(t, a, b);
    MulMono(t, b, t);
    if a > t {
      MulMono(t + 1, a, b);
    }
    if b > t {
      MulMono(t + 1, b, t);
    }
  }

  // ---------------------------------------------------------------------------
  // Merging the tile results

  /** The engine's keypoints of a tile, moved by the tile offset. */
  function Shift(fs: seq<SiftFeature>, tile: Tile): (keys: seq<Keypoint>)
    ensures |keys| == |fs|
    ensures forall i :: 0 <= i < |fs| ==>
      keys[i] == Keypoint(fs[i].key.x + tile.woff as real, fs[i].key.y + tile.hoff as real, fs[i].key.s, fs[i].key.o)
  {
    seq(|fs|, i requires 0 <= i < |fs| =>
      Keypoint(fs[i].key.x + tile.woff as real, fs[i].key.y + tile.hoff as real, fs[i].key.s, fs[i].key.o))
  }

  /** Subtracting the tile offsets from a shifted keypoint gives back the
      engine's keypoint; a tile at the origin leaves the keypoints as they are. */
  lemma ShiftUndo(fs: seq<SiftFeature>, tile: Tile)
    ensures forall i :: 0 <= i < |fs| ==>
      var k := Shift(fs, tile)[i];
      Keypoint(k.x - tile.woff as real, k.y - tile.hoff as real, k.s, k.o) == fs[i].key
    ensures tile.woff == 0 && tile.hoff == 0 ==>
      forall i :: 0 <= i < |fs| ==> Shift(fs, tile)[i] == fs[i].key
  {
  }

  /** The loop state of the tile loops: `nbFeatureFound`, the merged keys and
      descriptors, and the `extracted` flag. */
  datatype Merged = Merged(found: int, keys: seq<Keypoint>, descriptors: seq<real>, extracted: bool)

  /** The features a tile contributes: nothing when the engine fails or finds none. */
  function Contribution(r: Option<seq<SiftFeature>>): seq<SiftFeature>
  {
    if r.Some? then r.value else []
  }

  /** Reference: the number of features over all tiles. */
  function Total(tiles: seq<Tile>, sift: Tile -> Option<seq<SiftFeature>>): (n: nat)
  {
    if |tiles| == 0 then 0 else |Contribution(sift(tiles[0]))| + Total(tiles[1..], sift)
  }

  /** Reference: the shifted keypoints of all tiles, in tile order. */
  function AllKeys(tiles: seq<Tile>, sift: Tile -> Option<seq<SiftFeature>>): seq<Keypoint>
  {
    if |tiles| == 0 then [] else Shift(Contribution(sift(tiles[0])), tiles[0]) + AllKeys(tiles[1..], sift)
  }

  /** Reference: the descriptors of all tiles, in tile order. */
  function AllDescriptors(tiles: seq<Tile>, sift: Tile -> Option<seq<SiftFeature>>): seq<real>
  {
    if |tiles| == 0 then [] else FlattenDescriptors(Contribution(sift(tiles[0]))) + AllDescriptors(tiles[1..], sift)
  }

  /** The body of the tile loops, tile after tile. */
  function Merge(tiles: seq<Tile>, sift: Tile -> Option<seq<SiftFeature>>): (m: Merged)
    ensures |m.descriptors| == DescriptorWidth * |m.keys|
    ensures m.found == -1 || m.found > 0
    ensures m.extracted <==> forall i :: 0 <= i < |tiles| ==> sift(tiles[i]).Some?
  {
    if |tiles| == 0 then Merged(-1, [], [], true)
    else
      var m := Merge(tiles[..|tiles| - 1], sift);
      var tile := tiles[|tiles| - 1];
      match sift(tile)
      case None => m.(extracted := false)
      case Some(fs) =>
        if |fs| > 0 then
          Merged(if m.found == -1 then |fs| else m.found + |fs|,
                 m.keys + Shift(fs, tile), m.descriptors + FlattenDescriptors(fs), m.extracted)
        else m
  }

  lemma TotalAppend(a: seq<Tile>, b: seq<Tile>, sift: Tile -> Option<seq<SiftFeature>>)
    ensures Total(a + b, sift) == Total(a, sift) + Total(b, sift)
    ensures AllKeys(a + b, sift) == AllKeys(a, sift) + AllKeys(b, sift)
    ensures AllDescriptors(a + b, sift) == AllDescriptors(a, sift) + AllDescriptors(b, sift)
  {
    if |a| > 0 {
      assert (a + b)[1..] == a[1..] + b;
      TotalAppend(a[1..], b, sift);
    } else {
      assert a + b == b;
    }
  }

  /** The merge gives -1 when no tile produced a feature and the sum of the
      tile counts otherwise; the keys are each tile's keys shifted by its
      offset and the descriptors each tile's descriptors, in tile order. */
  lemma {:induction false} MergeSpec(tiles: seq<Tile>, sift: Tile -> Option<seq<SiftFeature>>)
    ensures var m := Merge(tiles, sift);
      && m.found == (if Total(tiles, sift) == 0 then -1 else Total(tiles, sift))
      && m.keys == AllKeys(tiles, sift)
      && m.descriptors == AllDescriptors(tiles, sift)
  {
    if |tiles| > 0 {
      var n := |tiles| - 1;
      var front := tiles[..n];
      var tile := tiles[n];
      MergeSpec(front, sift);
      assert tiles == front + [tile];
      TotalAppend(front, [tile], sift);
      SingleTileTotals(tile, sift);
      MergeLast(tiles, sift);
    }
  }

  /** The reference totals of one tile are its contribution. */
  lemma SingleTileTotals(tile: Tile, sift: Tile -> Option<seq<SiftFeature>>)
    ensures Total([tile], sift) == |Contribution(sift(tile))|
    ensures AllKeys([tile], sift) == Shift(Contribution(sift(tile)), tile)
    ensures AllDescriptors([tile], sift) == FlattenDescriptors(Contribution(sift(tile)))
  {
    assert [tile][1..] == [];
  }

  /** The last tile appends its contribution to the merge of the others. */
  lemma MergeLast(tiles: seq<Tile>, sift: Tile -> Option<seq<SiftFeature>>)
    requires |tiles| > 0
    ensures var m, m0 := Merge(tiles, sift), Merge(tiles[..|tiles| - 1], sift);
      var c := Contribution(sift(tiles[|tiles| - 1]));
      && m.keys == m0.keys + Shift(c, tiles[|tiles| - 1])
      && m.descriptors == m0.descriptors + FlattenDescriptors(c)
      && m.found == (if |c| == 0 then m0.found else if m0.found == -1 then |c| else m0.found + |c|)
  {
    var tile := tiles[|tiles| - 1];
    var c := Contribution(sift(tile));
    if |c| == 0 {
      assert Shift(c, tile) == [];
      assert FlattenDescriptors(c) == [];
    }
  }

  /** Outcome of extractSiftFeature. */
  datatype Extraction =
    | LoadFailed                                   // ilLoadImage fails: nothing pushed
    | Stuck(layout: Layout)                         // the tile loops divide by zero or do not end
    | Extracted(found: int, info: FeatureInfo, extracted: bool)

  /** extractSiftFeature for an image the codec loads as `image`, with tile
      count `t` and the engine `sift`. On success the feature set is pushed
      whatever the engine reported; `extracted` only decides the log line. */
  function ExtractSiftFeature(image: Option<Dims>, t: int, sift: Tile -> Option<seq<SiftFeature>>): (r: Extraction)
    ensures r.Extracted? ==>
      && r.info.WellFormed() && image.Some?
      && r.info.width == image.value.width && r.info.height == image.value.height
    ensures r.Extracted? ==> r.found == -1 || r.found == |r.info.points| > 0
    ensures r == LoadFailed <==> image.None?
    ensures r.Stuck? <==> image.Some? && !TileLayout(image.value, t).Tiles?
    ensures r.Extracted? ==>
      var layout := TileLayout(image.value, t);
      && layout.Tiles?
      && r.info.points == AllKeys(layout.tiles, sift)
      && r.info.descriptors == AllDescriptors(layout.tiles, sift)
  {
    match image
    case None => LoadFailed
    case Some(dims) =>
      match TileLayout(dims, t)
      case Tiles(tiles) =>
        var m := Merge(tiles, sift);
        MergeSpec(tiles, sift);
        TotalKeys(tiles, sift);
        Extracted(m.found, FeatureInfo(dims.width, dims.height, m.keys, m.descriptors), m.extracted)
      case other => Stuck(other)
  }

  lemma {:induction false} TotalKeys(tiles: seq<Tile>, sift: Tile -> Option<seq<SiftFeature>>)
    ensures |AllKeys(tiles, sift)| == Total(tiles, sift)
  {
    if |tiles| > 0 {
      TotalKeys(tiles[1..], sift);
    }
  }

  /** The value extractSiftFeature returns: -1 when the image does not load. */
  function ExtractReturnValue(r: Extraction): int
    requires !r.Stuck?
  {
    if r.Extracted? then r.found else -1
  }

  /** extractSiftFeature returns -1 when the image does not load or no tile
      yields a feature, and otherwise the number of keypoints found over all
      tiles, which is the number of keypoints in the pushed feature set. */
  lemma ExtractReturnValueSpec(image: Option<Dims>, t: int, sift: Tile -> Option<seq<SiftFeature>>)
    requires image.Some? ==> TileLayout(image.value, t).Tiles?
    ensures var r := ExtractSiftFeature(image, t, sift);
      && !r.Stuck?
      && (image.None? ==> ExtractReturnValue(r) == -1)
      && (image.Some? ==>
            var n := Total(TileLayout(image.value, t).tiles, sift);
            && r.Extracted? && n == |r.info.points|
            && ExtractReturnValue(r) == if n == 0 then -1 else n)
  {
    if image.Some? {
      var tiles := TileLayout(image.value, t).tiles;
      MergeSpec(tiles, sift);
      TotalKeys(tiles, sift);
    }
  }

  /** The tile count the program uses: `mTileNum` whatever the tiling flag. */
  function TileCountAsWritten(m: Matcher): int
  {
    m.tileNum
  }

  /** `tile 0` leaves tiling disabled but the count at 0: the program divides
      by zero on the first image it extracts. */
  lemma TileZeroAsWritten(glFullySupported: bool, d: real, r: real, dims: Dims, sift: Tile -> Option<seq<SiftFeature>>)
    ensures var m := NewMatcher(glFullySupported, d, r, 1, false, false, 0, false, 0);
      && !m.tiledMatchingEnabled
      && ExtractSiftFeature(Some(dims), TileCountAsWritten(m), sift) == Stuck(DivisionByZero)
  {
  }

  /** The intended tile count: the configured count when tiling is enabled,
      one tile otherwise. */
  function EffectiveTileNum(m: Matcher): (t: int)
    ensures !m.tiledMatchingEnabled ==> t == 1
    ensures m.tiledMatchingEnabled ==> t == m.tileNum
  {
    if m.tiledMatchingEnabled then m.tileNum else 1
  }

  /** With the intended count, a matcher with tiling disabled extracts every
      loaded image of positive size as one whole-image tile. */
  lemma EffectiveTileNumWholeImage(m: Matcher, dims: Dims, sift: Tile -> Option<seq<SiftFeature>>)
    requires !m.tiledMatchingEnabled && dims.width > 0 && dims.height > 0
    ensures var r := ExtractSiftFeature(Some(dims), EffectiveTileNum(m), sift);
      && r.Extracted?
      && r.info.points == Shift(Contribution(sift(Tile(0, 0, dims.width, dims.height))), Tile(0, 0, dims.width, dims.height))
  {
    SingleTile(dims);
    var tile := Tile(0, 0, dims.width, dims.height);
    MergeSpec([tile], sift);
    assert AllKeys([tile], sift) == Shift(Contribution(sift(tile)), tile) + AllKeys([], sift);
  }
}

=== FILE: types.dfy ===
/** The data model of BundlerMatcher.h: keypoints, per-image feature sets,
    matches between two images, and the settings a matcher is built with. */
module MatcherTypes {

  /** Number of components of every SIFT descriptor. */
  const DescriptorWidth: nat := 128

  /** Number of values of a C++ `unsigned int`. */
  const UIntRange: int := 0x1_0000_0000

  type UInt32 = x: int | 0 <= x < 0x1_0000_0000

  /** The C++ conversion of an `int` to `unsigned int`: reduction modulo 2^32. */
  function ToUInt32(x: int): (u: UInt32)
    ensures (u - x) % UIntRange == 0
    ensures 0 <= x < UIntRange ==> u == x
    ensures -UIntRange <= x < 0 ==> u == x + UIntRange
  {
    x % UIntRange
  }

  datatype Option<+T> = None | Some(value: T)

  /** Width and height reported by the image codec. */
  datatype Dims = Dims(width: nat, height: nat)

  /** A SIFT keypoint: position, scale and orientation (SiftGPU::SiftKeypoint). */
  datatype Keypoint = Keypoint(x: real, y: real, s: real, o: real)

  /** One 128-component descriptor, as the extraction engine hands it out. */
  type Block = b: seq<real> | |b| == 128 witness seq(128, _ => 0.0)

  /** A keypoint together with its descriptor, one entry of an engine result. */
  datatype SiftFeature = SiftFeature(key: Keypoint, descriptor: Block)

  /** FeatureInfo: the features of one image, descriptors stored flat. */
  datatype FeatureInfo = FeatureInfo(width: int, height: int, points: seq<Keypoint>, descriptors: seq<real>)
  {
    /** Each keypoint owns exactly one contiguous block of 128 descriptor values. */
    predicate WellFormed()
    {
      |descriptors| == DescriptorWidth * |points|
    }
  }

  /** The descriptor block of keypoint `i` in a flat descriptor vector. */
  function BlockOf(descriptors: seq<real>, i: nat): (b: seq<real>)
    requires DescriptorWidth * i + DescriptorWidth <= |descriptors|
    ensures |b| == DescriptorWidth
  {
    descriptors[DescriptorWidth * i .. DescriptorWidth * i + DescriptorWidth]
  }

  /** Dropping the first block shifts the block numbering by one. */
  lemma BlockOfTail(descriptors: seq<real>, i: nat)
    requires 0 < i && DescriptorWidth * i + DescriptorWidth <= |descriptors|
    ensures BlockOf(descriptors[DescriptorWidth..], i - 1) == BlockOf(descriptors, i)
  {
    var lo := DescriptorWidth * (i - 1);
    assert lo + DescriptorWidth == DescriptorWidth * i;
    var tail := descriptors[DescriptorWidth..];
    assert tail[lo .. lo + DescriptorWidth] == descriptors[lo + DescriptorWidth .. lo + 2 * DescriptorWidth];
  }

  /** A feature set without keypoints. */
  function EmptyFeatures(width: int, height: int): (info: FeatureInfo)
    ensures info.WellFormed() && |info.points| == 0
  {
    FeatureInfo(width, height, [], [])
  }

  /** Match: a pair of unsigned keypoint indices, one in each image. */
  datatype Match = Match(first: UInt32, second: UInt32)

  /** MatchInfo: the matches found between images `indexA` and `indexB`. */
  datatype MatchInfo = MatchInfo(indexA: int, indexB: int, matches: seq<Match>)

  /** Every match of `mi` indexes an existing keypoint of both images. */
  predicate MatchesInRange(mi: MatchInfo, a: FeatureInfo, b: FeatureInfo)
  {
    forall k :: 0 <= k < |mi.matches| ==>
      mi.matches[k].first < |a.points| && mi.matches[k].second < |b.points|
  }

  /** The descriptors of a sequence of engine features, laid end to end. */
  function FlattenDescriptors(fs: seq<SiftFeature>): (d: seq<real>)
    ensures |d| == DescriptorWidth * |fs|
  {
    if |fs| == 0 then [] else FlattenDescriptors(fs[..|fs| - 1]) + fs[|fs| - 1].descriptor
  }

  lemma {:induction false} FlattenDescriptorsAt(fs: seq<SiftFeature>, i: int, k: int)
    requires 0 <= i < |fs| && 0 <= k < DescriptorWidth
    ensures DescriptorWidth * i + k < |FlattenDescriptors(fs)|
    ensures FlattenDescriptors(fs)[DescriptorWidth * i + k] == fs[i].descriptor[k]
  {
    var n := |fs| - 1;
    var front := fs[..n];
    assert |FlattenDescriptors(front)| == DescriptorWidth * n;
    if i < n {
      FlattenDescriptorsAt(front, i, k);
      assert DescriptorWidth * i + k < DescriptorWidth * n by {
        assert DescriptorWidth * i + DescriptorWidth <= DescriptorWidth * n;
      }
    } else {
      assert DescriptorWidth * i + k == DescriptorWidth * n + k;
    }
  }

  /** The fields of a BundlerMatcher object once its constructor has run. */
  datatype Matcher = Matcher(
    initialized: bool,
    distanceThreshold: real,
    ratioThreshold: real,
    firstOctave: int,
    binaryWritingEnabled: bool,
    sequenceMatchingEnabled: bool,
    sequenceMatchingLength: int,
    tiledMatchingEnabled: bool,
    tileNum: int,
    tilePercent: real,
    pairedMatchingEnabled: bool)

  /** The BundlerMatcher constructor. `glFullySupported` stands for the answer of
      the GPU context creation, which decides `mIsInitialized`; the remaining
      parameters carry the header's default values. The header declares the
      last two parameters, which the constructor's definition does not take;
      they are stored here as the header's fields. */
  function NewMatcher(glFullySupported: bool, distanceThreshold: real, ratioThreshold: real,
                      firstOctave: int := 1, binaryWritingEnabled: bool := false,
                      sequenceMatching: bool := false, sequenceMatchingLength: int := 5,
                      tileMatching: bool := false, tileNum: int := 1,
                      tilePercent: real := 1.0, pairMatchingEnabled: bool := false): (m: Matcher)
    ensures m.initialized <==> glFullySupported
    ensures m.distanceThreshold == distanceThreshold && m.ratioThreshold == ratioThreshold
    ensures m.firstOctave == firstOctave && m.binaryWritingEnabled == binaryWritingEnabled
    ensures m.sequenceMatchingEnabled == sequenceMatching && m.sequenceMatchingLength == sequenceMatchingLength
    ensures m.tiledMatchingEnabled == tileMatching && m.tileNum == tileNum
    ensures m.tilePercent == tilePercent && m.pairedMatchingEnabled == pairMatchingEnabled
  {
    Matcher(glFullySupported, distanceThreshold, ratioThreshold, firstOctave, binaryWritingEnabled,
            sequenceMatching, sequenceMatchingLength, tileMatching, tileNum, tilePercent, pairMatchingEnabled)
  }

  /** Building a matcher from the two thresholds alone gives the header's defaults. */
  lemma HeaderDefaults(distanceThreshold: real, ratioThreshold: real)
    ensures var m := NewMatcher(true, distanceThreshold, ratioThreshold);
      && m.firstOctave == 1 && m.sequenceMatchingLength == 5 && m.tileNum == 1 && m.tilePercent == 1.0
      && !m.binaryWritingEnabled && !m.sequenceMatchingEnabled && !m.tiledMatchingEnabled && !m.pairedMatchingEnabled
  {
  }
}
